=== FILE: README.md ===
# A Dafny model of oioioi's problem packages, quiz problems, submission forms and portals

This project models the core of the oioioi contest system in Dafny and proves properties of the model. It covers five areas.

- **Problem packages (sinol format).** A package names its tests by convention:
  - "0" and the "…ocen" tests are examples;
  - "1a", "1b" and the like belong to group 1.

  A model solution's file name gives its expected verdict class: normal, slow ("s") or incorrect ("b"). Uploading a package does the following:
  - collects the tests;
  - checks their time and memory limits against the installation's ceilings;
  - resolves every scored group's maximum score, either from the package's score table or by the automatic split of 100 points;
  - records the package as OK or ERR;
  - creates the problem's main instance and, for an upload from a contest, a contest instance with the contest's default submission limit.

  Re-uploading the package replaces every instance's tests and keeps their limits. Judging scores each group all or nothing. Exporting a problem lists the archive entries `doc/`, `in/`, `out/` and `prog/`. The test-suite decorator that runs a test in both unpack configurations is modelled as a rewrite of a class dictionary.
- **Quiz problems.** This part covers:
  - the rows of questions, answers and chosen answers, with their 140-character texts and boolean defaults;
  - the quiz controller's form adjustment, one radio or checkbox field per question, tagged with the problem instance;
  - its validation, where an empty single choice is "Answer is required here." and an answer of another question is "Illegal answer";
  - the expansion of a submission into chosen-answer rows;
  - the rendering of a submission, which marks exactly the chosen answers.
- **The submission form.** This part covers:
  - the problem selector's choices, with a blank choice only when there are several instances;
  - the instance whose controllers adjust the form;
  - the `data-submit` tagging of fields: a per-instance tag, or "default";
  - the ordered checks of `clean`: default kind, unknown problem, submission limit, permission, allowed language, then the controller's own validation.
- **The contest forms and the submit script.** The simple contest form keeps a contest at exactly one round. The rejudge form's choices depend on whether active tests are used and on the number of problem instances. The submit page's script shows the fields tagged for the selected instance, or else the default ones.
- **Portals.** This part covers:
  - creating the global portal or a user's portal, at most one per owner;
  - dispatching a portal URL to a node or portal action, with a default action taken to be `show_node`;
  - the permission conditions of the actions defined there;
  - validating a node-move request;
  - the `}{` → `},{` fix-up of the portal tree's JSON.

I/O, the ORM, HTTP, templates and controller hooks defined elsewhere appear as parameters of the functions that use them. The hooks are submission limits, permissions, allowed languages and path resolution.

Where the modelled code leaves a value or an order open, the model takes it from the repository's tests or from Django's behaviour:
- The automatic split puts the remainder of 100 on the last scored group. The package tests assert 33, 33 and 34 for groups 1, 2 and 3.
- Judging is all-or-nothing per group. The judging test asserts a score of 34 with one failed test in group 1 and one in group 2, and 34 is what per-group scoring gives.
- The default memory limit is taken to be 66000 KiB. This is an inference: the interactive-package test asserts 66000 for its one test, and the source does not say whether that value is the package's own or the default. The full package's test "0" has 133000 KiB, a value the package itself sets.
- The default time limit is 10000 ms, the value for which five tests total the "50s" of the limit test.
- The judging fixture needs a verdict assignment consistent with its counts (4 OK, 1 WA, 1 RE). The model uses 1b WA and 2 RE; which tests fail is not visible in the source.
- `DEFAULT_ACTION_NAME` is defined in oioioi/portals/actions.py, which is not part of this model. It is taken to be `show_node`, the node action every visitor may run.
- `Ingest` checks the limits before the scores, and `CheckLimits` checks the memory limit before the time sum. The source does not show which refusal a package breaking both rules gets.
- The remainder rule is asserted by the package tests only for up to three groups (tests.py:229-304). The model applies it to any number.
- In `clean`, Django's `add_error` removes the field from the cleaned data. The quiz validation gets that cleaned data, and the model removes the required fields from it too.

## Model

| member | source | states |
|---|---|---|
| SinolHarness.BothConfigurations | oioioi/sinolpack/tests.py:60-63 | marking a test function leaves its body and settings alone and sets the flag the class decorator looks for |
| SinolHarness.EnableBothUnpackConfigurations | oioioi/sinolpack/tests.py:48-56 | when no names clash, every marked method is replaced by a `_safe` copy with makefiles off and an `_unsafe` copy with makefiles on; unmarked members stay as they are, and nothing else is added |
| SinolHarness.DecorateReplaces | oioioi/sinolpack/tests.py:48-56 | the decorator's loop over a snapshot of the class dictionary keeps, swaps and covers exactly the members processed so far (loop invariant proved by induction on the snapshot) |
| SinolTests.ClassifyTest | oioioi/sinolpack/tests.py:277-305 | a name is a test exactly when it is digits followed by lower-case letters; it is an example exactly when its digits are exactly "0" (so "00" is scored) or it ends in "ocen"; an "…ocen" test is its own group, and a scored test's group is its digits, never "0" |
| SinolTests.ExampleGroupsAreNotScored | oioioi/sinolpack/tests.py:293-304 | an example never shares a group with a scored test, so "1ocen" does not join group 1 |
| SinolTests.AssertedTestNames | oioioi/sinolpack/tests.py:277-304 | "0" and "1ocen" are examples of their own groups; "1a", "1b", "1c" are in group 1; "2", "2a" and "3" are in their number's group |
| SinolTests.ClassifySolutionNamed | oioioi/sinolpack/tests.py:313-324 | a program file is a model solution exactly when its name is the short name, digits, an optional "s" or "b" marker, digits and a dot-free extension; its kind is the marker's (none normal, "s" slow, "b" incorrect), however the name is split |
| SinolTests.ToolsAreNotSolutions | oioioi/sinolpack/tests.py:307-324 | the checker `sumchk.cpp` and the input generator `sumingen.cpp` of the "sum" package are not model solutions |
| SinolTests.OrderedSolutions | oioioi/sinolpack/tests.py:313-325 | the listing is a permutation of the model solutions, ordered normal, then slow, then incorrect |
| SinolTests.AssertedSolutionOrder | oioioi/sinolpack/tests.py:313-325 | the "sum" package lists sum.c, sum1.pas, sums1.cpp, sumb0.c with kinds normal, normal, slow, incorrect |
| SinolScores.ScoredGroups | oioioi/sinolpack/tests.py:285-305 | the scored groups are distinct and are exactly the groups of the non-example tests |
| SinolScores.AutoScores | oioioi/sinolpack/tests.py:285-304 | the automatic split gives every scored group 100 / n points and the last group also the remainder |
| SinolScores.AutoScoresTotal | oioioi/sinolpack/tests.py:285-304 | the automatic scores of n ≥ 1 distinct groups add up to exactly 100 |
| SinolScores.AssertedSplits | oioioi/sinolpack/tests.py:285-304 | one group gets 100, two get 50 and 50, three get 33, 33 and 34 |
| SinolScores.ResolveScores | oioioi/sinolpack/tests.py:156-188 | an empty table means the automatic split; otherwise it succeeds exactly when the table's keys are the scored groups, using its scores as given; a key naming no scored group is refused before a missing group |
| SinolScores.ScoreMessage | oioioi/sinolpack/tests.py:169-188 | an unknown key's message contains "no such test group exists" and the key; a missing group's contains "Score for group", the group and "not found" |
| SinolLimits.EffectiveLimit | oioioi/sinolpack/tests.py:222-231 | a test's limit is the one the package gives, or the default |
| SinolLimits.CheckLimits | oioioi/sinolpack/tests.py:597-609 | limits pass exactly when every memory limit is within the memory ceiling and the total time is within the time ceiling; a refusal names the ceiling it broke, memory first |
| SinolLimits.LimitMessage | oioioi/sinolpack/tests.py:599-608 | the memory message starts with the ceiling in KiB; the time message starts with "Sum of time limits for all tests is too big. It's <total>s, but it shouldn't exceed <ceiling>s." in whole seconds |
| SinolLimits.FiftyOverTwoSentence | oioioi/sinolpack/tests.py:600-602 | the refusal of a 50 s total against a 2 s ceiling contains the asserted sentence "Sum of time limits for all tests is too big. It's 50s, but it shouldn't exceed 2s." |
| SinolLimits.AssertedTimeLimitRefusal | oioioi/sinolpack/tests.py:598-602 | five tests at the default time limit against a 2000 ms ceiling are refused, and the message contains the whole asserted sentence "Sum of time limits for all tests is too big. It's 50s, but it shouldn't exceed 2s." |
| SinolLimits.AssertedMemoryLimitRefusal | oioioi/sinolpack/tests.py:604-608 | a 10 KiB ceiling refuses a default-limit test with "Memory limit mustn't be greater than 10KiB" |
| SinolIngest.ToTest | oioioi/sinolpack/tests.py:215-239 | a stored test keeps its name and data, takes the group and kind its name gives, and takes the package's limits or the defaults |
| SinolIngest.CollectTests | oioioi/sinolpack/tests.py:274-305 | the tests are exactly the files named like tests, each classified by its name |
| SinolIngest.AssignScores | oioioi/sinolpack/tests.py:156-167 | every test keeps everything but its maximum score, which becomes its group's score, or 0 for an example |
| SinolIngest.Ingest | oioioi/sinolpack/tests.py:156-188 | a package is accepted exactly when its limits pass and its score table is empty or names exactly the scored groups; an accepted problem's tests are the collected ones with scores, examples worth 0, and its solutions and attachments are the package's |
| SinolIngest.IngestedTestsConsistent | oioioi/sinolpack/tests.py:597-609 | in an accepted package, tests of one group carry one score, and the limits respect both ceilings |
| SinolIngest.IngestedGroupScores | oioioi/sinolpack/tests.py:156-167 | every scored test of an accepted package carries the score its group resolved to |
| SinolIngest.SharedGroupScore | oioioi/sinolpack/tests.py:285-291 | two tests of one group carry the same maximum score |
| SinolIngest.AssertedExplicitScores | oioioi/sinolpack/tests.py:156-167 | with the table {1: 42, 2: 23}, tests 1a, 1b and 1c carry 42 and test 2 carries 23 |
| SinolIngest.ExplicitScoreOfTest | oioioi/sinolpack/tests.py:156-167 | a scored test of an accepted package carries the score its group's row of the table gives |
| SinolIngest.IngestedClassified | oioioi/sinolpack/tests.py:274-305 | the tests of an accepted package keep the group and kind their names give |
| SinolIngest.ProcessPackage | oioioi/sinolpack/tests.py:169-188 | the package is OK exactly when a problem is made; when ERR, there is no problem and the info is the failure's message |
| SinolIngest.UnknownScoreGroupRefused | oioioi/sinolpack/tests.py:169-177 | a table key naming no scored group leaves the package in ERR with no problem and "no such test group exists" in its info |
| SinolIngest.MissingScoreGroupRefused | oioioi/sinolpack/tests.py:179-188 | a scored group missing from an otherwise valid table leaves the package in ERR with "Score for group" and "not found" in its info |
| SinolIngest.AddProblem | oioioi/sinolpack/tests.py:408-435 | adding creates the main instance and, for a contest upload, a contest instance whose submission limit is the contest's default; each has the package's tests |
| SinolIngest.UpdateProblem | oioioi/sinolpack/tests.py:437-475 | a refused re-upload leaves the problem unchanged; an accepted one gives every instance the package's tests and keeps each instance's contest and submission limit |
| SinolIngest.ReuploadIsIdempotent | oioioi/sinolpack/tests.py:457-475 | re-uploading the package a problem came from leaves the problem as it was |
| SinolIngest.ReuploadRestoresDeletedTests | oioioi/sinolpack/tests.py:437-475 | after every instance's tests are deleted, re-uploading the package restores the stored problem exactly, and the contest instance keeps its limit of 123, because `UpdateProblem` reads no contest default |
| SinolJudging.JudgeTests | oioioi/sinolpack/tests.py:546-569 | one report per test, in order, with the test's group and its verdict |
| SinolJudging.ScoreBounded | oioioi/sinolpack/tests.py:546-575 | a submission never scores more than the problem is worth, and scores all of it exactly when every group worth points passed in full |
| SinolJudging.FullPassEarnsEverything | oioioi/sinolpack/tests.py:394-397 | passing every test earns the problem's full worth |
| SinolJudging.ScoreMonotone | oioioi/sinolpack/tests.py:546-575 | turning failed tests into passed ones never lowers the score |
| SinolJudging.FailedTestVoidsGroup | oioioi/sinolpack/tests.py:566-572 | one failed test makes its whole group fail |
| SinolJudging.AutoScoredFullPassEarns100 | oioioi/sinolpack/tests.py:394-397 | for a package with automatic scores and a scored group, passing every test earns exactly 100 |
| SinolJudging.AssertedJudgingScore | oioioi/sinolpack/tests.py:546-575 | the "sum" fixture gives six reports, four OK, and a score of 34 |
| SinolExport.ParseEntry | oioioi/sinolpack/tests.py:521-540 | reading an archive path back gives an entry whose path is that path |
| SinolExport.ParseEntryPath | oioioi/sinolpack/tests.py:521-540 | every entry's archive path reads back as that entry |
| SinolExport.ExportEntriesMembers | oioioi/sinolpack/tests.py:521-540 | the exported entries are exactly the documents, the input and output of every test, and the programs |
| SinolExport.ExportedTestsReadBack | oioioi/sinolpack/tests.py:521-540 | an input entry is read back from the exported paths exactly for the problem's tests |
| SinolExport.AssertedExportListing | oioioi/sinolpack/tests.py:511-540 | the "sum" package's statement, tests and programs export exactly the 17 listed paths under doc/, in/, out/ and prog/ |
| SinolExport.IngestedExport | oioioi/sinolpack/tests.py:511-540 | an ingested problem's archive holds its documents, its collected tests' inputs and outputs, and its model solutions in listing order |
| SinolExport.ExportSwapLast | oioioi/sinolpack/tests.py:511-540 | exchanging the last two programs exchanges the last two archive paths and nothing else |
| SinolExport.AssertedProblemExport | oioioi/sinolpack/tests.py:511-540 | the problem ingested from the "sum" package exports the 17 listed paths, as a multiset, because the test sorts the names it compares |
| FormFields.Put | oioioi/quizzes/controllers.py:95-107 | assigning a form field keeps names unique, adds the name if it is new, makes the field the one found under it, and leaves every other name's field alone |
| FormFields.SetCustomFieldAttributes | oioioi/contests/forms.py:176-185 | the field gets the instance's id, as text, as its data-submit tag; nothing else changes |
| FormFields.AddError | oioioi/quizzes/controllers.py:71-73 | the message is appended to the field's errors, other fields' errors are kept, and the field leaves the cleaned data |
| QuizModels.NewQuestion | oioioi/quizzes/models.py:12-16 | a question is refused exactly when its text exceeds 140 characters; "is multiple choice" defaults to false |
| QuizModels.NewAnswer | oioioi/quizzes/models.py:19-23 | an answer is refused exactly when its text exceeds 140 characters; "is correct" defaults to false |
| QuizModels.AnswerHasOneQuestion | oioioi/quizzes/models.py:19-21 | in a well-formed store an answer's question exists and is unique, and it is the only question listing the answer |
| QuizModels.QuestionHasOneQuiz | oioioi/quizzes/models.py:12-16 | in a well-formed store (unique question ids), a question appears exactly once in its quiz's question list and in no other quiz's list |
| QuizModels.ChosenBy | oioioi/quizzes/models.py:30-33 | the answers a submission chose are exactly those of its submission-answer rows |
| QuizController.ParseFieldNameOf | oioioi/quizzes/controllers.py:54-55 | a question field's name reads back as its instance and question ids |
| QuizController.FieldNameInjective | oioioi/quizzes/controllers.py:54-55 | distinct (instance, question) pairs get distinct field names |
| QuizController.AdjustSubmissionForm | oioioi/quizzes/controllers.py:87-108 | every question of the quiz gets its field under its name, tagged with the instance; every other field stays as it was; no other name appears |
| QuizController.ChoicesAreLegal | oioioi/quizzes/controllers.py:91-107 | every choice a question's field offers passes that question's answer check |
| QuizController.ParseAll | oioioi/quizzes/controllers.py:69-75 | every raw string is read as a number before any lookup: success exactly when all are digit strings, with the values in order; otherwise a `NotANumber` error naming an unreadable string |
| QuizController.CheckAnswers | oioioi/quizzes/controllers.py:69-83 | the answer check passes exactly when every named answer exists and belongs to the question; any unreadable string raises `NotANumber` before a lookup; otherwise a failure is a missing answer or "Illegal answer" |
| QuizController.ForeignAnswerIsIllegal | oioioi/quizzes/controllers.py:78-83 | when every named answer exists, one that belongs to another question raises "Illegal answer" |
| QuizController.ForeignIdIsIllegal | oioioi/quizzes/controllers.py:78-83 | over read ids that all exist, one belonging to another question makes the check raise "Illegal answer" |
| QuizController.ValidateQuestion | oioioi/quizzes/controllers.py:61-83 | a question passes exactly when its field already has an error, or its value is present, of the right type and names only answers of that question; on success an empty single choice without an earlier error gets "Answer is required here." and leaves the data, and otherwise nothing changes |
| QuizController.ValidateQuestionsState | oioioi/quizzes/controllers.py:57-85 | validation runs up to the first question not accepted: it succeeds exactly when there is none; otherwise that question raises, with the errors and data the earlier questions left (proved by induction) |
| QuizController.ValidateQuestionsSpec | oioioi/quizzes/controllers.py:57-85 | validating a list passes exactly when every question is accepted, and the errors and data are then the required-field errors added and those fields removed (proved by induction) |
| QuizController.ValidateSubmissionForm | oioioi/quizzes/controllers.py:57-85 | validation passes exactly when every quiz question is accepted; only the empty single-choice fields get "Answer is required here." and leave the data; on failure the first question not accepted raises, and the form keeps the required errors added before it, without their fields |
| QuizController.LookupAll | oioioi/quizzes/controllers.py:137-139 | looking ids up succeeds exactly when every id names an answer, and then gives them back; otherwise it fails with `NoSuchAnswer` naming a missing id |
| QuizController.ReadAnswers | oioioi/quizzes/controllers.py:129-139 | reading raw strings succeeds exactly when each one reads as an existing answer, giving their ids in order; an unreadable string fails with `NotANumber` before any lookup |
| QuizController.ChosenAnswers | oioioi/quizzes/controllers.py:129-139 | reading succeeds exactly when every listed question's value has the right type and each string in it reads as an existing answer's id; the ids are then exactly those written in the values |
| QuizController.ReadIdsNamed | oioioi/quizzes/controllers.py:133-139 | the ids read from one question's value are exactly the ids written in it, and each is an existing answer's |
| QuizController.CreateSubmission | oioioi/quizzes/controllers.py:110-148 | creation succeeds exactly when every answer reads; it stores one row per chosen answer in order, the submission's chosen answers are exactly those, and judging follows only when asked |
| QuizController.MarkRowsSelects | oioioi/quizzes/controllers.py:168-172 | after marking, an answer is selected exactly when it was already or one of the submission's rows names it (proved by induction over the rows) |
| QuizController.MarkRowsOk | oioioi/quizzes/controllers.py:168-172 | marking the rows of a complete structure fails exactly when a chosen answer is missing or belongs to a question the structure lacks (proved by induction over the rows) |
| QuizController.RenderSubmission | oioioi/quizzes/controllers.py:150-177 | rendering succeeds exactly when every chosen answer exists and belongs to one of the quiz's questions; the rendering has the quiz's questions and answers in order, and an answer is selected exactly when the submission chose it |
| QuizController.AcceptedExpands | oioioi/quizzes/controllers.py:63-83 | a question that validation accepted with no field error, and that is not an empty single choice, has a value creation can read, and every id in it is an answer of that question |
| QuizController.NoRequiredFields | oioioi/quizzes/controllers.py:57-85 | when validation leaves no error on any question's field, no required answer was missing and the cleaned data is the data validated |
| QuizController.UnflaggedQuestionExpands | oioioi/quizzes/controllers.py:57-85 | a question of such a form has a value creation can read, and every id in it is an answer of that question |
| QuizController.ValidatedFormCreates | oioioi/quizzes/controllers.py:57-148 | when validation passes and leaves no error on any question's field, the cleaned data is the data validated, creation from it succeeds, and every id written for a question is stored and is an answer of that question |
| QuizController.ValidatedFormRenders | oioioi/quizzes/controllers.py:57-177 | for such a form, the created submission renders, and an answer is selected exactly when some question's value names it |
| QuizController.CreateThenRender | oioioi/quizzes/controllers.py:110-177 | when every created answer belongs to one of the quiz's questions, rendering the created submission succeeds and marks exactly the answers it was created with |
| SubmissionForm.InstanceChoices | oioioi/contests/forms.py:146-162 | one choice per instance (its id and text), in order, preceded by a blank choice exactly when there is more than one |
| SubmissionForm.SelectInstances | oioioi/contests/forms.py:124-135 | an explicit instance is used alone; otherwise all instances of the request's contest are used and the first is the form's; no contest and no instances are errors |
| SubmissionForm.DefaultTagging | oioioi/contests/forms.py:187-199 | only tags change: the selector is left alone, existing tags are kept, and every other field gets "default" |
| SubmissionForm.DefaultTaggingIdempotent | oioioi/contests/forms.py:187-199 | tagging with "default" twice is the same as once |
| SubmissionForm.BuildForm | oioioi/contests/forms.py:123-172 | the form's names are exactly the declared ones and those any adjusting controller puts, each once; every field but the selector is tagged; unless a controller replaces it, the selector is the declared one offering the submittable instances; an untouched declared field is its declared value, default tagged; a field controllers put is what the last of them put, default tagged |
| SubmissionForm.PutAll | oioioi/contests/forms.py:165-172 | `update` keeps names unique, adds the new names, and gives each name of the update the value of its last entry there, leaving the others alone |
| SubmissionForm.AdjustLookups | oioioi/contests/forms.py:165-172 | after every controller adjusts the form, a name no controller puts keeps its field and a name some controller puts holds what the last such controller put |
| SubmissionForm.SingleInstanceSelector | oioioi/contests/forms.py:251-260 | a form for one instance offers exactly that instance, with no blank choice |
| SubmissionForm.Clean | oioioi/contests/forms.py:207-248 | without a selected problem only the kind is defaulted; an unknown problem always gives the cleaned outcome, with the field's error set to "Invalid problem" and the field dropped |
| SubmissionForm.ValidateOnlyAfterChecks | oioioi/contests/forms.py:226-248 | once the limit, permission and language checks pass, the controller's validation has the last word |
| SubmissionForm.RefusalOrder | oioioi/contests/forms.py:226-237 | an exceeded, checked limit is reported before the permission decision; a denial carries its own message or "Permission denied" |
| SubmissionForm.DisallowedLanguageStops | oioioi/contests/forms.py:239-245 | a truthy, disallowed language gets "Disallowed language", is dropped, and the controller's validation is skipped |
| SubmissionForm.MissingLanguageCrashes | oioioi/contests/forms.py:239-241 | a permitted submission whose data lacks the language entry fails on the lookup |
| SubmissionForm.UncheckedLimitIgnored | oioioi/contests/forms.py:228-231 | without the limit check, the limit hook does not matter |
| SubmissionForm.RejectedOnlyByAFailingCheck | oioioi/contests/forms.py:213-248 | a form-wide refusal needs a known problem, and comes from the limit, a denial, or the controller's validation after every check passed |
| ContestForms.InitialDates | oioioi/contests/forms.py:32-58 | the form starts from the dates of the contest's one round, or else starts now with no end or results date; more than one round is an error |
| ContestForms.Save | oioioi/contests/forms.py:67-84 | saving leaves exactly one round with the cleaned dates, the existing one or a new "Round 1"; more than one round is an error |
| ContestForms.SaveThenEdit | oioioi/contests/forms.py:42-84 | reopening a saved contest shows the dates just saved |
| ContestForms.SaveIdempotent | oioioi/contests/forms.py:67-84 | saving again with the same dates changes nothing |
| ContestForms.TestsSelectionForm | oioioi/contests/forms.py:272-307 | the form fails exactly on an empty selection; otherwise it offers the selected submissions, initially "FULL" |
| ContestForms.RejudgeChoices | oioioi/contests/forms.py:283-302 | FULL always comes first; NEW is offered exactly when active tests are used, and then second; JUDGED and the test list exactly for a single instance, and JUDGED then last; no choice is repeated |
| ContestForms.OfferedTests | oioioi/contests/forms.py:274-302 | for a single instance, whether or not active tests are used, the offered tests are exactly the active tests of the first submission's instance |
| SubmitScript.SetFormToProblemInstance | oioioi/contests/static/common/submit.js:16-33 | the loops compute the visibility rule: untagged fields unchanged; the fields tagged with the id shown if there are any, else the "default" ones; all other tagged fields hidden |
| SubmitScript.LastSelectionWins | oioioi/contests/static/common/submit.js:17-30 | what is shown depends only on the last selected id, not on earlier selections |
| SubmitScript.NoCustomFieldsShowsDefault | oioioi/contests/static/common/submit.js:25-39 | an instance with no custom fields shows the same fields as the initial "default" selection |
| SubmitScript.UntaggedUnaffected | oioioi/contests/static/common/submit.js:17-30 | a field without a tag is never shown or hidden |
| SubmitScript.TaggedVisibility | oioioi/contests/static/common/submit.js:17-30 | a field tagged with the id is shown; a default field is shown exactly when the id has no custom fields; any other tagged field is hidden |
| PortalViews.CreatePortalFor | oioioi/portals/views.py:59-76 | at most one portal per owner is preserved; a portal is created exactly on a confirmed POST when the owner has none; an existing portal is redirected to |
| PortalViews.CreateGlobalPortal | oioioi/portals/views.py:35-54 | only a superuser may create the global portal, and it has no owner |
| PortalViews.CreateUserPortal | oioioi/portals/views.py:57-76 | an anonymous visitor is refused; a created portal belongs to the requesting user |
| PortalViews.CreateTwiceCreatesOnce | oioioi/portals/views.py:59-74 | confirming creation twice creates one portal |
| PortalViews.ActionName | oioioi/portals/views.py:80-83 | the action is the `action` query parameter, or the default action when it is absent; the default, `DEFAULT_ACTION_NAME` of oioioi/portals/actions.py, is taken to be `show_node` |
| PortalViews.Dispatch | oioioi/portals/views.py:79-96 | a node action runs on the resolved node; a portal action runs only if it is not also a node action; an unknown action or an unresolvable node path is not found |
| PortalViews.PortalActionsIgnorePath | oioioi/portals/views.py:88-94 | for actions that are not node actions, the path is never resolved |
| PortalViews.ActionConditions | oioioi/portals/views.py:109-221 | deleting a node is offered exactly to portal admins off the root; showing a node to everyone; every other action here needs a portal admin |
| PortalViews.DefaultShowsNode | oioioi/portals/views.py:79-96 | a portal URL without an action shows the node its path names |
| PortalViews.MapPosition | oioioi/portals/views.py:176-181 | before, after and inside map to left, right and first-child; nothing else maps |
| PortalViews.MoveNode | oioioi/portals/views.py:175-207 | a move is carried out only with a known position, existing target and node, an admin of the target's portal, no sibling of a root, the node in the target's portal, and the tree accepting it; a missing position is reported first, a missing target or a malformed target key only after a known position, and a missing node or a malformed node key only after every target check passed |
| PortalViews.ValidMoveIsCarriedOut | oioioi/portals/views.py:175-207 | a request meeting every rule is carried out |
| PortalViews.UnknownPositionRefused | oioioi/portals/views.py:178-180 | any other position word is refused |
| PortalViews.FixJsonSeparates | oioioi/portals/views.py:171 | after the fix-up no `}` is directly followed by `{` |
| PortalViews.FixJsonKeepsSeparated | oioioi/portals/views.py:171 | text without `}{` is left unchanged |
| PortalViews.FixJsonIdempotent | oioioi/portals/views.py:171 | applying the fix-up twice is the same as once |
| PortalViews.FixJsonOnlyInsertsCommas | oioioi/portals/views.py:171 | the fix-up only inserts commas: with commas ignored, output and input agree |

## Left out

- Reading archives, YAML configuration, titles, text encodings, statements, checkers, extra files and `ingen`/`inwer` runs are left out. The parsed package is a parameter (`Manifest`).
- Compiling and running solutions are left out. A submission's verdict per test is a parameter of `SinolJudging.JudgeTests`.
- The ORM, transactions, HTTP responses, redirects and templates are left out. Stores are sequences and maps, and responses are datatypes.
- The settings `MAX_TEST_TIME_LIMIT_PER_PROBLEM` and `MAX_MEMORY_LIMIT_FOR_TEST` are parameters.
- Controller hooks defined outside these files are parameters: `is_submissions_limit_exceeded`, `can_submit`, `get_allowed_languages`, `validate_submission_form` of other controllers, `adjust_submission_form` of other controllers, and `resolve_path`.
- `submittable_problem_instances` and `problem_filter` are left out. `BuildForm` receives the instances to offer.
- `SinolTests.ClassifySolution` accepts any non-empty extension without a dot. The installation's list of known language extensions is not modelled.
- Python's `int()` is modelled on plain digit strings only. Signs, spaces and underscores are treated as malformed, where Python would accept them.
- `SubmissionForm.FindInstance` matches the selector's value against the decimal text of an instance id. The selector's choices are exactly such texts, so Django's conversion is not modelled.
- HTML escaping of the rendered page is left out. The package tests look for the time-limit sentence with its apostrophes escaped as `&#39;`, and `SinolLimits.LimitMessage` states the message before escaping.
- The export listing is unordered in the archive. The model gives one order, and the listing lemma fixes the sorted names the test compares.
- The dictionary `.values()` order in `render_submission` is modelled as question and answer order.
- The widget attributes other than `data-submit`, `narrow_input_field` and `readonly` are left out.
- `Round.clean()` date validation in the simple contest form is left out. It is defined with the contest models, which are not part of this model.
- The `ModelMultipleChoiceField` of rejudged submissions is represented by the selected submissions alone.
- mptt's `move_to` is left out. It is the `moveOk` parameter of `PortalViews.MoveNode`.
- `PortalViews.MoveNode` stores each node with its tree's portal instead of walking to the root.
- The node and portal views that only render forms or templates are left out: `show_node`, `edit_node`, `add_node`, the body of `delete_node`, `manage_portal`, `delete_portal`, `render_markdown_view` and `my_portal_url`. Only their registration conditions are modelled.
- The registration machinery of portal actions is defined elsewhere, so `PortalViews.Offered` states the conditions as registered rather than how they are enforced.
- jQuery's `closest("div")` is left out: each field is its own group in `SubmitScript`.
- Logging, `logger.warn`, the request's user and timestamp in `create_submission`, and the judge call itself are left out. `CreateSubmission` only records whether judging follows.
- `PortalViews.Offered` covers only the actions registered in this module. Other modules may register more.

=== FILE: contest_forms.dfy ===
/** The simple contest form, which edits a contest together with its single
    round's dates, and the rejudge form's choice of rejudge types and tests. */
module ContestForms {

  import opened Results

  /** A date; `None` is an empty (optional) date. */
  type Date = Option<nat>

  datatype Dates = Dates(start: Date, end: Date, results: Date)

  datatype Round = Round(name: string, dates: Dates)

  const FirstRoundName: string := "Round 1"

  /** The form works on contests with at most one round; more is a
      `ValueError`. */
  datatype SimpleContestError = TooManyRounds

  /** The dates the form starts with: those of the contest's only round, or
      else a start of `now` and no end or results date. A new contest has no
      rounds to look at. */
  function InitialDates(rounds: Option<seq<Round>>, now: nat): (r: Result<Dates, SimpleContestError>)
    ensures r.Err? <==> rounds.Some? && |rounds.value| > 1
    ensures rounds.Some? && |rounds.value| == 1 ==> r == Ok(rounds.value[0].dates)
    ensures rounds.None? || |rounds.value| == 0 ==> r == Ok(Dates(Some(now), None, None))
  {
    match rounds
    case None => Ok(Dates(Some(now), None, None))
    case Some(rs) =>
      if |rs| > 1 then Err(TooManyRounds)
      else if |rs| == 1 then Ok(rs[0].dates)
      else Ok(Dates(Some(now), None, None))
  }

  /** Saving: the only round takes the cleaned dates, or, when there is no
      round yet, a round named "Round 1" is created with them. */
  function Save(rounds: seq<Round>, cleaned: Dates): (r: Result<seq<Round>, SimpleContestError>)
    ensures r.Err? <==> |rounds| > 1
    ensures r.Ok? ==> |r.value| == 1 && r.value[0].dates == cleaned
    ensures r.Ok? ==> r.value[0].name == if |rounds| == 1 then rounds[0].name else FirstRoundName
  {
    if |rounds| > 1 then Err(TooManyRounds)
    else if |rounds| == 1 then Ok([rounds[0].(dates := cleaned)])
    else Ok([Round(FirstRoundName, cleaned)])
  }

  /** Reopening a saved contest shows the dates just saved. */
  lemma SaveThenEdit(rounds: seq<Round>, cleaned: Dates, now: nat)
    requires |rounds| <= 1
    ensures Save(rounds, cleaned).Ok?
    ensures InitialDates(Some(Save(rounds, cleaned).value), now) == Ok(cleaned)
  {
  }

  /** Saving again with the same dates changes nothing, and a saved contest
      can always be saved again. */
  lemma SaveIdempotent(rounds: seq<Round>, cleaned: Dates)
    requires |rounds| <= 1
    ensures Save(Save(rounds, cleaned).value, cleaned) == Save(rounds, cleaned)
  {
  }

  // ---- rejudge form ----

  datatype RejudgeType = Full | New | Judged

  /** A submission to rejudge and the problem instance it belongs to. */
  datatype Submission = Submission(id: nat, problemInstance: nat)

  /** A test of a problem instance. */
  datatype TestRow = TestRow(name: string, problemInstance: nat, isActive: bool)

  /** The rejudge form: the rejudge types offered, the initial one, the test
      names offered when the submissions are of one instance, and the
      submissions, all initially selected. */
  datatype TestsSelection = TestsSelection(
    rejudgeTypes: seq<RejudgeType>,
    initial: RejudgeType,
    tests: Option<seq<string>>,
    submissions: seq<Submission>)

  /** An empty selection of submissions has no first one. */
  datatype SelectionError = NoSubmissions

  /** Builds the rejudge form. The offered tests are the active tests of the
      first submission's instance. */
  function TestsSelectionForm(queryset: seq<Submission>, pisCount: nat, usesIsActive: bool, tests: seq<TestRow>): (r: Result<TestsSelection, SelectionError>)
    ensures r.Err? <==> |queryset| == 0
    ensures r.Ok? ==> r.value.submissions == queryset && r.value.initial == Full
  {
    if |queryset| == 0 then Err(NoSubmissions)
    else
      var base := if usesIsActive then [Full, New] else [Full];
      var names := ActiveTestNames(tests, queryset[0].problemInstance);
      if pisCount == 1 then Ok(TestsSelection(base + [Judged], Full, Some(names), queryset))
      else Ok(TestsSelection(base, Full, None, queryset))
  }

  /** Names of the active tests of an instance, in table order. */
  function ActiveTestNames(tests: seq<TestRow>, pi: nat): (r: seq<string>)
    ensures forall n :: n in r <==> exists t | t in tests :: t.name == n && t.problemInstance == pi && t.isActive
  {
    if |tests| == 0 then []
    else
      var rest := ActiveTestNames(tests[1..], pi);
      assert forall t | t in tests :: t == tests[0] || t in tests[1..];
      if tests[0].problemInstance == pi && tests[0].isActive then [tests[0].name] + rest else rest
  }

  /** The offered rejudge types: "all tests" always comes first and is the
      initial choice; "new tests" is offered exactly when the contest uses
      active tests; "judged tests" and the test list are offered exactly
      when the submissions are of a single instance; the order is "all",
      "new", "judged", and nothing is offered twice. */
  lemma RejudgeChoices(queryset: seq<Submission>, pisCount: nat, usesIsActive: bool, tests: seq<TestRow>)
    requires |queryset| > 0
    ensures var f := TestsSelectionForm(queryset, pisCount, usesIsActive, tests).value;
      && f.rejudgeTypes[0] == Full && f.initial in f.rejudgeTypes
      && (New in f.rejudgeTypes <==> usesIsActive)
      && (Judged in f.rejudgeTypes <==> pisCount == 1)
      && (usesIsActive ==> f.rejudgeTypes[1] == New)
      && (pisCount == 1 ==> f.rejudgeTypes[|f.rejudgeTypes| - 1] == Judged)
      && (f.tests.Some? <==> pisCount == 1)
      && (forall i, j | 0 <= i < j < |f.rejudgeTypes| :: f.rejudgeTypes[i] != f.rejudgeTypes[j])
      && |f.rejudgeTypes| == 1 + (if usesIsActive then 1 else 0) + (if pisCount == 1 then 1 else 0)
  {
  }

  /** When the submissions are of a single instance, whether or not the
      contest uses active tests, the offered tests are exactly the active
      tests of the first submission's instance. */
  lemma OfferedTests(queryset: seq<Submission>, usesIsActive: bool, tests: seq<TestRow>, name: string)
    requires |queryset| > 0
    ensures var f := TestsSelectionForm(queryset, 1, usesIsActive, tests).value;
      f.tests.Some? &&
      (name in f.tests.value <==> exists t | t in tests :: t.name == name && t.problemInstance == queryset[0].problemInstance && t.isActive)
  {
  }
}

=== FILE: form_fields.dfy ===
/** The parts of a web form the submission logic works with: an ordered
    mapping of field names to fields, each with its kind, label (`title`), choices,
    whether it is required and its `data-submit` tag; the cleaned data of a
    submitted form; and the per-field error lists. */
module FormFields {

  import opened Results
  import opened Strings

  datatype FieldKind = ChoiceField | MultipleChoiceField | OtherField(name: string)

  /** One option of a choice field: the submitted value and its label text. */
  datatype Choice = Choice(value: string, text: string)

  /** A field; `tag` is the widget's `data-submit` attribute, if set. */
  datatype Field = Field(kind: FieldKind, title: string, choices: seq<Choice>, required: bool, tag: Option<string>)

  /** The fields of a form, in declaration order, names distinct. */
  type Fields = seq<(string, Field)>

  function Names(fs: Fields): (r: seq<string>)
    ensures |r| == |fs| && forall i | 0 <= i < |fs| :: r[i] == fs[i].0
  {
    seq(|fs|, i requires 0 <= i < |fs| => fs[i].0)
  }

  predicate UniqueNames(fs: Fields) {
    forall i, j | 0 <= i < j < |fs| :: fs[i].0 != fs[j].0
  }

  function Lookup(fs: Fields, name: string): (r: Option<Field>)
    ensures r.Some? <==> name in Names(fs)
  {
    if |fs| == 0 then None
    else if fs[0].0 == name then Some(fs[0].1)
    else
      assert Names(fs) == [fs[0].0] + Names(fs[1..]);
      Lookup(fs[1..], name)
  }

  /** With distinct names, looking a field's name up finds that field. */
  lemma {:induction false} LookupAt(fs: Fields, i: nat)
    requires UniqueNames(fs) && i < |fs|
    ensures Lookup(fs, fs[i].0) == Some(fs[i].1)
  {
    if i > 0 {
      assert fs[1..][i - 1] == fs[i];
      LookupAt(fs[1..], i - 1);
    }
  }

  function IndexOf(fs: Fields, name: string): (i: nat)
    requires name in Names(fs)
    ensures i < |fs| && fs[i].0 == name
  {
    if fs[0].0 == name then 0
    else
      assert name in Names(fs[1..]) by {
        var i :| 0 <= i < |fs| && Names(fs)[i] == name;
        assert Names(fs[1..])[i - 1] == name;
      }
      1 + IndexOf(fs[1..], name)
  }

  /** `form.fields[name] = f`: replaces the field in place when the name is
      present, appends it otherwise. */
  function Put(fs: Fields, name: string, f: Field): (r: Fields)
    requires UniqueNames(fs)
    ensures UniqueNames(r)
    ensures Names(r) == if name in Names(fs) then Names(fs) else Names(fs) + [name]
    ensures Lookup(r, name) == Some(f)
    ensures forall n | n != name :: Lookup(r, n) == Lookup(fs, n)
  {
    var r := if name in Names(fs) then fs[IndexOf(fs, name) := (name, f)] else fs + [(name, f)];
    PutLookups(fs, name, f, r);
    r
  }

  lemma PutLookups(fs: Fields, name: string, f: Field, r: Fields)
    requires UniqueNames(fs)
    requires r == if name in Names(fs) then fs[IndexOf(fs, name) := (name, f)] else fs + [(name, f)]
    ensures UniqueNames(r)
    ensures Names(r) == if name in Names(fs) then Names(fs) else Names(fs) + [name]
    ensures Lookup(r, name) == Some(f)
    ensures forall n | n != name :: Lookup(r, n) == Lookup(fs, n)
  {
    if name in Names(fs) {
      PutReplaceLookups(fs, name, f, IndexOf(fs, name), r);
    } else {
      PutAppendLookups(fs, name, f, r);
    }
  }

  lemma PutReplaceLookups(fs: Fields, name: string, f: Field, k: nat, r: Fields)
    requires UniqueNames(fs) && k < |fs| && fs[k].0 == name && r == fs[k := (name, f)]
    ensures UniqueNames(r) && Names(r) == Names(fs)
    ensures Lookup(r, name) == Some(f)
    ensures forall n | n != name :: Lookup(r, n) == Lookup(fs, n)
  {
    assert Names(r) == Names(fs);
    LookupAt(r, k);
    forall n | n != name
      ensures Lookup(r, n) == Lookup(fs, n)
    {
      if n in Names(fs) {
        var i :| 0 <= i < |fs| && fs[i].0 == n;
        LookupAt(fs, i);
        LookupAt(r, i);
      }
    }
  }

  lemma PutAppendLookups(fs: Fields, name: string, f: Field, r: Fields)
    requires UniqueNames(fs) && name !in Names(fs) && r == fs + [(name, f)]
    ensures UniqueNames(r) && Names(r) == Names(fs) + [name]
    ensures Lookup(r, name) == Some(f)
    ensures forall n | n != name :: Lookup(r, n) == Lookup(fs, n)
  {
    assert Names(r) == Names(fs) + [name];
    LookupAt(r, |fs|);
    forall n | n != name
      ensures Lookup(r, n) == Lookup(fs, n)
    {
      if n in Names(fs) {
        var i :| 0 <= i < |fs| && fs[i].0 == n;
        LookupAt(fs, i);
        assert r[i] == fs[i];
        LookupAt(r, i);
      }
    }
  }

  /** Sets the `data-submit` tag of the named field, keeping the rest of it. */
  function SetTag(fs: Fields, name: string, tag: string): (r: Fields)
    requires UniqueNames(fs) && name in Names(fs)
    ensures UniqueNames(r) && Names(r) == Names(fs)
    ensures Lookup(r, name) == Some(Lookup(fs, name).value.(tag := Some(tag)))
    ensures forall n | n != name :: Lookup(r, n) == Lookup(fs, n)
  {
    Put(fs, name, Lookup(fs, name).value.(tag := Some(tag)))
  }

  /** `set_custom_field_attributes`: tags the named field with the problem
      instance's id, so that the page shows it only for that instance. */
  function SetCustomFieldAttributes(fs: Fields, name: string, instance: nat): (r: Fields)
    requires UniqueNames(fs) && name in Names(fs)
    ensures UniqueNames(r) && Names(r) == Names(fs)
    ensures Lookup(r, name).Some? && Lookup(r, name).value.tag == Some(NatToString(instance))
    ensures Lookup(r, name) == Some(Lookup(fs, name).value.(tag := Some(NatToString(instance))))
    ensures forall n | n != name :: Lookup(r, n) == Lookup(fs, n)
  {
    SetTag(fs, name, NatToString(instance))
  }

  /** A value of the cleaned data: a string, a list of strings (a multiple
      choice), the looked-up problem instance, or `None`. */
  datatype Value = Text(text: string) | Texts(items: seq<string>) | InstanceRef(id: nat) | Null

  type Data = map<string, Value>

  /** Per-field error lists, as `form.errors`. */
  type Errors = map<string, seq<string>>

  /** `form.add_error(field, message)`: records the message and, as Django
      does, drops the field from the cleaned data. */
  function AddError(errors: Errors, data: Data, field: string, message: string): (r: (Errors, Data))
    ensures r.0.Keys == errors.Keys + {field}
    ensures r.0[field] == (if field in errors then errors[field] else []) + [message]
    ensures forall f | f in errors && f != field :: r.0[f] == errors[f]
    ensures r.1 == data - {field}
  {
    (errors[field := (if field in errors then errors[field] else []) + [message]], data - {field})
  }
}

=== FILE: portal_views.dfy ===
/** Portal views: creating the global or a user's portal, dispatching a
    portal URL to a node or portal action, the permission conditions of the
    actions registered here, validating a node-move request, and the fix-up
    of the portal tree's JSON. Templates, the node tree's storage and the
    rendering of panels are outside the model. */
module PortalViews {

  import opened Results
  import opened Strings

  // ---- portal creation ----

  /** A portal: its owner (`None` for the global portal) and its root node. */
  datatype Portal = Portal(owner: Option<nat>, root: nat)

  /** At most one portal per owner, the global one included. */
  predicate OnePerOwner(portals: seq<Portal>) {
    forall i, j | 0 <= i < j < |portals| :: portals[i].owner != portals[j].owner
  }

  datatype Method = Get | Post

  datatype CreateResponse =
    | RedirectToPortal(portal: Portal)
    | ShowConfirmation
    | RedirectHome
    | PermissionDenied

  function OwnedBy(portals: seq<Portal>, owner: Option<nat>): (r: seq<Portal>)
    ensures forall p :: p in r <==> p in portals && p.owner == owner
  {
    if |portals| == 0 then []
    else
      var rest := OwnedBy(portals[1..], owner);
      assert forall p | p in portals :: p == portals[0] || p in portals[1..];
      if portals[0].owner == owner then [portals[0]] + rest else rest
  }

  lemma NoneOwned(portals: seq<Portal>, owner: Option<nat>, existing: seq<Portal>)
    requires existing == OwnedBy(portals, owner) && |existing| == 0
    ensures forall p | p in portals :: p.owner != owner
  {
    forall p | p in portals ensures p.owner != owner {
      assert p !in existing;
    }
  }

  /** The creation view for one owner: an existing portal is shown instead;
      otherwise a GET asks for confirmation, a confirmed POST creates the
      portal on the fresh root `newRoot`, and an unconfirmed POST goes home. */
  function CreatePortalFor(portals: seq<Portal>, owner: Option<nat>, httpMethod: Method, confirmed: bool, newRoot: nat): (r: (seq<Portal>, CreateResponse))
    requires OnePerOwner(portals)
    ensures OnePerOwner(r.0)
    ensures r.0 != portals <==> (forall p | p in portals :: p.owner != owner) && httpMethod == Post && confirmed
    ensures r.0 != portals ==> r.0 == portals + [Portal(owner, newRoot)] && r.1 == RedirectToPortal(Portal(owner, newRoot))
    ensures (exists p | p in portals :: p.owner == owner) ==> r.1.RedirectToPortal? && r.1.portal in portals && r.1.portal.owner == owner
  {
    var existing := OwnedBy(portals, owner);
    if |existing| > 0 then
      assert existing[0] in existing;
      (portals, RedirectToPortal(existing[0]))
    else if httpMethod == Get then (portals, ShowConfirmation)
    else if confirmed then
      NoneOwned(portals, owner, existing);
      var created := Portal(owner, newRoot);
      var r := portals + [created];
      assert forall i | 0 <= i < |portals| :: portals[i] in portals;
      assert r != portals by { assert |r| != |portals|; }
      assert httpMethod == Post;
      assert (forall p | p in portals :: p.owner != owner);
      (r, RedirectToPortal(created))
    else (portals, RedirectHome)
  }

  /** The global portal's creation view, open to superusers only. */
  function CreateGlobalPortal(portals: seq<Portal>, isSuperuser: bool, httpMethod: Method, confirmed: bool, newRoot: nat): (r: (seq<Portal>, CreateResponse))
    requires OnePerOwner(portals)
    ensures OnePerOwner(r.0)
    ensures !isSuperuser ==> r == (portals, PermissionDenied)
    ensures r.0 != portals ==> r.0 == portals + [Portal(None, newRoot)]
  {
    if !isSuperuser then (portals, PermissionDenied)
    else CreatePortalFor(portals, None, httpMethod, confirmed, newRoot)
  }

  /** A user's portal creation view, open to signed-in users (`user` is
      `None` for an anonymous visitor); the portal is the user's own. */
  function CreateUserPortal(portals: seq<Portal>, user: Option<nat>, httpMethod: Method, confirmed: bool, newRoot: nat): (r: (seq<Portal>, CreateResponse))
    requires OnePerOwner(portals)
    ensures OnePerOwner(r.0)
    ensures user.None? ==> r == (portals, PermissionDenied)
    ensures r.0 != portals ==> user.Some? && r.0 == portals + [Portal(user, newRoot)]
  {
    if user.None? then (portals, PermissionDenied)
    else CreatePortalFor(portals, user, httpMethod, confirmed, newRoot)
  }

  /** Confirming twice creates one portal: the second request only
      redirects to it. */
  lemma CreateTwiceCreatesOnce(portals: seq<Portal>, owner: Option<nat>, root1: nat, root2: nat)
    requires OnePerOwner(portals)
    ensures var (once, _) := CreatePortalFor(portals, owner, Post, true, root1);
      CreatePortalFor(once, owner, Post, true, root2).0 == once
  {
    var (once, _) := CreatePortalFor(portals, owner, Post, true, root1);
    if forall p | p in portals :: p.owner != owner {
      assert Portal(owner, root1) in once;
    }
  }

  // ---- dispatch ----

  const ActionParameter: string := "action"
  /** `DEFAULT_ACTION_NAME`, defined outside this module; taken to be the
      node action every visitor may run. */
  const DefaultActionName: string := "show_node"

  /** The requested action: the `action` query parameter, or the default. */
  function ActionName(query: map<string, string>): (r: string)
    ensures ActionParameter in query ==> r == query[ActionParameter]
    ensures ActionParameter !in query ==> r == DefaultActionName
  {
    if ActionParameter in query then query[ActionParameter] else DefaultActionName
  }

  datatype Dispatched =
    | NodeAction(action: string, node: nat)
    | PortalAction(action: string)
    | NotFound

  /** `_portal_view`: a node action runs on the node the path resolves to, a
      portal action on the portal; anything else, and a path that resolves
      to no node, is not found. `resolve` stands for the path resolution. */
  function Dispatch(query: map<string, string>, nodeActions: set<string>, portalActions: set<string>,
                    path: string, resolve: string -> Option<nat>): (r: Dispatched)
    ensures r.NodeAction? ==> r.action == ActionName(query) && r.action in nodeActions && resolve(path) == Some(r.node)
    ensures r.PortalAction? ==> r.action == ActionName(query) && r.action in portalActions && r.action !in nodeActions
    ensures r.NotFound? <==> (ActionName(query) !in nodeActions && ActionName(query) !in portalActions)
                              || (ActionName(query) in nodeActions && resolve(path).None?)
  {
    var action := ActionName(query);
    if action in nodeActions then
      match resolve(path)
      case Some(n) => NodeAction(action, n)
      case None => NotFound
    else if action in portalActions then PortalAction(action)
    else NotFound
  }

  /** The path is resolved only for node actions: for any other action the
      outcome does not depend on the path or its resolution. */
  lemma PortalActionsIgnorePath(query: map<string, string>, nodeActions: set<string>, portalActions: set<string>,
                                path1: string, resolve1: string -> Option<nat>, path2: string, resolve2: string -> Option<nat>)
    requires ActionName(query) !in nodeActions
    ensures Dispatch(query, nodeActions, portalActions, path1, resolve1) == Dispatch(query, nodeActions, portalActions, path2, resolve2)
  {
  }

  /** What an action registered here demands of the user. */
  datatype Condition = Anyone | PortalAdmin | PortalAdminOffRoot

  /** The node actions registered by the views, with their conditions. */
  const NodeActionConditions: map<string, Condition> :=
    map["show_node" := Anyone, "edit_node" := PortalAdmin, "add_node" := PortalAdmin, "delete_node" := PortalAdminOffRoot]

  /** The portal actions registered by the views. */
  const PortalActionConditions: map<string, Condition> :=
    map["manage_portal" := PortalAdmin, "portal_tree_json" := PortalAdmin, "delete_portal" := PortalAdmin]

  predicate Holds(c: Condition, isAdmin: bool, atRoot: bool) {
    match c
    case Anyone => true
    case PortalAdmin => isAdmin
    case PortalAdminOffRoot => isAdmin && !atRoot
  }

  /** Whether an action of this module is offered to the user on a node. */
  function Offered(action: string, isAdmin: bool, atRoot: bool): (r: bool)
    ensures r ==> action in NodeActionConditions || action in PortalActionConditions
  {
    if action in NodeActionConditions then Holds(NodeActionConditions[action], isAdmin, atRoot)
    else if action in PortalActionConditions then Holds(PortalActionConditions[action], isAdmin, atRoot)
    else false
  }

  /** Deleting a node is offered exactly to portal admins and never on the
      root; showing a node is offered to everyone; every other action here
      needs a portal admin. */
  lemma ActionConditions(isAdmin: bool, atRoot: bool)
    ensures Offered("delete_node", isAdmin, atRoot) <==> isAdmin && !atRoot
    ensures Offered(DefaultActionName, isAdmin, atRoot)
    ensures forall a | a in NodeActionConditions.Keys + PortalActionConditions.Keys && a != DefaultActionName ::
      Offered(a, isAdmin, atRoot) ==> isAdmin
  {
  }

  /** The default action is a node action, so a bare portal URL shows the
      node its path names. */
  lemma DefaultShowsNode(query: map<string, string>, path: string, resolve: string -> Option<nat>, n: nat)
    requires ActionParameter !in query && resolve(path) == Some(n)
    ensures Dispatch(query, NodeActionConditions.Keys, PortalActionConditions.Keys, path, resolve) == NodeAction(DefaultActionName, n)
  {
  }

  // ---- node moves ----

  datatype Position = Left | Right | FirstChild

  /** The position names a move request may use. */
  function MapPosition(p: string): (r: Option<Position>)
    ensures r == Some(Left) <==> p == "before"
    ensures r == Some(Right) <==> p == "after"
    ensures r == Some(FirstChild) <==> p == "inside"
  {
    if p == "before" then Some(Left)
    else if p == "after" then Some(Right)
    else if p == "inside" then Some(FirstChild)
    else None
  }

  /** A stored node: whether it is a root, and the portal of its tree's root. */
  datatype NodeInfo = NodeInfo(isRoot: bool, portal: nat)

  datatype MoveOutcome =
    | Moved(node: nat, target: nat, position: Position)
    | Suspicious
    | MissingParameter(name: string)
    | BadKey(key: string)

  /** A query parameter holding a node's primary key. */
  datatype Lookup = Found(id: nat, info: NodeInfo) | Absent | Malformed(key: string)

  function FindNode(nodes: map<nat, NodeInfo>, key: string): (r: Lookup)
    ensures r.Found? <==> ParseNat(key).Some? && ParseNat(key).value in nodes
    ensures r.Found? ==> r.id == ParseNat(key).value && r.info == nodes[r.id]
    ensures r.Malformed? <==> ParseNat(key).None?
  {
    match ParseNat(key)
    case None => Malformed(key)
    case Some(id) => if id in nodes then Found(id, nodes[id]) else Absent
  }

  /** The request names a known position word. */
  predicate PositionGiven(query: map<string, string>) {
    "position" in query && MapPosition(query["position"]).Some?
  }

  /** Every check on the target passes: the position is known, the target
      exists, the user administers its portal, and a root target is only
      given a first child. */
  predicate TargetPasses(query: map<string, string>, nodes: map<nat, NodeInfo>, isAdmin: nat -> bool) {
    && PositionGiven(query)
    && "target" in query && FindNode(nodes, query["target"]).Found?
    && isAdmin(FindNode(nodes, query["target"]).info.portal)
    && (MapPosition(query["position"]).value == FirstChild || !FindNode(nodes, query["target"]).info.isRoot)
  }

  /** `move_node_view`: the position, the target, the user's admin rights on
      the target's portal, a root target taking only first children, the
      node and its portal are checked in that order, and then the tree's own
      move (`moveOk`) may still refuse. Each missing parameter and each
      malformed key is reported only once every earlier check has passed. */
  function MoveNode(query: map<string, string>, nodes: map<nat, NodeInfo>, isAdmin: nat -> bool,
                    moveOk: (nat, nat, Position) -> bool): (r: MoveOutcome)
    ensures "position" !in query ==> r == MissingParameter("position")
    ensures "position" in query && MapPosition(query["position"]).None? ==> r == Suspicious
    ensures r == MissingParameter("target") <==> PositionGiven(query) && "target" !in query
    ensures r == MissingParameter("node") <==> TargetPasses(query, nodes, isAdmin) && "node" !in query
    ensures r.MissingParameter? ==> r.name == "position" || r.name == "target" || r.name == "node"
    ensures r.BadKey? <==>
      || (PositionGiven(query) && "target" in query && ParseNat(query["target"]).None?)
      || (TargetPasses(query, nodes, isAdmin) && "node" in query && ParseNat(query["node"]).None?)
    ensures r.BadKey? ==> r.key == (if ParseNat(query["target"]).None? then query["target"] else query["node"])
    ensures r.Moved? ==>
      && "position" in query && MapPosition(query["position"]) == Some(r.position)
      && "target" in query && r.target in nodes && FindNode(nodes, query["target"]) == Found(r.target, nodes[r.target])
      && "node" in query && r.node in nodes && FindNode(nodes, query["node"]) == Found(r.node, nodes[r.node])
      && isAdmin(nodes[r.target].portal)
      && (r.position == FirstChild || !nodes[r.target].isRoot)
      && nodes[r.node].portal == nodes[r.target].portal
      && moveOk(r.node, r.target, r.position)
  {
    if "position" !in query then MissingParameter("position")
    else
      match MapPosition(query["position"])
      case None => Suspicious
      case Some(position) =>
        if "target" !in query then MissingParameter("target")
        else
          match FindNode(nodes, query["target"])
          case Malformed(k) => BadKey(k)
          case Absent => Suspicious
          case Found(target, t) =>
            if !isAdmin(t.portal) then Suspicious
            else if position != FirstChild && t.isRoot then Suspicious
            else if "node" !in query then MissingParameter("node")
            else
              match FindNode(nodes, query["node"])
              case Malformed(k) => BadKey(k)
              case Absent => Suspicious
              case Found(node, n) =>
                if n.portal != t.portal then Suspicious
                else if !moveOk(node, target, position) then Suspicious
                else Moved(node, target, position)
  }

  /** A well-formed request that passes every rule is carried out. */
  lemma ValidMoveIsCarriedOut(query: map<string, string>, nodes: map<nat, NodeInfo>, isAdmin: nat -> bool,
                              moveOk: (nat, nat, Position) -> bool, node: nat, target: nat, position: Position)
    requires "position" in query && MapPosition(query["position"]) == Some(position)
    requires "target" in query && ParseNat(query["target"]) == Some(target) && target in nodes
    requires "node" in query && ParseNat(query["node"]) == Some(node) && node in nodes
    requires isAdmin(nodes[target].portal)
    requires position == FirstChild || !nodes[target].isRoot
    requires nodes[node].portal == nodes[target].portal
    requires moveOk(node, target, position)
    ensures MoveNode(query, nodes, isAdmin, moveOk) == Moved(node, target, position)
  {
  }

  /** An unknown position word is refused before anything is looked up. */
  lemma UnknownPositionRefused(query: map<string, string>, nodes: map<nat, NodeInfo>, isAdmin: nat -> bool,
                               moveOk: (nat, nat, Position) -> bool)
    requires "position" in query
    requires query["position"] != "before" && query["position"] != "after" && query["position"] != "inside"
    ensures MoveNode(query, nodes, isAdmin, moveOk) == Suspicious
  {
  }

  // ---- portal tree JSON ----

  /** `}` immediately followed by `{` somewhere in the text. */
  predicate HasBraceJoin(s: string) {
    exists i | 0 <= i < |s| - 1 :: s[i] == '}' && s[i + 1] == '{'
  }

  /** The JSON fix-up: every `}{` becomes `},{`, scanning left to right as
      Python's `str.replace` does. */
  function FixJson(s: string): (r: string)
    ensures |s| > 0 ==> |r| > 0 && r[0] == s[0]
  {
    if |s| < 2 then s
    else if s[0] == '}' && s[1] == '{' then "},{" + FixJson(s[2..])
    else [s[0]] + FixJson(s[1..])
  }

  /** After the fix-up no `}` is directly followed by `{`. */
  lemma {:induction false} FixJsonSeparates(s: string)
    ensures !HasBraceJoin(FixJson(s))
  {
    if |s| >= 2 {
      var r := FixJson(s);
      if s[0] == '}' && s[1] == '{' {
        var tail := FixJson(s[2..]);
        FixJsonSeparates(s[2..]);
        assert r == "},{" + tail;
        forall i | 0 <= i < |r| - 1
          ensures !(r[i] == '}' && r[i + 1] == '{')
        {
          if i >= 3 {
            assert r[i] == tail[i - 3] && r[i + 1] == tail[i - 2];
          }
        }
      } else {
        var tail := FixJson(s[1..]);
        FixJsonSeparates(s[1..]);
        assert r == [s[0]] + tail;
        forall i | 0 <= i < |r| - 1
          ensures !(r[i] == '}' && r[i + 1] == '{')
        {
          if i >= 1 {
            assert r[i] == tail[i - 1] && r[i + 1] == tail[i];
          }
        }
      }
    }
  }

  /** Text without a `}{` is left as it is. */
  lemma {:induction false} FixJsonKeepsSeparated(s: string)
    requires !HasBraceJoin(s)
    ensures FixJson(s) == s
  {
    if |s| >= 2 {
      assert !(s[0] == '}' && s[1] == '{');
      assert !HasBraceJoin(s[1..]) by {
        forall i | 0 <= i < |s[1..]| - 1
          ensures !(s[1..][i] == '}' && s[1..][i + 1] == '{')
        {
          assert s[1..][i] == s[i + 1] && s[1..][i + 1] == s[i + 2];
        }
      }
      FixJsonKeepsSeparated(s[1..]);
      assert s == [s[0]] + s[1..];
    }
  }

  /** Fixing fixed JSON changes nothing. */
  lemma FixJsonIdempotent(s: string)
    ensures FixJson(FixJson(s)) == FixJson(s)
  {
    FixJsonSeparates(s);
    FixJsonKeepsSeparated(FixJson(s));
  }

  /** The text without its commas. */
  function WithoutCommas(s: string): (r: string)
    ensures forall c | c in r :: c != ','
    ensures |r| <= |s|
  {
    if |s| == 0 then []
    else if s[0] == ',' then WithoutCommas(s[1..])
    else [s[0]] + WithoutCommas(s[1..])
  }

  lemma {:induction false} WithoutCommasConcat(a: string, b: string)
    ensures WithoutCommas(a + b) == WithoutCommas(a) + WithoutCommas(b)
  {
    if |a| > 0 {
      assert (a + b)[1..] == a[1..] + b;
      WithoutCommasConcat(a[1..], b);
    } else {
      assert a + b == b;
    }
  }

  /** The fix-up only inserts commas: with commas ignored, the output is
      the input. */
  lemma {:induction false} FixJsonOnlyInsertsCommas(s: string)
    ensures WithoutCommas(FixJson(s)) == WithoutCommas(s)
  {
    if |s| >= 2 {
      if s[0] == '}' && s[1] == '{' {
        FixJsonOnlyInsertsCommas(s[2..]);
        WithoutCommasConcat("},{", FixJson(s[2..]));
        WithoutCommasConcat(s[..2], s[2..]);
        assert s == s[..2] + s[2..];
        assert WithoutCommas("},{") == "}{" by {
          assert "},{"[1..] == ",{" && ",{"[1..] == "{" && "{"[1..] == [];
        }
        assert WithoutCommas(s[..2]) == "}{" by {
          assert s[..2] == "}{" && "}{"[1..] == "{" && "{"[1..] == [];
        }
      } else {
        FixJsonOnlyInsertsCommas(s[1..]);
        WithoutCommasConcat([s[0]], FixJson(s[1..]));
        WithoutCommasConcat([s[0]], s[1..]);
        assert s == [s[0]] + s[1..];
      }
    }
  }
}

=== FILE: quiz_controller.dfy ===
/** The quiz problem controller's form logic: one answer field per question,
    validation of the submitted answers, expansion of the chosen answers
    into submission-answer rows, and the selection marks of the rendered
    submission. */
module QuizController {

  import opened Results
  import opened Strings
  import opened FormFields
  import opened QuizModels

  /** `quiz_<instance>_q_<question>`: the name of a question's field. */
  function FieldName(instance: nat, question: nat): string {
    "quiz_" + NatToString(instance) + "_q_" + NatToString(question)
  }

  /** Reads a field name back as its instance and question ids. */
  function ParseFieldName(name: string): Option<(nat, nat)> {
    if !StartsWith(name, "quiz_") then None
    else
      var rest := name[5..];
      var k := DigitPrefixLength(rest);
      if !StartsWith(rest[k..], "_q_") then None
      else
        match (ParseNat(rest[..k]), ParseNat(rest[k + 3..]))
        case (Some(a), Some(b)) => Some((a, b))
        case _ => None
  }

  /** A name built from a digit string and any text splits back into the
      two. */
  lemma {:induction false} ParseFieldNameParts(a: string, b: string)
    requires IsDigits(a)
    ensures ParseFieldName("quiz_" + a + "_q_" + b)
         == if ParseNat(a).Some? && ParseNat(b).Some? then Some((ParseNat(a).value, ParseNat(b).value)) else None
  {
    var name := "quiz_" + a + "_q_" + b;
    var rest := a + ("_q_" + b);
    assert StartsWith(name, "quiz_") && name[5..] == rest by {
      assert name == "quiz_" + rest;
    }
    assert DigitPrefixLength(rest) == |a| by {
      DigitPrefixOf(a, "_q_" + b);
    }
    assert rest[..|a|] == a;
    assert rest[|a|..] == "_q_" + b;
    assert StartsWith(rest[|a|..], "_q_");
    assert rest[|a| + 3..] == b;
  }

  /** Reading a field name back gives the instance and question it was made
      from. */
  lemma ParseFieldNameOf(instance: nat, question: nat)
    ensures ParseFieldName(FieldName(instance, question)) == Some((instance, question))
  {
    ParseFieldNameParts(NatToString(instance), NatToString(question));
    ParseNatToString(instance);
    ParseNatToString(question);
  }

  /** Distinct (instance, question) pairs have distinct field names. */
  lemma FieldNameInjective(i: nat, q: nat, i': nat, q': nat)
    ensures FieldName(i, q) == FieldName(i', q') ==> i == i' && q == q'
  {
    ParseFieldNameOf(i, q);
    ParseFieldNameOf(i', q');
  }

  predicate DistinctIds(qs: seq<QuizQuestion>) {
    forall i, j | 0 <= i < j < |qs| :: qs[i].id != qs[j].id
  }

  /** The choices of a question's field: its answers' ids, as text, with
      their texts as labels. */
  function AnswerChoices(answers: seq<QuizAnswer>): (r: seq<Choice>)
    ensures |r| == |answers|
    ensures forall i | 0 <= i < |answers| :: r[i] == Choice(NatToString(answers[i].id), answers[i].answer)
  {
    seq(|answers|, i requires 0 <= i < |answers| => Choice(NatToString(answers[i].id), answers[i].answer))
  }

  /** The optional field of a question: a multiple choice for a
      multiple-choice question, a single choice otherwise, labelled with the
      question and offering its answers. */
  function QuestionField(db: Store, q: QuizQuestion): Field {
    Field(if q.isMultipleChoice then MultipleChoiceField else ChoiceField,
          q.question, AnswerChoices(AnswersOf(db, q.id)), false, None)
  }

  /** The question's field as the form holds it: tagged with the instance. */
  function TaggedField(db: Store, instance: nat, q: QuizQuestion): Field {
    QuestionField(db, q).(tag := Some(NatToString(instance)))
  }

  /** Adds a question's field and tags it with the instance. */
  function AddQuestionField(db: Store, instance: nat, q: QuizQuestion, fs: Fields): (r: Fields)
    requires UniqueNames(fs)
    ensures UniqueNames(r)
    ensures Lookup(r, FieldName(instance, q.id)) == Some(TaggedField(db, instance, q))
    ensures forall n | n != FieldName(instance, q.id) :: Lookup(r, n) == Lookup(fs, n)
    ensures forall n :: n in Names(r) <==> n in Names(fs) || n == FieldName(instance, q.id)
  {
    var name := FieldName(instance, q.id);
    var put := Put(fs, name, QuestionField(db, q));
    SetCustomFieldAttributes(put, name, instance)
  }

  /** Puts the fields of the listed questions, in order. */
  function AddQuestionFields(db: Store, instance: nat, qs: seq<QuizQuestion>, fs: Fields): (r: Fields)
    requires UniqueNames(fs)
    ensures UniqueNames(r)
  {
    if |qs| == 0 then fs
    else AddQuestionFields(db, instance, qs[1..], AddQuestionField(db, instance, qs[0], fs))
  }

  lemma DistinctIdsTail(qs: seq<QuizQuestion>)
    requires DistinctIds(qs) && |qs| > 0
    ensures DistinctIds(qs[1..])
    ensures forall q | q in qs[1..] :: q.id != qs[0].id
  {
    forall i, j | 0 <= i < j < |qs[1..]| ensures qs[1..][i].id != qs[1..][j].id {
      assert qs[1..][i] == qs[i + 1] && qs[1..][j] == qs[j + 1];
    }
    forall q | q in qs[1..] ensures q.id != qs[0].id {
      var j :| 0 <= j < |qs[1..]| && qs[1..][j] == q;
      assert qs[j + 1] == q;
    }
  }

  /** Fields not named after a listed question are untouched. */
  lemma {:induction false} AddQuestionFieldsFrame(db: Store, instance: nat, qs: seq<QuizQuestion>, fs: Fields, n: string)
    requires UniqueNames(fs)
    requires forall q | q in qs :: n != FieldName(instance, q.id)
    ensures Lookup(AddQuestionFields(db, instance, qs, fs), n) == Lookup(fs, n)
    ensures n in Names(AddQuestionFields(db, instance, qs, fs)) <==> n in Names(fs)
  {
    if |qs| > 0 {
      var fs' := AddQuestionField(db, instance, qs[0], fs);
      assert qs[0] in qs;
      assert forall q | q in qs[1..] :: q in qs;
      AddQuestionFieldsFrame(db, instance, qs[1..], fs', n);
    }
  }

  /** Every listed question's field is there, as built for the question. */
  lemma {:induction false} AddQuestionFieldsPut(db: Store, instance: nat, qs: seq<QuizQuestion>, fs: Fields, q: QuizQuestion)
    requires UniqueNames(fs) && DistinctIds(qs) && q in qs
    ensures Lookup(AddQuestionFields(db, instance, qs, fs), FieldName(instance, q.id)) == Some(TaggedField(db, instance, q))
    ensures FieldName(instance, q.id) in Names(AddQuestionFields(db, instance, qs, fs))
  {
    var fs' := AddQuestionField(db, instance, qs[0], fs);
    DistinctIdsTail(qs);
    if q == qs[0] {
      forall q' | q' in qs[1..] ensures FieldName(instance, q.id) != FieldName(instance, q'.id) {
        FieldNameInjective(instance, q.id, instance, q'.id);
      }
      AddQuestionFieldsFrame(db, instance, qs[1..], fs', FieldName(instance, q.id));
    } else {
      AddQuestionFieldsPut(db, instance, qs[1..], fs', q);
    }
  }

  /** `adjust_submission_form`: one field per question of the quiz, under the
      question's field name; every other field is left as it was. */
  function AdjustSubmissionForm(db: Store, quiz: nat, instance: nat, fs: Fields): (r: Fields)
    requires WellFormed(db) && UniqueNames(fs)
    ensures UniqueNames(r)
    ensures forall q | q in db.questions && q.quiz == quiz ::
      Lookup(r, FieldName(instance, q.id)) == Some(TaggedField(db, instance, q))
    ensures forall n | forall q | q in db.questions && q.quiz == quiz :: n != FieldName(instance, q.id) ::
      Lookup(r, n) == Lookup(fs, n)
    ensures forall n :: n in Names(r) <==>
      n in Names(fs) || exists q | q in db.questions && q.quiz == quiz :: n == FieldName(instance, q.id)
  {
    var qs := QuestionsOf(db, quiz);
    QuestionsOfDistinct(db, quiz);
    var r := AddQuestionFields(db, instance, qs, fs);
    forall q | q in db.questions && q.quiz == quiz
      ensures Lookup(r, FieldName(instance, q.id)) == Some(TaggedField(db, instance, q))
      ensures FieldName(instance, q.id) in Names(r)
    {
      AddQuestionFieldsPut(db, instance, qs, fs, q);
    }
    forall n | forall q | q in db.questions && q.quiz == quiz :: n != FieldName(instance, q.id)
      ensures Lookup(r, n) == Lookup(fs, n) && (n in Names(r) <==> n in Names(fs))
    {
      AddQuestionFieldsFrame(db, instance, qs, fs, n);
    }
    r
  }

  lemma QuestionsOfDistinct(db: Store, quiz: nat)
    requires WellFormed(db)
    ensures DistinctIds(QuestionsOf(db, quiz))
  {
    var qs := QuestionsOf(db, quiz);
    forall i, j | 0 <= i < j < |qs| ensures qs[i].id != qs[j].id {
      FilterKeepsOrder(db.questions, (q: QuizQuestion) => q.quiz == quiz, i, j);
    }
  }

  /** Two positions of a filtered sequence come from two positions of the
      original, in the same order. */
  lemma {:induction false} FilterKeepsOrder<T(!new)>(xs: seq<T>, keep: T -> bool, i: nat, j: nat)
    requires i < j < |Filter(xs, keep)|
    ensures exists a, b | 0 <= a < b < |xs| :: xs[a] == Filter(xs, keep)[i] && xs[b] == Filter(xs, keep)[j]
  {
    var f := Filter(xs, keep);
    var head := if keep(xs[0]) then [xs[0]] else [];
    var rest := Filter(xs[1..], keep);
    assert f == head + rest;
    if keep(xs[0]) && i == 0 {
      FilterFromTail(xs, keep, j);
      var b :| 0 < b < |xs| && xs[b] == f[j];
      assert xs[0] == f[i];
    } else {
      var o := |head|;
      FilterKeepsOrder(xs[1..], keep, i - o, j - o);
      var a, b :| 0 <= a < b < |xs[1..]| && xs[1..][a] == rest[i - o] && xs[1..][b] == rest[j - o];
      ShiftedPositions(xs, f, head, rest, i, j, a, b);
    }
  }

  /** Positions `a`, `b` of the tail holding entries `i`, `j` of `rest` are
      positions `a + 1`, `b + 1` of the whole holding entries of `head + rest`. */
  lemma ShiftedPositions<T>(xs: seq<T>, f: seq<T>, head: seq<T>, rest: seq<T>, i: nat, j: nat, a: nat, b: nat)
    requires f == head + rest && |head| <= i < j < |f|
    requires a < b < |xs| - 1 && xs[a + 1] == rest[i - |head|] && xs[b + 1] == rest[j - |head|]
    ensures xs[a + 1] == f[i] && xs[b + 1] == f[j]
  {
  }

  /** An element a kept head does not account for comes from the tail. */
  lemma FilterFromTail<T(!new)>(xs: seq<T>, keep: T -> bool, j: nat)
    requires 0 < j < |Filter(xs, keep)| && keep(xs[0])
    ensures exists b | 0 < b < |xs| :: xs[b] == Filter(xs, keep)[j]
  {
    var rest := Filter(xs[1..], keep);
    assert Filter(xs, keep) == [xs[0]] + rest;
    assert Filter(xs, keep)[j] == rest[j - 1];
    assert rest[j - 1] in rest;
    var b :| 0 <= b < |xs[1..]| && xs[1..][b] == rest[j - 1];
    assert xs[b + 1] == rest[j - 1];
  }

  /** Why validating or expanding the answers stops with an exception:
      "Illegal answer", a missing key, a string `int` cannot read, an answer
      id with no row, or a value of the wrong type for `int` or iteration. */
  datatype Failure = IllegalAnswer | MissingKey(key: string) | NotANumber(text: string) | NoSuchAnswer(id: nat) | WrongType

  const RequiredMessage: string := "Answer is required here."

  /** The strings a question's cleaned value names as chosen answers.
      Iterating a string yields its characters; `int` of a list or of `None`
      is a type error; an empty single choice names nothing. */
  function RawAnswers(q: QuizQuestion, v: Value): Result<seq<string>, Failure> {
    if q.isMultipleChoice then
      match v
      case Texts(xs) => Ok(xs)
      case Text(t) => Ok(seq(|t|, i requires 0 <= i < |t| => [t[i]]))
      case _ => Err(WrongType)
    else
      match v
      case Text(t) => if t == "" then Ok([]) else Ok([t])
      case _ => Err(WrongType)
  }

  /** The answer a raw string names, read with `int` and looked up. */
  function ReadAnswer(db: Store, raw: string): Result<QuizAnswer, Failure> {
    match ParseNat(raw)
    case None => Err(NotANumber(raw))
    case Some(id) =>
      match GetAnswer(db, id)
      case None => Err(NoSuchAnswer(id))
      case Some(a) => Ok(a)
  }

  /** `[int(a) for a in raws]`: every raw string is read as a number before
      any answer is looked up; the first one that is not a number raises. */
  function ParseAll(raws: seq<string>): (r: Result<seq<nat>, Failure>)
    ensures r.Ok? <==> forall raw | raw in raws :: ParseNat(raw).Some?
    ensures r.Ok? ==> |r.value| == |raws| && forall i | 0 <= i < |raws| :: ParseNat(raws[i]) == Some(r.value[i])
    ensures r.Err? ==> r.error.NotANumber? && r.error.text in raws && ParseNat(r.error.text).None?
  {
    if |raws| == 0 then Ok([])
    else
      assert forall x | x in raws :: x == raws[0] || x in raws[1..];
      assert raws[0] in raws;
      match ParseNat(raws[0])
      case None => Err(NotANumber(raws[0]))
      case Some(id) =>
        match ParseAll(raws[1..])
        case Err(e) => Err(e)
        case Ok(rest) =>
          assert forall i | 1 <= i < |raws| :: raws[1..][i - 1] == raws[i];
          Ok([id] + rest)
  }

  /** `QuizAnswer.objects.get(id=aid)` for each id in order, and the check
      that the answer belongs to `q`. */
  function CheckIds(db: Store, q: QuizQuestion, ids: seq<nat>): (r: Result<(), Failure>)
    ensures r.Ok? <==> forall id | id in ids :: GetAnswer(db, id).Some? && GetAnswer(db, id).value.question == q.id
    ensures r.Err? ==> r.error.NoSuchAnswer? || r.error == IllegalAnswer
  {
    if |ids| == 0 then Ok(())
    else
      assert forall x | x in ids :: x == ids[0] || x in ids[1..];
      assert ids[0] in ids;
      match GetAnswer(db, ids[0])
      case None => Err(NoSuchAnswer(ids[0]))
      case Some(a) =>
        if a.question != q.id then Err(IllegalAnswer)
        else
          assert forall x | x in ids[1..] :: x in ids;
          CheckIds(db, q, ids[1..])
  }

  /** Reads every named answer, then checks, in order, that each exists and
      belongs to `q`. A string that is not a number raises before any lookup. */
  function CheckAnswers(db: Store, q: QuizQuestion, raws: seq<string>): (r: Result<(), Failure>)
    ensures r.Ok? <==> forall raw | raw in raws :: LegalAnswer(db, q, raw)
    ensures (exists raw | raw in raws :: ParseNat(raw).None?) ==> r.Err? && r.error.NotANumber?
    ensures (forall raw | raw in raws :: ParseNat(raw).Some?) ==> r.Err? ==> r.error.NoSuchAnswer? || r.error == IllegalAnswer
  {
    match ParseAll(raws)
    case Err(e) => Err(e)
    case Ok(ids) =>
      var r := CheckIds(db, q, ids);
      assert r.Ok? <==> forall raw | raw in raws :: LegalAnswer(db, q, raw) by {
        forall raw | raw in raws
          ensures ReadAnswer(db, raw).Ok? <==> GetAnswer(db, ParseNat(raw).value).Some?
        {
        }
        if r.Ok? {
          forall raw | raw in raws ensures LegalAnswer(db, q, raw) {
            var i :| 0 <= i < |raws| && raws[i] == raw;
            assert ids[i] in ids;
          }
        } else {
          var id :| id in ids && !(GetAnswer(db, id).Some? && GetAnswer(db, id).value.question == q.id);
          var i :| 0 <= i < |ids| && ids[i] == id;
          assert raws[i] in raws && !LegalAnswer(db, q, raws[i]);
        }
      }
      r
  }

  /** A raw string names an existing answer of question `q`. */
  predicate LegalAnswer(db: Store, q: QuizQuestion, raw: string) {
    ReadAnswer(db, raw).Ok? && ReadAnswer(db, raw).value.question == q.id
  }

  /** The reference condition for one question: its field already has an
      error, or its value is present, readable, and names only answers of
      that question. */
  predicate Accepted(db: Store, instance: nat, q: QuizQuestion, errors: Errors, data: Data) {
    var f := FieldName(instance, q.id);
    f in errors
    || (f in data && RawAnswers(q, data[f]).Ok? && forall raw | raw in RawAnswers(q, data[f]).value :: LegalAnswer(db, q, raw))
  }

  /** A single-choice question left empty, whose field has no error yet. */
  predicate RequiredMissing(instance: nat, q: QuizQuestion, errors: Errors, data: Data) {
    var f := FieldName(instance, q.id);
    !q.isMultipleChoice && f !in errors && f in data && data[f] == Text("")
  }

  /** Validation of one question. */
  function ValidateQuestion(db: Store, instance: nat, q: QuizQuestion, errors: Errors, data: Data): (r: Result<(Errors, Data), Failure>)
    ensures r.Ok? <==> Accepted(db, instance, q, errors, data)
    ensures r.Ok? ==> r.value == if RequiredMissing(instance, q, errors, data)
      then AddError(errors, data, FieldName(instance, q.id), RequiredMessage) else (errors, data)
  {
    var f := FieldName(instance, q.id);
    if f in errors then Ok((errors, data))
    else if f !in data then Err(MissingKey(f))
    else
      match RawAnswers(q, data[f])
      case Err(e) => Err(e)
      case Ok(raws) =>
        var next := if !q.isMultipleChoice && data[f] == Text("") then AddError(errors, data, f, RequiredMessage) else (errors, data);
        match CheckAnswers(db, q, raws)
        case Err(e) => Err(e)
        case Ok(_) => Ok(next)
  }

  /** Validation stopped by an exception: the exception, and the form's
      errors and cleaned data as the earlier questions left them (Django keeps
      the field errors already added and shows the exception beside them). */
  datatype Stopped = Stopped(failure: Failure, errors: Errors, data: Data)

  /** Validation of the listed questions, in order; the first exception stops it. */
  function ValidateQuestions(db: Store, instance: nat, qs: seq<QuizQuestion>, errors: Errors, data: Data): Result<(Errors, Data), Stopped> {
    if |qs| == 0 then Ok((errors, data))
    else
      match ValidateQuestion(db, instance, qs[0], errors, data)
      case Err(e) => Err(Stopped(e, errors, data))
      case Ok(next) => ValidateQuestions(db, instance, qs[1..], next.0, next.1)
  }

  /** The index of the first question not accepted, or the length of the list. */
  function FirstRejected(db: Store, instance: nat, qs: seq<QuizQuestion>, errors: Errors, data: Data): (k: nat)
    ensures k <= |qs|
    ensures forall i | 0 <= i < k :: Accepted(db, instance, qs[i], errors, data)
    ensures k < |qs| ==> !Accepted(db, instance, qs[k], errors, data)
  {
    if |qs| == 0 || !Accepted(db, instance, qs[0], errors, data) then 0
    else 1 + FirstRejected(db, instance, qs[1..], errors, data)
  }

  /** The fields validation marks as required. */
  function RequiredFields(instance: nat, qs: seq<QuizQuestion>, errors: Errors, data: Data): set<string> {
    set q | q in qs && RequiredMissing(instance, q, errors, data) :: FieldName(instance, q.id)
  }

  /** The errors after validation: the old ones, plus the required-answer
      message on every required field. */
  function WithRequired(errors: Errors, required: set<string>): Errors {
    map f | f in errors.Keys + required :: if f in errors then errors[f] else [RequiredMessage]
  }

  /** Recording an error on one question's field changes nothing another
      question's validation looks at. */
  lemma OtherQuestionUnaffected(db: Store, instance: nat, q: QuizQuestion, q': QuizQuestion, errors: Errors, data: Data)
    requires q.id != q'.id
    ensures var next := AddError(errors, data, FieldName(instance, q.id), RequiredMessage);
      && (Accepted(db, instance, q', next.0, next.1) <==> Accepted(db, instance, q', errors, data))
      && (RequiredMissing(instance, q', next.0, next.1) <==> RequiredMissing(instance, q', errors, data))
  {
    FieldNameInjective(instance, q.id, instance, q'.id);
  }

  /** After validating question `q`, the remaining questions look the same. */
  lemma StepFrame(db: Store, instance: nat, q: QuizQuestion, rest: seq<QuizQuestion>, errors: Errors, data: Data)
    requires forall q' | q' in rest :: q'.id != q.id
    requires ValidateQuestion(db, instance, q, errors, data).Ok?
    ensures var next := ValidateQuestion(db, instance, q, errors, data).value;
      && (forall q' | q' in rest :: Accepted(db, instance, q', next.0, next.1) <==> Accepted(db, instance, q', errors, data))
      && (forall q' | q' in rest :: RequiredMissing(instance, q', next.0, next.1) <==> RequiredMissing(instance, q', errors, data))
  {
    var next := ValidateQuestion(db, instance, q, errors, data).value;
    forall q' | q' in rest
      ensures (Accepted(db, instance, q', next.0, next.1) <==> Accepted(db, instance, q', errors, data))
      ensures (RequiredMissing(instance, q', next.0, next.1) <==> RequiredMissing(instance, q', errors, data))
    {
      if RequiredMissing(instance, q, errors, data) {
        OtherQuestionUnaffected(db, instance, q, q', errors, data);
      }
    }
  }

  /** The required fields of a list are those of its head and of its tail. */
  lemma RequiredFieldsCons(instance: nat, qs: seq<QuizQuestion>, errors: Errors, data: Data)
    requires |qs| > 0
    ensures RequiredFields(instance, qs, errors, data)
         == RequiredFields(instance, qs[1..], errors, data)
            + (if RequiredMissing(instance, qs[0], errors, data) then {FieldName(instance, qs[0].id)} else {})
  {
    assert forall x | x in qs :: x == qs[0] || x in qs[1..];
  }

  /** Adding the head's required error and then the tail's is adding both. */
  lemma WithRequiredStep(instance: nat, q: QuizQuestion, rest: seq<QuizQuestion>, errors: Errors, data: Data)
    requires forall q' | q' in rest :: q'.id != q.id
    requires RequiredMissing(instance, q, errors, data)
    ensures var f := FieldName(instance, q.id);
      var next := AddError(errors, data, f, RequiredMessage);
      var restReq := RequiredFields(instance, rest, errors, data);
      && WithRequired(next.0, restReq) == WithRequired(errors, restReq + {f})
      && next.1 - restReq == data - (restReq + {f})
  {
    var f := FieldName(instance, q.id);
    var restReq := RequiredFields(instance, rest, errors, data);
    forall g | g in restReq ensures g != f {
      var q' :| q' in rest && RequiredMissing(instance, q', errors, data) && g == FieldName(instance, q'.id);
      FieldNameInjective(instance, q.id, instance, q'.id);
    }
    WithRequiredAdd(errors, data, f, restReq);
  }

  /** Recording the required error on a field outside `required` and then
      adding `required` is adding both. */
  lemma WithRequiredAdd(errors: Errors, data: Data, f: string, required: set<string>)
    requires f !in errors && f !in required
    ensures var next := AddError(errors, data, f, RequiredMessage);
      && WithRequired(next.0, required) == WithRequired(errors, required + {f})
      && next.1 - required == data - (required + {f})
  {
    var next := AddError(errors, data, f, RequiredMessage);
    assert [] + [RequiredMessage] == [RequiredMessage];
    assert next.0 == errors[f := [RequiredMessage]];
    var lhs := WithRequired(next.0, required);
    var rhs := WithRequired(errors, required + {f});
    assert lhs.Keys == rhs.Keys;
    forall g | g in lhs.Keys ensures lhs[g] == rhs[g] {
    }
  }

  /** Two form states on which the listed questions look the same give the
      same first rejected question. */
  lemma {:induction false} FirstRejectedSame(db: Store, instance: nat, qs: seq<QuizQuestion>, e1: Errors, d1: Data, e2: Errors, d2: Data)
    requires forall q | q in qs :: Accepted(db, instance, q, e1, d1) <==> Accepted(db, instance, q, e2, d2)
    ensures FirstRejected(db, instance, qs, e1, d1) == FirstRejected(db, instance, qs, e2, d2)
  {
    if |qs| > 0 {
      assert qs[0] in qs;
      assert forall q | q in qs[1..] :: q in qs;
      FirstRejectedSame(db, instance, qs[1..], e1, d1, e2, d2);
    }
  }

  lemma RequiredFieldsSame(instance: nat, qs: seq<QuizQuestion>, e1: Errors, d1: Data, e2: Errors, d2: Data)
    requires forall q | q in qs :: RequiredMissing(instance, q, e1, d1) <==> RequiredMissing(instance, q, e2, d2)
    ensures RequiredFields(instance, qs, e1, d1) == RequiredFields(instance, qs, e2, d2)
  {
  }

  /** The form state after the first `k` questions passed: the required
      errors of those questions added, and their fields removed. */
  function Reached(instance: nat, qs: seq<QuizQuestion>, errors: Errors, data: Data, k: nat): (Errors, Data)
    requires k <= |qs|
  {
    var required := RequiredFields(instance, qs[..k], errors, data);
    (WithRequired(errors, required), data - required)
  }

  lemma ReachedNone(instance: nat, qs: seq<QuizQuestion>, errors: Errors, data: Data)
    ensures Reached(instance, qs, errors, data, 0) == (errors, data)
  {
    assert qs[..0] == [];
    assert RequiredFields(instance, [], errors, data) == {};
    assert WithRequired(errors, {}) == errors;
    assert data - {} == data;
  }

  /** Passing the head question and then `k` more is passing `k + 1`. */
  lemma ReachedCons(db: Store, instance: nat, qs: seq<QuizQuestion>, errors: Errors, data: Data, k: nat)
    requires DistinctIds(qs) && |qs| > 0 && k < |qs|
    requires ValidateQuestion(db, instance, qs[0], errors, data).Ok?
    ensures var next := ValidateQuestion(db, instance, qs[0], errors, data).value;
      Reached(instance, qs[1..], next.0, next.1, k) == Reached(instance, qs, errors, data, k + 1)
  {
    var q, rest := qs[0], qs[1..];
    var next := ValidateQuestion(db, instance, q, errors, data).value;
    DistinctIdsTail(qs);
    StepFrame(db, instance, q, rest, errors, data);
    var prefix := rest[..k];
    assert forall x | x in prefix :: x in rest;
    RequiredFieldsSame(instance, prefix, next.0, next.1, errors, data);
    var restReq := RequiredFields(instance, prefix, errors, data);
    assert qs[..k + 1][0] == q && qs[..k + 1][1..] == prefix;
    RequiredFieldsCons(instance, qs[..k + 1], errors, data);
    if RequiredMissing(instance, q, errors, data) {
      WithRequiredStep(instance, q, prefix, errors, data);
    } else {
      assert next == (errors, data);
      assert RequiredFields(instance, qs[..k + 1], errors, data) == restReq;
    }
  }

  /** Validation of a list runs up to the first question not accepted. It
      succeeds when there is none; otherwise that question raises, and the
      form keeps the required errors the questions before it added. */
  lemma {:induction false} ValidateQuestionsState(db: Store, instance: nat, qs: seq<QuizQuestion>, errors: Errors, data: Data)
    requires DistinctIds(qs)
    ensures var k := FirstRejected(db, instance, qs, errors, data);
      var r := ValidateQuestions(db, instance, qs, errors, data);
      && (r.Ok? <==> k == |qs|)
      && (r.Ok? ==> r.value == Reached(instance, qs, errors, data, k))
      && (r.Err? ==> k < |qs| && (r.error.errors, r.error.data) == Reached(instance, qs, errors, data, k)
                     && ValidateQuestion(db, instance, qs[k], r.error.errors, r.error.data) == Err(r.error.failure))
  {
    if |qs| == 0 {
      ReachedNone(instance, qs, errors, data);
    } else {
      var q, rest := qs[0], qs[1..];
      var step := ValidateQuestion(db, instance, q, errors, data);
      if step.Err? {
        ReachedNone(instance, qs, errors, data);
      } else {
        DistinctIdsTail(qs);
        ValidateQuestionsState(db, instance, rest, step.value.0, step.value.1);
        ValidateQuestionsStateCons(db, instance, qs, errors, data);
      }
    }
  }

  /** The step of `ValidateQuestionsState` past an accepted first question. */
  lemma ValidateQuestionsStateCons(db: Store, instance: nat, qs: seq<QuizQuestion>, errors: Errors, data: Data)
    requires DistinctIds(qs) && |qs| > 0
    requires ValidateQuestion(db, instance, qs[0], errors, data).Ok?
    requires var next := ValidateQuestion(db, instance, qs[0], errors, data).value;
      var k := FirstRejected(db, instance, qs[1..], next.0, next.1);
      var r := ValidateQuestions(db, instance, qs[1..], next.0, next.1);
      && (r.Ok? <==> k == |qs[1..]|)
      && (r.Ok? ==> r.value == Reached(instance, qs[1..], next.0, next.1, k))
      && (r.Err? ==> k < |qs[1..]| && (r.error.errors, r.error.data) == Reached(instance, qs[1..], next.0, next.1, k)
                     && ValidateQuestion(db, instance, qs[1..][k], r.error.errors, r.error.data) == Err(r.error.failure))
    ensures var k := FirstRejected(db, instance, qs, errors, data);
      var r := ValidateQuestions(db, instance, qs, errors, data);
      && (r.Ok? <==> k == |qs|)
      && (r.Ok? ==> r.value == Reached(instance, qs, errors, data, k))
      && (r.Err? ==> k < |qs| && (r.error.errors, r.error.data) == Reached(instance, qs, errors, data, k)
                     && ValidateQuestion(db, instance, qs[k], r.error.errors, r.error.data) == Err(r.error.failure))
  {
    var q, rest := qs[0], qs[1..];
    var next := ValidateQuestion(db, instance, q, errors, data).value;
    DistinctIdsTail(qs);
    StepFrame(db, instance, q, rest, errors, data);
    FirstRejectedSame(db, instance, rest, next.0, next.1, errors, data);
    var k' := FirstRejected(db, instance, rest, errors, data);
    assert FirstRejected(db, instance, qs, errors, data) == k' + 1;
    assert ValidateQuestions(db, instance, qs, errors, data) == ValidateQuestions(db, instance, rest, next.0, next.1);
    ReachedCons(db, instance, qs, errors, data, k');
    if k' < |rest| {
      assert rest[k'] == qs[k' + 1];
    }
  }

  /** Validation succeeds exactly when every question is accepted, and then
      the only change is the required-answer error on each empty single
      choice, whose field leaves the cleaned data. */
  lemma ValidateQuestionsSpec(db: Store, instance: nat, qs: seq<QuizQuestion>, errors: Errors, data: Data)
    requires DistinctIds(qs)
    ensures ValidateQuestions(db, instance, qs, errors, data).Ok? <==>
      forall q | q in qs :: Accepted(db, instance, q, errors, data)
    ensures ValidateQuestions(db, instance, qs, errors, data).Ok? ==>
      ValidateQuestions(db, instance, qs, errors, data).value
        == (WithRequired(errors, RequiredFields(instance, qs, errors, data)), data - RequiredFields(instance, qs, errors, data))
  {
    ValidateQuestionsState(db, instance, qs, errors, data);
    var k := FirstRejected(db, instance, qs, errors, data);
    assert qs[..|qs|] == qs;
    if forall q | q in qs :: Accepted(db, instance, q, errors, data) {
      assert forall i | 0 <= i < |qs| :: Accepted(db, instance, qs[i], errors, data);
    } else {
      var q :| q in qs && !Accepted(db, instance, q, errors, data);
      var i :| 0 <= i < |qs| && qs[i] == q;
    }
  }

  /** `validate_submission_form`: checks the answers of every question of the
      quiz. Succeeds exactly when every question is accepted; then the cleaned
      data comes back with only the fields of empty single choices removed,
      and those fields carry "Answer is required here.". Otherwise the first
      question not accepted raises, and the form keeps the required-answer
      errors the questions before it added, and lacks their fields. */
  function ValidateSubmissionForm(db: Store, quiz: nat, instance: nat, errors: Errors, data: Data): (r: Result<(Errors, Data), Stopped>)
    requires WellFormed(db)
    ensures r.Ok? <==> forall q | q in db.questions && q.quiz == quiz :: Accepted(db, instance, q, errors, data)
    ensures r.Ok? ==>
      var required := RequiredFields(instance, QuestionsOf(db, quiz), errors, data);
      && r.value.0 == WithRequired(errors, required)
      && r.value.1 == data - required
      && (forall f | f in required :: f !in errors && r.value.0[f] == [RequiredMessage])
    ensures r.Err? ==>
      var qs := QuestionsOf(db, quiz);
      var k := FirstRejected(db, instance, qs, errors, data);
      var required := RequiredFields(instance, qs[..k], errors, data);
      && k < |qs| && !Accepted(db, instance, qs[k], errors, data)
      && r.error.errors == WithRequired(errors, required)
      && r.error.data == data - required
      && ValidateQuestion(db, instance, qs[k], r.error.errors, r.error.data) == Err(r.error.failure)
  {
    var qs := QuestionsOf(db, quiz);
    QuestionsOfDistinct(db, quiz);
    ValidateQuestionsSpec(db, instance, qs, errors, data);
    ValidateQuestionsState(db, instance, qs, errors, data);
    ValidateQuestions(db, instance, qs, errors, data)
  }

  /** Raises "Illegal answer" when every named answer exists but one of them
      belongs to another question. */
  lemma ForeignAnswerIsIllegal(db: Store, q: QuizQuestion, raws: seq<string>, i: nat)
    requires forall raw | raw in raws :: ReadAnswer(db, raw).Ok?
    requires i < |raws| && ReadAnswer(db, raws[i]).value.question != q.id
    ensures CheckAnswers(db, q, raws) == Err(IllegalAnswer)
  {
    var ids := ParseAll(raws).value;
    forall id | id in ids ensures GetAnswer(db, id).Some? {
      var j :| 0 <= j < |ids| && ids[j] == id;
      assert raws[j] in raws;
    }
    ForeignIdIsIllegal(db, q, ids, i);
  }

  lemma {:induction false} ForeignIdIsIllegal(db: Store, q: QuizQuestion, ids: seq<nat>, i: nat)
    requires forall id | id in ids :: GetAnswer(db, id).Some?
    requires i < |ids| && GetAnswer(db, ids[i]).value.question != q.id
    ensures CheckIds(db, q, ids) == Err(IllegalAnswer)
  {
    assert ids[0] in ids;
    if GetAnswer(db, ids[0]).value.question == q.id {
      assert forall x | x in ids[1..] :: x in ids;
      assert ids[1..][i - 1] == ids[i];
      ForeignIdIsIllegal(db, q, ids[1..], i - 1);
    }
  }

  /** The answer ids `create_submission` reads for a question: every element
      of a multiple choice, or the single value; `int('')` is a ValueError and
      a missing value (`None`) a type error. */
  function CreationRaws(q: QuizQuestion, v: Value): Result<seq<string>, Failure> {
    if q.isMultipleChoice then RawAnswers(q, v)
    else
      match v
      case Text(t) => Ok([t])
      case _ => Err(WrongType)
  }

  /** `QuizAnswer.objects.get(id=a)` for each id in order; the first missing
      one raises DoesNotExist. */
  function LookupAll(db: Store, ids: seq<nat>): (r: Result<seq<nat>, Failure>)
    ensures r.Ok? <==> forall id | id in ids :: GetAnswer(db, id).Some?
    ensures r.Ok? ==> r.value == ids
    ensures r.Err? ==> r.error.NoSuchAnswer? && r.error.id in ids && GetAnswer(db, r.error.id).None?
  {
    if |ids| == 0 then Ok([])
    else
      assert forall x | x in ids :: x == ids[0] || x in ids[1..];
      assert ids[0] in ids;
      match GetAnswer(db, ids[0])
      case None => Err(NoSuchAnswer(ids[0]))
      case Some(_) =>
        match LookupAll(db, ids[1..])
        case Err(e) =>
          assert e.id in ids;
          Err(e)
        case Ok(_) =>
          assert ids == [ids[0]] + ids[1..];
          Ok(ids)
  }

  /** The answer ids read from raw strings: all of them read as numbers
      first, then looked up in order. */
  function ReadAnswers(db: Store, raws: seq<string>): (r: Result<seq<nat>, Failure>)
    ensures r.Ok? <==> forall raw | raw in raws :: ReadAnswer(db, raw).Ok?
    ensures r.Ok? ==> |r.value| == |raws| && forall i | 0 <= i < |raws| :: r.value[i] == ReadAnswer(db, raws[i]).value.id
    ensures r.Ok? ==> forall i | 0 <= i < |raws| :: ParseNat(raws[i]) == Some(r.value[i])
    ensures (exists raw | raw in raws :: ParseNat(raw).None?) ==> r.Err? && r.error.NotANumber?
  {
    match ParseAll(raws)
    case Err(e) => Err(e)
    case Ok(ids) =>
      var r := LookupAll(db, ids);
      assert r.Ok? <==> forall raw | raw in raws :: ReadAnswer(db, raw).Ok? by {
        if r.Ok? {
          forall raw | raw in raws ensures ReadAnswer(db, raw).Ok? {
            var i :| 0 <= i < |raws| && raws[i] == raw;
            assert ids[i] in ids;
          }
        } else {
          var id :| id in ids && GetAnswer(db, id).None?;
          var i :| 0 <= i < |ids| && ids[i] == id;
          assert raws[i] in raws && !ReadAnswer(db, raws[i]).Ok?;
        }
      }
      r
  }

  /** What `form_data.get` gives for question `q`'s field: `None` when the
      field is absent. */
  function FieldValue(instance: nat, q: QuizQuestion, data: Data): Value {
    var f := FieldName(instance, q.id);
    if f in data then data[f] else Null
  }

  /** Question `q`'s value expands into answers: it has the type the question
      needs, and every string in it reads as the id of an existing answer. */
  predicate Expands(db: Store, instance: nat, q: QuizQuestion, data: Data) {
    var raws := CreationRaws(q, FieldValue(instance, q, data));
    raws.Ok? && forall raw | raw in raws.value :: ReadAnswer(db, raw).Ok?
  }

  /** The id `id` is written in question `q`'s value. */
  predicate NamedIn(instance: nat, q: QuizQuestion, data: Data, id: nat) {
    var raws := CreationRaws(q, FieldValue(instance, q, data));
    raws.Ok? && exists raw | raw in raws.value :: ParseNat(raw) == Some(id)
  }

  /** The answer ids chosen for the listed questions, question by question.
      Reading succeeds exactly when every question's value expands, and the
      ids are then exactly those written in the values. */
  function ChosenAnswers(db: Store, instance: nat, qs: seq<QuizQuestion>, data: Data): (r: Result<seq<nat>, Failure>)
    ensures r.Ok? <==> forall q | q in qs :: Expands(db, instance, q, data)
    ensures r.Ok? ==> forall id :: id in r.value <==> exists q | q in qs :: NamedIn(instance, q, data, id)
    ensures r.Ok? ==> forall id | id in r.value :: GetAnswer(db, id).Some?
  {
    if |qs| == 0 then Ok([])
    else
      assert forall q | q in qs :: q == qs[0] || q in qs[1..];
      assert forall q | q in qs[1..] :: q in qs;
      match CreationRaws(qs[0], FieldValue(instance, qs[0], data))
      case Err(e) =>
        assert !Expands(db, instance, qs[0], data);
        Err(e)
      case Ok(raws) =>
        match ReadAnswers(db, raws)
        case Err(e) =>
          assert !Expands(db, instance, qs[0], data);
          Err(e)
        case Ok(ids) =>
          match ChosenAnswers(db, instance, qs[1..], data)
          case Err(e) => Err(e)
          case Ok(rest) =>
            ReadIdsNamed(db, instance, qs[0], data, raws, ids);
            Ok(ids + rest)
  }

  /** The ids read from one question's value are exactly those written in it,
      and each names an existing answer. */
  lemma ReadIdsNamed(db: Store, instance: nat, q: QuizQuestion, data: Data, raws: seq<string>, ids: seq<nat>)
    requires CreationRaws(q, FieldValue(instance, q, data)) == Ok(raws)
    requires ReadAnswers(db, raws) == Ok(ids)
    ensures forall id :: id in ids <==> NamedIn(instance, q, data, id)
    ensures forall id | id in ids :: GetAnswer(db, id).Some?
  {
    forall id ensures id in ids <==> NamedIn(instance, q, data, id) {
      if id in ids {
        var i :| 0 <= i < |ids| && ids[i] == id;
        assert raws[i] in raws && ParseNat(raws[i]) == Some(id);
      }
      if NamedIn(instance, q, data, id) {
        var raw :| raw in raws && ParseNat(raw) == Some(id);
        var i :| 0 <= i < |raws| && raws[i] == raw;
        assert ids[i] == id;
      }
    }
    forall id | id in ids ensures GetAnswer(db, id).Some? {
      var i :| 0 <= i < |ids| && ids[i] == id;
      assert raws[i] in raws;
    }
  }

  /** What creating a quiz submission stores: one submission-answer row per
      chosen answer id, and whether judging was started. */
  datatype Created = Created(rows: seq<QuizSubmissionAnswer>, judged: bool)

  /** `create_submission`, answer expansion: within one transaction, a row
      linking the new submission to each chosen answer, question by question;
      any exception leaves no rows at all. Judging follows only when asked. */
  function CreateSubmission(db: Store, quiz: nat, instance: nat, data: Data, submission: nat, judgeAfterCreate: bool): (r: Result<Created, Failure>)
    ensures r.Ok? <==> ChosenAnswers(db, instance, QuestionsOf(db, quiz), data).Ok?
    ensures r.Ok? ==>
      var ids := ChosenAnswers(db, instance, QuestionsOf(db, quiz), data).value;
      && |r.value.rows| == |ids|
      && (forall i | 0 <= i < |ids| :: r.value.rows[i] == QuizSubmissionAnswer(submission, ids[i]))
      && (forall a :: a in ChosenBy(r.value.rows, submission) <==> a in ids)
      && r.value.judged == judgeAfterCreate
  {
    match ChosenAnswers(db, instance, QuestionsOf(db, quiz), data)
    case Err(e) => Err(e)
    case Ok(ids) =>
      var rows := seq(|ids|, i requires 0 <= i < |ids| => QuizSubmissionAnswer(submission, ids[i]));
      assert forall a :: QuizSubmissionAnswer(submission, a) in rows <==> a in ids by {
        forall a ensures QuizSubmissionAnswer(submission, a) in rows <==> a in ids {
          if a in ids {
            var i :| 0 <= i < |ids| && ids[i] == a;
            assert rows[i] == QuizSubmissionAnswer(submission, a);
          }
        }
      }
      Ok(Created(rows, judgeAfterCreate))
  }

  /** An answer as the rendered submission shows it. */
  datatype AnswerView = AnswerView(id: nat, text: string, selected: bool)

  datatype QuestionView = QuestionView(id: nat, question: string, answers: seq<AnswerView>)

  /** The question-answer structure before marking: every question of the
      quiz with its answers, none selected. */
  function BaseViews(db: Store, quiz: nat): (r: seq<QuestionView>)
    ensures |r| == |QuestionsOf(db, quiz)|
    ensures forall i | 0 <= i < |r| ::
      && r[i].id == QuestionsOf(db, quiz)[i].id && r[i].question == QuestionsOf(db, quiz)[i].question
      && |r[i].answers| == |AnswersOf(db, r[i].id)|
      && forall j | 0 <= j < |r[i].answers| ::
           r[i].answers[j].id == AnswersOf(db, r[i].id)[j].id && r[i].answers[j].text == AnswersOf(db, r[i].id)[j].answer
    ensures forall i | 0 <= i < |r| :: forall j | 0 <= j < |r[i].answers| :: !r[i].answers[j].selected
  {
    var qs := QuestionsOf(db, quiz);
    seq(|qs|, i requires 0 <= i < |qs| => QuestionView(qs[i].id, qs[i].question, UnselectedAnswers(AnswersOf(db, qs[i].id))))
  }

  function UnselectedAnswers(answers: seq<QuizAnswer>): (r: seq<AnswerView>)
    ensures |r| == |answers| && forall j | 0 <= j < |r| :: r[j] == AnswerView(answers[j].id, answers[j].answer, false)
  {
    seq(|answers|, j requires 0 <= j < |answers| => AnswerView(answers[j].id, answers[j].answer, false))
  }

  /** `qa[qid]['answers'][aid]['selected'] = True`; a missing key is a KeyError. */
  function Mark(views: seq<QuestionView>, qid: nat, aid: nat): (r: Result<seq<QuestionView>, Failure>)
    ensures r.Ok? <==> exists i, j | 0 <= i < |views| && 0 <= j < |views[i].answers| :: views[i].id == qid && views[i].answers[j].id == aid
    ensures r.Ok? ==> SameShape(views, r.value) && forall i, j | 0 <= i < |views| && 0 <= j < |views[i].answers| ::
      r.value[i].answers[j].selected == (views[i].answers[j].selected || (views[i].id == qid && views[i].answers[j].id == aid))
  {
    if !exists i, j | 0 <= i < |views| && 0 <= j < |views[i].answers| :: views[i].id == qid && views[i].answers[j].id == aid then
      Err(MissingKey(NatToString(if exists i | 0 <= i < |views| :: views[i].id == qid then aid else qid)))
    else
      Ok(seq(|views|, i requires 0 <= i < |views| => MarkView(views[i], qid, aid)))
  }

  /** One question's view with the answer `aid` of question `qid` marked. */
  function MarkView(v: QuestionView, qid: nat, aid: nat): (r: QuestionView)
    ensures r.id == v.id && r.question == v.question && |r.answers| == |v.answers|
    ensures forall j | 0 <= j < |v.answers| ::
      && r.answers[j].id == v.answers[j].id && r.answers[j].text == v.answers[j].text
      && r.answers[j].selected == (v.answers[j].selected || (v.id == qid && v.answers[j].id == aid))
  {
    if v.id != qid then v
    else v.(answers := seq(|v.answers|, j requires 0 <= j < |v.answers| =>
      if v.answers[j].id == aid then v.answers[j].(selected := true) else v.answers[j]))
  }

  /** Marking changes selection marks only. */
  predicate SameShape(a: seq<QuestionView>, b: seq<QuestionView>) {
    && |a| == |b|
    && forall i | 0 <= i < |a| ::
      && a[i].id == b[i].id && a[i].question == b[i].question && |a[i].answers| == |b[i].answers|
      && forall j | 0 <= j < |a[i].answers| :: a[i].answers[j].id == b[i].answers[j].id && a[i].answers[j].text == b[i].answers[j].text
  }

  /** Marks the answers of the listed rows of the submission, in order. */
  function MarkRows(db: Store, views: seq<QuestionView>, rows: seq<QuizSubmissionAnswer>, submission: nat): Result<seq<QuestionView>, Failure>
    decreases |rows|
  {
    if |rows| == 0 then Ok(views)
    else if rows[0].quizSubmission != submission then MarkRows(db, views, rows[1..], submission)
    else
      match GetAnswer(db, rows[0].answer)
      case None => Err(NoSuchAnswer(rows[0].answer))
      case Some(a) =>
        match Mark(views, a.question, a.id)
        case Err(e) => Err(e)
        case Ok(marked) => MarkRows(db, marked, rows[1..], submission)
  }

  /** Every shown answer is shown under its own question. */
  predicate Consistent(db: Store, views: seq<QuestionView>) {
    forall i, j | 0 <= i < |views| && 0 <= j < |views[i].answers| ::
      GetAnswer(db, views[i].answers[j].id).Some? && GetAnswer(db, views[i].answers[j].id).value.question == views[i].id
  }

  lemma {:induction false} MarkRowsSelects(db: Store, views: seq<QuestionView>, rows: seq<QuizSubmissionAnswer>, submission: nat)
    requires Consistent(db, views)
    requires MarkRows(db, views, rows, submission).Ok?
    ensures var r := MarkRows(db, views, rows, submission).value;
      && SameShape(views, r)
      && forall i, j | 0 <= i < |views| && 0 <= j < |views[i].answers| ::
           r[i].answers[j].selected == (views[i].answers[j].selected || views[i].answers[j].id in ChosenBy(rows, submission))
    decreases |rows|
  {
    if |rows| > 0 {
      assert ChosenBy(rows, submission) == (if rows[0].quizSubmission == submission then [rows[0].answer] else []) + ChosenBy(rows[1..], submission);
      if rows[0].quizSubmission != submission {
        MarkRowsSelects(db, views, rows[1..], submission);
      } else {
        var a := GetAnswer(db, rows[0].answer).value;
        var marked := Mark(views, a.question, a.id).value;
        assert Consistent(db, marked);
        MarkRowsSelects(db, marked, rows[1..], submission);
      }
    }
  }

  /** The keys of the question-answer structure: the ids of the quiz's questions. */
  function QuizQuestionIds(db: Store, quiz: nat): set<nat> {
    set q | q in QuestionsOf(db, quiz) :: q.id
  }

  /** `render_submission`, selection part: the quiz's questions and answers,
      an answer marked selected exactly when the submission chose it. It
      fails (a KeyError, or DoesNotExist for a vanished answer) exactly when a
      chosen answer is not an answer of one of the quiz's questions. */
  function RenderSubmission(db: Store, quiz: nat, rows: seq<QuizSubmissionAnswer>, submission: nat): (r: Result<seq<QuestionView>, Failure>)
    requires WellFormed(db)
    ensures r.Ok? <==> forall a | a in ChosenBy(rows, submission) ::
      GetAnswer(db, a).Some? && GetAnswer(db, a).value.question in QuizQuestionIds(db, quiz)
    ensures r.Ok? ==> SameShape(BaseViews(db, quiz), r.value)
    ensures r.Ok? ==> forall i, j | 0 <= i < |r.value| && 0 <= j < |r.value[i].answers| ::
      r.value[i].answers[j].selected <==> r.value[i].answers[j].id in ChosenBy(rows, submission)
  {
    var base := BaseViews(db, quiz);
    BaseConsistent(db, quiz);
    BaseComplete(db, quiz);
    MarkRowsOk(db, base, rows, submission);
    var r := MarkRows(db, base, rows, submission);
    if r.Ok? then MarkRowsSelects(db, base, rows, submission); r else r
  }

  /** The structure has an entry for question `qid`. */
  predicate HasQuestion(views: seq<QuestionView>, qid: nat) {
    exists i | 0 <= i < |views| :: views[i].id == qid
  }

  /** The structure has an entry for answer `aid` under question `qid`. */
  predicate HasAnswer(views: seq<QuestionView>, qid: nat, aid: nat) {
    exists i, j | 0 <= i < |views| && 0 <= j < |views[i].answers| :: views[i].id == qid && views[i].answers[j].id == aid
  }

  /** Every question present lists all of its answers. */
  predicate Complete(db: Store, views: seq<QuestionView>) {
    forall a | a in db.answers && HasQuestion(views, a.question) :: HasAnswer(views, a.question, a.id)
  }

  lemma SameShapeKeys(v: seq<QuestionView>, w: seq<QuestionView>)
    requires SameShape(v, w)
    ensures forall qid :: HasQuestion(v, qid) <==> HasQuestion(w, qid)
    ensures forall qid, aid :: HasAnswer(v, qid, aid) <==> HasAnswer(w, qid, aid)
  {
    forall qid, aid ensures HasAnswer(v, qid, aid) <==> HasAnswer(w, qid, aid) {
      if HasAnswer(v, qid, aid) {
        var i, j :| 0 <= i < |v| && 0 <= j < |v[i].answers| && v[i].id == qid && v[i].answers[j].id == aid;
        assert w[i].id == qid && w[i].answers[j].id == aid;
      }
      if HasAnswer(w, qid, aid) {
        var i, j :| 0 <= i < |w| && 0 <= j < |w[i].answers| && w[i].id == qid && w[i].answers[j].id == aid;
        assert v[i].id == qid && v[i].answers[j].id == aid;
      }
    }
    forall qid ensures HasQuestion(v, qid) <==> HasQuestion(w, qid) {
      if HasQuestion(v, qid) {
        var i :| 0 <= i < |v| && v[i].id == qid;
        assert w[i].id == qid;
      }
      if HasQuestion(w, qid) {
        var i :| 0 <= i < |w| && w[i].id == qid;
        assert v[i].id == qid;
      }
    }
  }

  /** Marking the rows of a complete structure fails exactly when a chosen
      answer is missing or belongs to a question the structure lacks. */
  lemma {:induction false} MarkRowsOk(db: Store, views: seq<QuestionView>, rows: seq<QuizSubmissionAnswer>, submission: nat)
    requires Complete(db, views)
    ensures MarkRows(db, views, rows, submission).Ok? <==>
      forall a | a in ChosenBy(rows, submission) :: GetAnswer(db, a).Some? && HasQuestion(views, GetAnswer(db, a).value.question)
    decreases |rows|
  {
    if |rows| > 0 {
      var rest := ChosenBy(rows[1..], submission);
      assert ChosenBy(rows, submission) == (if rows[0].quizSubmission == submission then [rows[0].answer] else []) + rest;
      if rows[0].quizSubmission != submission {
        MarkRowsOk(db, views, rows[1..], submission);
      } else {
        assert rows[0].answer in ChosenBy(rows, submission);
        var found := GetAnswer(db, rows[0].answer);
        if found.Some? {
          var a := found.value;
          var m := Mark(views, a.question, a.id);
          if m.Ok? {
            SameShapeKeys(views, m.value);
            MarkRowsOk(db, m.value, rows[1..], submission);
          } else {
            assert !HasQuestion(views, a.question);
          }
        }
      }
    }
  }

  lemma BaseComplete(db: Store, quiz: nat)
    requires WellFormed(db)
    ensures Complete(db, BaseViews(db, quiz))
    ensures forall qid :: HasQuestion(BaseViews(db, quiz), qid) <==> qid in QuizQuestionIds(db, quiz)
  {
    BaseListsAnswers(db, quiz);
    BaseQuestionIds(db, quiz);
  }

  lemma BaseListsAnswers(db: Store, quiz: nat)
    ensures Complete(db, BaseViews(db, quiz))
  {
    var views := BaseViews(db, quiz);
    forall a | a in db.answers && HasQuestion(views, a.question) ensures HasAnswer(views, a.question, a.id) {
      var i :| 0 <= i < |views| && views[i].id == a.question;
      BaseAnswerListed(db, quiz, i, a);
    }
  }

  /** An answer of a question in the base structure has its entry there. */
  lemma BaseAnswerListed(db: Store, quiz: nat, i: nat, a: QuizAnswer)
    requires i < |BaseViews(db, quiz)| && a in AnswersOf(db, BaseViews(db, quiz)[i].id)
    ensures HasAnswer(BaseViews(db, quiz), BaseViews(db, quiz)[i].id, a.id)
  {
    var views := BaseViews(db, quiz);
    var answers := AnswersOf(db, views[i].id);
    var j :| 0 <= j < |answers| && answers[j] == a;
    assert views[i].answers[j].id == a.id;
  }

  lemma BaseQuestionIds(db: Store, quiz: nat)
    ensures forall qid :: HasQuestion(BaseViews(db, quiz), qid) <==> qid in QuizQuestionIds(db, quiz)
  {
    var views := BaseViews(db, quiz);
    var qs := QuestionsOf(db, quiz);
    forall qid ensures HasQuestion(views, qid) <==> qid in QuizQuestionIds(db, quiz) {
      if HasQuestion(views, qid) {
        var i :| 0 <= i < |views| && views[i].id == qid;
        assert qs[i] in qs;
      }
      if qid in QuizQuestionIds(db, quiz) {
        var q :| q in qs && q.id == qid;
        var i :| 0 <= i < |qs| && qs[i] == q;
        assert views[i].id == qid;
      }
    }
  }

  lemma BaseConsistent(db: Store, quiz: nat)
    requires WellFormed(db)
    ensures Consistent(db, BaseViews(db, quiz))
  {
    var views := BaseViews(db, quiz);
    var qs := QuestionsOf(db, quiz);
    forall i, j | 0 <= i < |views| && 0 <= j < |views[i].answers|
      ensures GetAnswer(db, views[i].answers[j].id).Some? && GetAnswer(db, views[i].answers[j].id).value.question == views[i].id
    {
      var answers := AnswersOf(db, qs[i].id);
      assert answers[j] in answers;
      GetAnswerFinds(db, answers[j]);
    }
  }

  /** With unique ids, looking an answer's id up finds that answer. */
  lemma {:induction false} GetAnswerFinds(db: Store, a: QuizAnswer)
    requires forall i, j | 0 <= i < j < |db.answers| :: db.answers[i].id != db.answers[j].id
    requires a in db.answers
    ensures GetAnswer(db, a.id) == Some(a)
    decreases |db.answers|
  {
    if db.answers[0] != a {
      var tail := db.(answers := db.answers[1..]);
      var k :| 0 <= k < |db.answers| && db.answers[k] == a;
      assert tail.answers[k - 1] == a;
      forall i, j | 0 <= i < j < |tail.answers| ensures tail.answers[i].id != tail.answers[j].id {
        assert tail.answers[i] == db.answers[i + 1] && tail.answers[j] == db.answers[j + 1];
      }
      GetAnswerFinds(tail, a);
    }
  }

  /** Creating a submission and rendering it marks exactly the chosen answers. */
  lemma CreateThenRender(db: Store, quiz: nat, instance: nat, data: Data, submission: nat, judge: bool)
    requires WellFormed(db)
    requires CreateSubmission(db, quiz, instance, data, submission, judge).Ok?
    requires forall id | id in ChosenAnswers(db, instance, QuestionsOf(db, quiz), data).value ::
      GetAnswer(db, id).value.question in QuizQuestionIds(db, quiz)
    ensures var ids := ChosenAnswers(db, instance, QuestionsOf(db, quiz), data).value;
      var rendered := RenderSubmission(db, quiz, CreateSubmission(db, quiz, instance, data, submission, judge).value.rows, submission);
      && rendered.Ok?
      && forall i, j | 0 <= i < |rendered.value| && 0 <= j < |rendered.value[i].answers| ::
           rendered.value[i].answers[j].selected <==> rendered.value[i].answers[j].id in ids
  {
  }

  /** A question accepted with no field error, and not a single choice left
      empty, expands, and every id its value names is an answer of that
      question. */
  lemma AcceptedExpands(db: Store, instance: nat, q: QuizQuestion, errors: Errors, data: Data)
    requires Accepted(db, instance, q, errors, data)
    requires FieldName(instance, q.id) !in errors && !RequiredMissing(instance, q, errors, data)
    ensures Expands(db, instance, q, data)
    ensures forall id | NamedIn(instance, q, data, id) :: GetAnswer(db, id).Some? && GetAnswer(db, id).value.question == q.id
  {
    var f := FieldName(instance, q.id);
    var raws := RawAnswers(q, data[f]);
    if !q.isMultipleChoice {
      assert data[f].Text? && data[f].text != "";
    }
    assert CreationRaws(q, FieldValue(instance, q, data)) == raws;
    forall raw | raw in raws.value ensures ReadAnswer(db, raw).Ok? {
      assert LegalAnswer(db, q, raw);
    }
    forall id: nat | NamedIn(instance, q, data, id)
      ensures GetAnswer(db, id).Some? && GetAnswer(db, id).value.question == q.id
    {
      var raw :| raw in raws.value && ParseNat(raw) == Some(id);
      assert LegalAnswer(db, q, raw);
    }
  }

  /** The submit path: validation passed and left no error on any question's
      field, so the form is valid and its cleaned data, the data validated, is
      handed to `create_submission`. Creation then succeeds, and every id
      written in a question's value is stored and is an answer of that
      question. */
  lemma ValidatedFormCreates(db: Store, quiz: nat, instance: nat, errors: Errors, data: Data, submission: nat, judge: bool)
    requires WellFormed(db)
    requires ValidateSubmissionForm(db, quiz, instance, errors, data).Ok?
    requires forall q | q in QuestionsOf(db, quiz) ::
      FieldName(instance, q.id) !in ValidateSubmissionForm(db, quiz, instance, errors, data).value.0
    ensures ValidateSubmissionForm(db, quiz, instance, errors, data).value.1 == data
    ensures CreateSubmission(db, quiz, instance, data, submission, judge).Ok?
    ensures forall q, id | q in QuestionsOf(db, quiz) && NamedIn(instance, q, data, id) ::
      && id in ChosenAnswers(db, instance, QuestionsOf(db, quiz), data).value
      && GetAnswer(db, id).Some? && GetAnswer(db, id).value.question == q.id
  {
    var qs := QuestionsOf(db, quiz);
    NoRequiredFields(db, quiz, instance, errors, data);
    forall q | q in qs
      ensures Expands(db, instance, q, data)
      ensures forall id | NamedIn(instance, q, data, id) :: GetAnswer(db, id).Some? && GetAnswer(db, id).value.question == q.id
    {
      UnflaggedQuestionExpands(db, quiz, instance, errors, data, q);
    }
  }

  /** When validation left no error on any question's field, no required
      answer was missing, so the cleaned data is the data validated. */
  lemma NoRequiredFields(db: Store, quiz: nat, instance: nat, errors: Errors, data: Data)
    requires WellFormed(db)
    requires ValidateSubmissionForm(db, quiz, instance, errors, data).Ok?
    requires forall q | q in QuestionsOf(db, quiz) ::
      FieldName(instance, q.id) !in ValidateSubmissionForm(db, quiz, instance, errors, data).value.0
    ensures RequiredFields(instance, QuestionsOf(db, quiz), errors, data) == {}
    ensures ValidateSubmissionForm(db, quiz, instance, errors, data).value.1 == data
  {
    var required := RequiredFields(instance, QuestionsOf(db, quiz), errors, data);
    assert forall q | q in QuestionsOf(db, quiz) :: !RequiredMissing(instance, q, errors, data);
    assert required == {};
    assert data - required == data;
  }

  /** One question of a validated form whose field carries no error expands. */
  lemma UnflaggedQuestionExpands(db: Store, quiz: nat, instance: nat, errors: Errors, data: Data, q: QuizQuestion)
    requires WellFormed(db)
    requires ValidateSubmissionForm(db, quiz, instance, errors, data).Ok?
    requires q in QuestionsOf(db, quiz)
    requires FieldName(instance, q.id) !in ValidateSubmissionForm(db, quiz, instance, errors, data).value.0
    ensures Expands(db, instance, q, data)
    ensures forall id | NamedIn(instance, q, data, id) :: GetAnswer(db, id).Some? && GetAnswer(db, id).value.question == q.id
  {
    var f := FieldName(instance, q.id);
    assert f !in errors;
    assert !RequiredMissing(instance, q, errors, data) by {
      assert f !in WithRequired(errors, RequiredFields(instance, QuestionsOf(db, quiz), errors, data));
    }
    AcceptedExpands(db, instance, q, errors, data);
  }

  /** Validate, create, render: the submission created from a validated form
      renders, and an answer is shown selected exactly when some question's
      value names it. */
  lemma ValidatedFormRenders(db: Store, quiz: nat, instance: nat, errors: Errors, data: Data, submission: nat, judge: bool)
    requires WellFormed(db)
    requires ValidateSubmissionForm(db, quiz, instance, errors, data).Ok?
    requires forall q | q in QuestionsOf(db, quiz) ::
      FieldName(instance, q.id) !in ValidateSubmissionForm(db, quiz, instance, errors, data).value.0
    ensures CreateSubmission(db, quiz, instance, data, submission, judge).Ok?
    ensures var rendered := RenderSubmission(db, quiz, CreateSubmission(db, quiz, instance, data, submission, judge).value.rows, submission);
      && rendered.Ok?
      && forall i, j | 0 <= i < |rendered.value| && 0 <= j < |rendered.value[i].answers| ::
           rendered.value[i].answers[j].selected <==>
             exists q | q in QuestionsOf(db, quiz) :: NamedIn(instance, q, data, rendered.value[i].answers[j].id)
  {
    var qs := QuestionsOf(db, quiz);
    ValidatedFormCreates(db, quiz, instance, errors, data, submission, judge);
    var ids := ChosenAnswers(db, instance, qs, data).value;
    forall id | id in ids ensures GetAnswer(db, id).value.question in QuizQuestionIds(db, quiz) {
      var q :| q in qs && NamedIn(instance, q, data, id);
    }
    CreateThenRender(db, quiz, instance, data, submission, judge);
  }

  /** Every choice a question's field offers passes that question's answer
      check: the field and the validation agree. */
  lemma ChoicesAreLegal(db: Store, q: QuizQuestion)
    requires WellFormed(db)
    ensures forall c | c in QuestionField(db, q).choices :: LegalAnswer(db, q, c.value)
  {
    var answers := AnswersOf(db, q.id);
    var choices := QuestionField(db, q).choices;
    forall c | c in choices ensures LegalAnswer(db, q, c.value) {
      var j :| 0 <= j < |choices| && choices[j] == c;
      AnswerChoiceLegal(db, q, answers[j]);
    }
  }

  lemma AnswerChoiceLegal(db: Store, q: QuizQuestion, a: QuizAnswer)
    requires WellFormed(db) && a in AnswersOf(db, q.id)
    ensures LegalAnswer(db, q, NatToString(a.id))
  {
    ParseNatToString(a.id);
    GetAnswerFinds(db, a);
  }
}

=== FILE: quiz_models.dfy ===
/** The quiz schema: questions belonging to a quiz, answers belonging to a
    question, and the answers a quiz submission chose. Rows are identified
    by their primary keys; a foreign key is the referenced row's id. */
module QuizModels {

  import opened Results

  /** Longest question or answer text the schema admits. */
  const MaxTextLength: nat := 140

  datatype QuizQuestion = QuizQuestion(id: nat, question: string, isMultipleChoice: bool, quiz: nat)

  datatype QuizAnswer = QuizAnswer(id: nat, question: nat, answer: string, isCorrect: bool)

  datatype QuizSubmissionAnswer = QuizSubmissionAnswer(quizSubmission: nat, answer: nat)

  datatype SchemaError = TextTooLong(length: nat)

  /** A new question row: the text is at most 140 characters; "is multiple
      choice" defaults to false. */
  function NewQuestion(id: nat, text: string, quiz: nat, isMultipleChoice: Option<bool>): (r: Result<QuizQuestion, SchemaError>)
    ensures r.Ok? <==> |text| <= MaxTextLength
    ensures r.Err? ==> r.error == TextTooLong(|text|)
    ensures r.Ok? ==> r.value.id == id && r.value.question == text && r.value.quiz == quiz
    ensures r.Ok? ==> (r.value.isMultipleChoice <==> isMultipleChoice == Some(true))
  {
    if |text| > MaxTextLength then Err(TextTooLong(|text|))
    else Ok(QuizQuestion(id, text, if isMultipleChoice.Some? then isMultipleChoice.value else false, quiz))
  }

  /** A new answer row: the text is at most 140 characters; "is correct"
      defaults to false. */
  function NewAnswer(id: nat, question: nat, text: string, isCorrect: Option<bool>): (r: Result<QuizAnswer, SchemaError>)
    ensures r.Ok? <==> |text| <= MaxTextLength
    ensures r.Err? ==> r.error == TextTooLong(|text|)
    ensures r.Ok? ==> r.value.id == id && r.value.answer == text && r.value.question == question
    ensures r.Ok? ==> (r.value.isCorrect <==> isCorrect == Some(true))
  {
    if |text| > MaxTextLength then Err(TextTooLong(|text|))
    else Ok(QuizAnswer(id, question, text, if isCorrect.Some? then isCorrect.value else false))
  }

  /** The rows of a quiz database. */
  datatype Store = Store(questions: seq<QuizQuestion>, answers: seq<QuizAnswer>)

  /** Primary keys are unique, every answer's question exists, and texts
      respect the schema's bound. */
  predicate WellFormed(db: Store) {
    && (forall i, j | 0 <= i < j < |db.questions| :: db.questions[i].id != db.questions[j].id)
    && (forall i, j | 0 <= i < j < |db.answers| :: db.answers[i].id != db.answers[j].id)
    && (forall a | a in db.answers :: exists q | q in db.questions :: q.id == a.question)
    && (forall q | q in db.questions :: |q.question| <= MaxTextLength)
    && (forall a | a in db.answers :: |a.answer| <= MaxTextLength)
  }

  /** `quiz.quizquestion_set`: the questions of a quiz, in table order. */
  function QuestionsOf(db: Store, quiz: nat): (r: seq<QuizQuestion>)
    ensures forall q :: q in r <==> q in db.questions && q.quiz == quiz
  {
    Filter(db.questions, (q: QuizQuestion) => q.quiz == quiz)
  }

  /** `question.quizanswer_set`: the answers of a question, in table order. */
  function AnswersOf(db: Store, question: nat): (r: seq<QuizAnswer>)
    ensures forall a :: a in r <==> a in db.answers && a.question == question
  {
    Filter(db.answers, (a: QuizAnswer) => a.question == question)
  }

  function Filter<T(!new)>(xs: seq<T>, keep: T -> bool): (r: seq<T>)
    ensures forall x :: x in r <==> x in xs && keep(x)
  {
    if |xs| == 0 then []
    else
      assert forall x | x in xs :: x == xs[0] || x in xs[1..];
      (if keep(xs[0]) then [xs[0]] else []) + Filter(xs[1..], keep)
  }

  /** `QuizAnswer.objects.get(id=...)`; `None` is DoesNotExist. */
  function GetAnswer(db: Store, id: nat): (r: Option<QuizAnswer>)
    decreases |db.answers|
    ensures r.Some? ==> r.value in db.answers && r.value.id == id
    ensures r.None? ==> forall a | a in db.answers :: a.id != id
  {
    if |db.answers| == 0 then None
    else if db.answers[0].id == id then Some(db.answers[0])
    else
      assert forall a | a in db.answers :: a == db.answers[0] || a in db.answers[1..];
      GetAnswer(db.(answers := db.answers[1..]), id)
  }

  /** In a well-formed store every answer belongs to exactly one question,
      and that question is the one listing it. */
  lemma AnswerHasOneQuestion(db: Store, a: QuizAnswer)
    requires WellFormed(db) && a in db.answers
    ensures exists q | q in db.questions :: q.id == a.question
    ensures forall q, q' | q in db.questions && q' in db.questions && q.id == a.question && q'.id == a.question :: q == q'
    ensures forall q | q in db.questions :: a in AnswersOf(db, q.id) <==> q.id == a.question
  {
    forall q, q' | q in db.questions && q' in db.questions && q.id == a.question && q'.id == a.question
      ensures q == q'
    {
      var i :| 0 <= i < |db.questions| && db.questions[i] == q;
      var j :| 0 <= j < |db.questions| && db.questions[j] == q';
      assert i == j;
    }
  }

  /** In a well-formed store a question is listed exactly once by its own
      quiz and by no other quiz. */
  lemma QuestionHasOneQuiz(db: Store, q: QuizQuestion)
    requires WellFormed(db) && q in db.questions
    ensures multiset(QuestionsOf(db, q.quiz))[q] == 1
    ensures forall quiz | quiz != q.quiz :: q !in QuestionsOf(db, quiz)
  {
    FilterCount(db.questions, (x: QuizQuestion) => x.quiz == q.quiz, q);
    var i :| 0 <= i < |db.questions| && db.questions[i] == q;
    ListedOnce(db.questions, i);
  }

  /** Filtering keeps every copy of a kept element and no copy of another. */
  lemma {:induction false} FilterCount<T(!new)>(xs: seq<T>, keep: T -> bool, x: T)
    ensures multiset(Filter(xs, keep))[x] == if keep(x) then multiset(xs)[x] else 0
  {
    if |xs| > 0 {
      FilterCount(xs[1..], keep, x);
      assert xs == [xs[0]] + xs[1..];
    }
  }

  /** A question of a table with unique ids occurs in it once. */
  lemma {:induction false} ListedOnce(qs: seq<QuizQuestion>, i: nat)
    requires i < |qs|
    requires forall j, k | 0 <= j < k < |qs| :: qs[j].id != qs[k].id
    ensures multiset(qs)[qs[i]] == 1
  {
    assert qs == qs[..i] + [qs[i]] + qs[i + 1..];
    assert qs[i] !in qs[..i] by {
      assert forall j | 0 <= j < i :: qs[..i][j] == qs[j];
    }
    assert qs[i] !in qs[i + 1..] by {
      var tail := qs[i + 1..];
      assert forall j | 0 <= j < |tail| :: tail[j] == qs[i + 1 + j];
    }
  }

  /** `quiz_submission.quizsubmissionanswer_set`: the answers a submission
      chose; a submission may own any number of them. */
  function ChosenBy(rows: seq<QuizSubmissionAnswer>, submission: nat): (r: seq<nat>)
    ensures forall a :: a in r <==> QuizSubmissionAnswer(submission, a) in rows
  {
    if |rows| == 0 then []
    else
      assert forall x | x in rows :: x == rows[0] || x in rows[1..];
      (if rows[0].quizSubmission == submission then [rows[0].answer] else []) + ChosenBy(rows[1..], submission)
  }
}

=== FILE: results.dfy ===
/** Option and Result types used for the error paths of the model: a Python
    exception or an error status becomes an `Err`, a missing value a `None`. */
module Results {

  datatype Option<+T> = None | Some(value: T)

  datatype Result<+T, +E> = Ok(value: T) | Err(error: E) {

    predicate IsFailure() {
      Err?
    }

    function PropagateFailure<U>(): Result<U, E>
      requires Err?
    {
      Err(error)
    }

    function Extract(): T
      requires Ok?
    {
      value
    }
  }
}

=== FILE: sinol_export.dfy ===
/** The layout of a problem package as it is exported: documents under
    `<short>/doc/`, one input and one output file per test under `<short>/in/`
    and `<short>/out/` named after the short name and the test, and the model
    solutions under `<short>/prog/`. */
module SinolExport {

  import opened Results
  import opened Strings
  import opened SinolTests
  import SinolIngest
  import SinolLimits
  import SinolScores

  /** What an archive entry holds. */
  datatype Entry = Doc(file: string) | Input(test: string) | Output(test: string) | Program(file: string)

  /** The directory prefix `<short>/<dir>` of the package `short`. */
  function Under(short: string, dir: string): string {
    short + "/" + dir
  }

  function EntryPath(short: string, e: Entry): string {
    match e
    case Doc(f) => Under(short, "doc/") + f
    case Input(t) => Under(short, "in/" + short) + t + ".in"
    case Output(t) => Under(short, "out/" + short) + t + ".out"
    case Program(f) => Under(short, "prog/") + f
  }

  /** The text of `s` after `prefix` and before `suffix`, if `s` has both. */
  function Between(s: string, prefix: string, suffix: string): (r: Option<string>)
    ensures r.Some? <==> |prefix| + |suffix| <= |s| && StartsWith(s, prefix) && EndsWith(s, suffix)
    ensures r.Some? ==> s == prefix + r.value + suffix
  {
    if |prefix| + |suffix| <= |s| && StartsWith(s, prefix) && EndsWith(s, suffix) then
      var mid := s[|prefix|..|s| - |suffix|];
      assert s == s[..|prefix|] + mid + s[|s| - |suffix|..];
      Some(mid)
    else None
  }

  /** Reads an archive path back as an entry of the package `short`. */
  function ParseEntry(short: string, path: string): (r: Option<Entry>)
    ensures r.Some? ==> EntryPath(short, r.value) == path
  {
    var doc := Between(path, Under(short, "doc/"), "");
    var input := Between(path, Under(short, "in/" + short), ".in");
    var output := Between(path, Under(short, "out/" + short), ".out");
    var prog := Between(path, Under(short, "prog/"), "");
    if doc.Some? then assert path == Under(short, "doc/") + doc.value + ""; Some(Doc(doc.value))
    else if input.Some? then Some(Input(input.value))
    else if output.Some? then Some(Output(output.value))
    else if prog.Some? then assert path == Under(short, "prog/") + prog.value + ""; Some(Program(prog.value))
    else None
  }

  lemma BetweenOf(prefix: string, mid: string, suffix: string)
    ensures Between(prefix + mid + suffix, prefix, suffix) == Some(mid)
  {
    var s := prefix + mid + suffix;
    assert s[..|prefix|] == prefix;
    assert s[|s| - |suffix|..] == suffix;
    assert s[|prefix|..|s| - |suffix|] == mid;
  }

  /** Two paths of the package whose directory parts differ at one character
      are not one path. */
  lemma DirectoriesDiffer(short: string, a: string, b: string, x: string, y: string)
    requires |a| > 0 && |b| > 0 && a[0] != b[0]
    ensures short + "/" + a + x != short + "/" + b + y
  {
    var p := short + "/" + a + x;
    var q := short + "/" + b + y;
    assert p[|short| + 1] == a[0];
    assert q[|short| + 1] == b[0];
  }

  /** Every entry's path reads back as that entry: the export layout loses
      nothing. */
  lemma ParseEntryPath(short: string, e: Entry)
    ensures ParseEntry(short, EntryPath(short, e)) == Some(e)
  {
    match e
    case Doc(f) => ParseDocPath(short, f);
    case Input(t) => ParseInputPath(short, t);
    case Output(t) => ParseOutputPath(short, t);
    case Program(f) => ParseProgramPath(short, f);
  }

  lemma ParseDocPath(short: string, f: string)
    ensures ParseEntry(short, EntryPath(short, Doc(f))) == Some(Doc(f))
  {
    assert EntryPath(short, Doc(f)) == Under(short, "doc/") + f + "";
    BetweenOf(Under(short, "doc/"), f, "");
  }

  lemma ParseInputPath(short: string, t: string)
    ensures ParseEntry(short, EntryPath(short, Input(t))) == Some(Input(t))
  {
    var path := EntryPath(short, Input(t));
    BetweenOf(Under(short, "in/" + short), t, ".in");
    var rest := "in/" + short + t + ".in";
    assert path == Under(short, rest);
    NotUnder(short, rest, "doc/", "");
  }

  lemma ParseOutputPath(short: string, t: string)
    ensures ParseEntry(short, EntryPath(short, Output(t))) == Some(Output(t))
  {
    var path := EntryPath(short, Output(t));
    BetweenOf(Under(short, "out/" + short), t, ".out");
    var rest := "out/" + short + t + ".out";
    assert path == Under(short, rest);
    NotUnder(short, rest, "doc/", "");
    NotUnder(short, rest, "in/" + short, ".in");
  }

  lemma ParseProgramPath(short: string, f: string)
    ensures ParseEntry(short, EntryPath(short, Program(f))) == Some(Program(f))
  {
    var path := EntryPath(short, Program(f));
    assert path == Under(short, "prog/") + f + "";
    BetweenOf(Under(short, "prog/"), f, "");
    var rest := "prog/" + f;
    assert path == Under(short, rest);
    NotUnder(short, rest, "doc/", "");
    NotUnder(short, rest, "in/" + short, ".in");
    NotUnder(short, rest, "out/" + short, ".out");
  }

  /** A path of the package whose directory starts with another letter than
      `dir` does is not under `dir`. */
  lemma NotUnder(short: string, rest: string, dir: string, suffix: string)
    requires |rest| > 0 && |dir| > 0 && rest[0] != dir[0]
    ensures Between(Under(short, rest), Under(short, dir), suffix).None?
  {
    var p := Under(short, rest);
    var q := Under(short, dir);
    assert p[|short| + 1] == rest[0];
    assert q[|short| + 1] == dir[0];
    if |q| <= |p| {
      assert p[..|q|][|short| + 1] == p[|short| + 1];
    }
  }

  /** The archive of a package: documents, inputs, outputs, programs. */
  function ExportEntries(docs: seq<string>, tests: seq<string>, programs: seq<string>): (r: seq<Entry>)
    ensures |r| == |docs| + 2 * |tests| + |programs|
  {
    Tagged(docs, DocDir) + Tagged(tests, InDir) + Tagged(tests, OutDir) + Tagged(programs, ProgDir)
  }

  /** The archive holds a document, an input and an output per test, and a
      program exactly for the listed ones, and nothing else. */
  lemma ExportEntriesMembers(docs: seq<string>, tests: seq<string>, programs: seq<string>, e: Entry)
    ensures e in ExportEntries(docs, tests, programs) <==>
      || (e.Doc? && e.file in docs) || (e.Input? && e.test in tests)
      || (e.Output? && e.test in tests) || (e.Program? && e.file in programs)
  {
    var ds, ins, outs, ps := Tagged(docs, DocDir), Tagged(tests, InDir), Tagged(tests, OutDir), Tagged(programs, ProgDir);
    assert ExportEntries(docs, tests, programs) == ds + ins + outs + ps;
    if e in ds {
      var n :| n in docs && e == Tag(DocDir, n);
    } else if e in ins {
      var n :| n in tests && e == Tag(InDir, n);
    } else if e in outs {
      var n :| n in tests && e == Tag(OutDir, n);
    } else if e in ps {
      var n :| n in programs && e == Tag(ProgDir, n);
    }
    match e
    case Doc(f) => if f in docs { assert Tag(DocDir, f) in ds; }
    case Input(t) => if t in tests { assert Tag(InDir, t) in ins; }
    case Output(t) => if t in tests { assert Tag(OutDir, t) in outs; }
    case Program(f) => if f in programs { assert Tag(ProgDir, f) in ps; }
  }

  /** The four directories of an archive. */
  datatype Dir = DocDir | InDir | OutDir | ProgDir

  function Tag(d: Dir, name: string): Entry {
    match d
    case DocDir => Doc(name)
    case InDir => Input(name)
    case OutDir => Output(name)
    case ProgDir => Program(name)
  }

  /** One entry per name, in order. */
  function Tagged(names: seq<string>, d: Dir): (r: seq<Entry>)
    ensures |r| == |names| && forall i | 0 <= i < |names| :: r[i] == Tag(d, names[i])
    ensures forall n | n in names :: Tag(d, n) in r
    ensures forall e | e in r :: exists n | n in names :: e == Tag(d, n)
  {
    var r := seq(|names|, i requires 0 <= i < |names| => Tag(d, names[i]));
    assert forall n | n in names :: Tag(d, n) in r by {
      forall n | n in names ensures Tag(d, n) in r {
        var i :| 0 <= i < |names| && names[i] == n;
        assert r[i] == Tag(d, n);
      }
    }
    r
  }

  function Paths(short: string, entries: seq<Entry>): (r: seq<string>)
    ensures |r| == |entries|
  {
    seq(|entries|, i requires 0 <= i < |entries| => EntryPath(short, entries[i]))
  }

  /** The paths of a problem's export archive. */
  function ExportProblem(p: SinolIngest.Problem): (r: seq<string>)
    ensures |r| == |p.docs| + 2 * |p.tests| + |p.solutions|
  {
    Paths(p.shortName, ExportEntries(p.docs, TestNames(p.tests), SolutionNames(p.solutions)))
  }

  /** The names of the tests, in order. Tests and model solutions are
      different records, so each has its own projection. */
  function TestNames(tests: seq<Test>): (r: seq<string>)
    ensures |r| == |tests| && forall i | 0 <= i < |tests| :: r[i] == tests[i].name
  {
    seq(|tests|, i requires 0 <= i < |tests| => tests[i].name)
  }

  /** The file names of the model solutions, in order. */
  function SolutionNames(sols: seq<ModelSolution>): (r: seq<string>)
    ensures |r| == |sols| && forall i | 0 <= i < |sols| :: r[i] == sols[i].name
  {
    seq(|sols|, i requires 0 <= i < |sols| => sols[i].name)
  }

  /** The tests an archive holds inputs for: read back from the paths, they are
      exactly the exported tests. */
  lemma ExportedTestsReadBack(short: string, docs: seq<string>, tests: seq<string>, programs: seq<string>, t: string)
    ensures (exists path | path in Paths(short, ExportEntries(docs, tests, programs)) :: ParseEntry(short, path) == Some(Input(t)))
        <==> t in tests
  {
    var entries := ExportEntries(docs, tests, programs);
    var paths := Paths(short, entries);
    if t in tests {
      ExportEntriesMembers(docs, tests, programs, Input(t));
      var i :| 0 <= i < |entries| && entries[i] == Input(t);
      ParseEntryPath(short, Input(t));
      assert paths[i] == EntryPath(short, Input(t));
    }
    if exists path | path in paths :: ParseEntry(short, path) == Some(Input(t)) {
      var path :| path in paths && ParseEntry(short, path) == Some(Input(t));
      var i :| 0 <= i < |paths| && paths[i] == path;
      ParseEntryPath(short, entries[i]);
      assert entries[i] == Input(t);
      ExportEntriesMembers(docs, tests, programs, Input(t));
    }
  }

  /** The "sum" package of the export test. */
  const SumTestNames: seq<string> := ["0", "1a", "1b", "1ocen", "2", "3"]

  const SumArchive: seq<string> := [
    "sum/doc/sumzad.pdf",
    "sum/in/sum0.in", "sum/in/sum1a.in", "sum/in/sum1b.in",
    "sum/in/sum1ocen.in", "sum/in/sum2.in", "sum/in/sum3.in",
    "sum/out/sum0.out", "sum/out/sum1a.out", "sum/out/sum1b.out",
    "sum/out/sum1ocen.out", "sum/out/sum2.out", "sum/out/sum3.out",
    "sum/prog/sum.c", "sum/prog/sum1.pas", "sum/prog/sumb0.c", "sum/prog/sums1.cpp"]

  const SumEntries: seq<Entry> := [
    Doc("sumzad.pdf"),
    Input("0"), Input("1a"), Input("1b"), Input("1ocen"), Input("2"), Input("3"),
    Output("0"), Output("1a"), Output("1b"), Output("1ocen"), Output("2"), Output("3"),
    Program("sum.c"), Program("sum1.pas"), Program("sumb0.c"), Program("sums1.cpp")]

  /** A listing that tags every name, in order, is the tagged listing. */
  lemma TaggedIs(names: seq<string>, d: Dir, es: seq<Entry>)
    requires |es| == |names| && forall i | 0 <= i < |names| :: es[i] == Tag(d, names[i])
    ensures Tagged(names, d) == es
  {
  }

  const SumInputs: seq<Entry> := [Input("0"), Input("1a"), Input("1b"), Input("1ocen"), Input("2"), Input("3")]
  const SumOutputs: seq<Entry> := [Output("0"), Output("1a"), Output("1b"), Output("1ocen"), Output("2"), Output("3")]
  const SumProgramEntries: seq<Entry> := [Program("sum.c"), Program("sum1.pas"), Program("sumb0.c"), Program("sums1.cpp")]

  lemma SumEntriesSplit()
    ensures SumEntries == [Doc("sumzad.pdf")] + SumInputs + SumOutputs + SumProgramEntries
  {
  }

  lemma SumExportEntries()
    ensures ExportEntries(["sumzad.pdf"], SumTestNames, SumPrograms) == SumEntries
  {
    TaggedIs(["sumzad.pdf"], DocDir, [Doc("sumzad.pdf")]);
    TaggedIs(SumTestNames, InDir, SumInputs);
    TaggedIs(SumTestNames, OutDir, SumOutputs);
    TaggedIs(SumPrograms, ProgDir, SumProgramEntries);
    SumEntriesSplit();
  }

  lemma SumInputPaths()
    ensures forall i | 1 <= i < 7 :: EntryPath("sum", SumEntries[i]) == SumArchive[i]
  {
    assert EntryPath("sum", Input("0")) == "sum/in/sum0.in";
    assert EntryPath("sum", Input("1a")) == "sum/in/sum1a.in";
    assert EntryPath("sum", Input("1b")) == "sum/in/sum1b.in";
    assert EntryPath("sum", Input("1ocen")) == "sum/in/sum1ocen.in";
    assert EntryPath("sum", Input("2")) == "sum/in/sum2.in";
    assert EntryPath("sum", Input("3")) == "sum/in/sum3.in";
  }

  lemma SumOutputPaths()
    ensures forall i | 7 <= i < 13 :: EntryPath("sum", SumEntries[i]) == SumArchive[i]
  {
    assert EntryPath("sum", Output("0")) == "sum/out/sum0.out";
    assert EntryPath("sum", Output("1a")) == "sum/out/sum1a.out";
    assert EntryPath("sum", Output("1b")) == "sum/out/sum1b.out";
    assert EntryPath("sum", Output("1ocen")) == "sum/out/sum1ocen.out";
    assert EntryPath("sum", Output("2")) == "sum/out/sum2.out";
    assert EntryPath("sum", Output("3")) == "sum/out/sum3.out";
  }

  lemma SumOtherPaths()
    ensures EntryPath("sum", SumEntries[0]) == SumArchive[0]
    ensures forall i | 13 <= i < 17 :: EntryPath("sum", SumEntries[i]) == SumArchive[i]
  {
    assert EntryPath("sum", Doc("sumzad.pdf")) == "sum/doc/sumzad.pdf";
    SumProgramPaths();
  }

  lemma SumProgramPaths()
    ensures forall i | 13 <= i < 17 :: EntryPath("sum", SumEntries[i]) == SumArchive[i]
  {
    assert EntryPath("sum", Program("sum.c")) == "sum/prog/sum.c";
    assert EntryPath("sum", Program("sum1.pas")) == "sum/prog/sum1.pas";
    assert EntryPath("sum", Program("sumb0.c")) == "sum/prog/sumb0.c";
    assert EntryPath("sum", Program("sums1.cpp")) == "sum/prog/sums1.cpp";
  }

  /** The export test's listing: for the "sum" package, with its statement,
      six tests and four model solutions, the archive holds exactly the
      seventeen listed paths. */
  lemma AssertedExportListing()
    ensures Paths("sum", ExportEntries(["sumzad.pdf"], SumTestNames, SumPrograms)) == SumArchive
  {
    SumExportEntries();
    SumInputPaths();
    SumOutputPaths();
    SumOtherPaths();
    var r := Paths("sum", SumEntries);
    assert forall i | 0 <= i < 17 :: r[i] == SumArchive[i];
  }

  /** `s` with its last two elements exchanged. */
  function SwapLast<T>(s: seq<T>): (r: seq<T>)
    requires |s| >= 2
    ensures multiset(r) == multiset(s)
    ensures |r| == |s| && r[|s| - 2] == s[|s| - 1] && r[|s| - 1] == s[|s| - 2]
    ensures forall i | 0 <= i < |s| - 2 :: r[i] == s[i]
  {
    var k := |s| - 2;
    assert s == s[..k] + [s[k], s[k + 1]];
    s[..k] + [s[k + 1], s[k]]
  }

  lemma TaggedSwapLast(names: seq<string>, d: Dir)
    requires |names| >= 2
    ensures Tagged(SwapLast(names), d) == SwapLast(Tagged(names, d))
  {
    var sw, t := SwapLast(names), Tagged(names, d);
    var a, b := Tagged(sw, d), SwapLast(t);
    var k := |names| - 2;
    forall i | 0 <= i < |a| ensures a[i] == b[i] {
      assert a[i] == Tag(d, sw[i]);
      if i < k {
        assert sw[i] == names[i] && b[i] == t[i];
      } else if i == k {
        assert sw[i] == names[k + 1] && b[i] == t[k + 1];
      } else {
        assert sw[i] == names[k] && b[i] == t[k];
      }
    }
  }

  lemma SwapLastAfter<T>(pre: seq<T>, s: seq<T>)
    requires |s| >= 2
    ensures pre + SwapLast(s) == SwapLast(pre + s)
  {
    var k := |s| - 2;
    assert (pre + s)[..|pre| + k] == pre + s[..k];
  }

  lemma PathsSwapLast(short: string, es: seq<Entry>)
    requires |es| >= 2
    ensures Paths(short, SwapLast(es)) == SwapLast(Paths(short, es))
  {
    var sw, p := SwapLast(es), Paths(short, es);
    var a, b := Paths(short, sw), SwapLast(p);
    var k := |es| - 2;
    forall i | 0 <= i < |a| ensures a[i] == b[i] {
      assert a[i] == EntryPath(short, sw[i]);
      if i < k {
        assert sw[i] == es[i] && b[i] == p[i];
      } else if i == k {
        assert sw[i] == es[k + 1] && b[i] == p[k + 1];
      } else {
        assert sw[i] == es[k] && b[i] == p[k];
      }
    }
  }

  /** Exchanging the last two programs exchanges the last two paths of the
      archive and nothing else. */
  lemma ExportSwapLast(short: string, docs: seq<string>, tests: seq<string>, progs: seq<string>)
    requires |progs| >= 2
    ensures Paths(short, ExportEntries(docs, tests, SwapLast(progs))) == SwapLast(Paths(short, ExportEntries(docs, tests, progs)))
  {
    var pre := Tagged(docs, DocDir) + Tagged(tests, InDir) + Tagged(tests, OutDir);
    TaggedSwapLast(progs, ProgDir);
    SwapLastAfter(pre, Tagged(progs, ProgDir));
    PathsSwapLast(short, ExportEntries(docs, tests, progs));
  }

  /** The paths of an ingested problem's archive: its documents, its tests'
      names and its model solutions' names in the order the problem lists
      them. */
  lemma IngestedExport(m: SinolIngest.Manifest, settings: SinolLimits.Settings)
    requires SinolScores.DistinctKeys(m.scores) && SinolIngest.Ingest(m, settings).Ok?
    ensures ExportProblem(SinolIngest.Ingest(m, settings).value)
         == Paths(m.shortName, ExportEntries(m.docs, TestNames(SinolIngest.CollectTests(m.tests)),
                                              SolutionNames(OrderedSolutions(m.shortName, m.programs))))
  {
    var p := SinolIngest.Ingest(m, settings).value;
    var collected := SinolIngest.CollectTests(m.tests);
    assert p.shortName == m.shortName && p.docs == m.docs;
    assert forall i | 0 <= i < |p.tests| :: p.tests[i].name == collected[i].name;
    assert TestNames(p.tests) == TestNames(collected);
  }

  /** The "sum" package's solutions in listing order exchange its last two
      programs. */
  lemma SumOrderedNames()
    ensures SolutionNames(OrderedSolutions("sum", SumPrograms)) == SwapLast(SumPrograms)
  {
    AssertedSolutionOrder();
    ListingNames(OrderedSolutions("sum", SumPrograms));
  }

  lemma ListingNames(listing: seq<ModelSolution>)
    requires listing == [ModelSolution("sum.c", NormalSolution), ModelSolution("sum1.pas", NormalSolution),
                         ModelSolution("sums1.cpp", SlowSolution), ModelSolution("sumb0.c", IncorrectSolution)]
    ensures SolutionNames(listing) == SwapLast(SumPrograms)
  {
  }

  /** The export test on the ingested "sum" package: the archive of the
      problem that ingestion builds from its statement, its six tests and its
      four programs holds exactly the seventeen listed paths (the test sorts
      them, so their order is not compared). */
  lemma AssertedProblemExport(m: SinolIngest.Manifest, settings: SinolLimits.Settings)
    requires SinolScores.DistinctKeys(m.scores) && SinolIngest.Ingest(m, settings).Ok?
    requires m.shortName == "sum" && m.docs == ["sumzad.pdf"] && m.programs == SumPrograms
    requires TestNames(SinolIngest.CollectTests(m.tests)) == SumTestNames
    ensures multiset(ExportProblem(SinolIngest.Ingest(m, settings).value)) == multiset(SumArchive)
  {
    IngestedExport(m, settings);
    SumOrderedNames();
    ExportSwapLast("sum", ["sumzad.pdf"], SumTestNames, SumPrograms);
    AssertedExportListing();
  }
}

=== FILE: sinol_harness.dfy ===
/** The test-harness decorators of the package tests. `both_configurations`
    marks a test method; `enable_both_unpack_configurations` rewrites a class
    dictionary so that every marked method is replaced by a "_safe" variant
    (sandboxed unpacking, makefiles off) and an "_unsafe" variant (makefiles
    on), each wrapped in a settings override. */
module SinolHarness {

  /** A setting a wrapper forces while the wrapped test runs. */
  datatype Override = UseMakefiles(on: bool) | OtherSetting(key: string)

  /** A class attribute: a plain value (such as `fixtures`) or a function with
      its marker attribute and the settings wrappers around it, outermost first. */
  datatype Attr =
    | Value(id: nat)
    | Function(body: nat, marked: bool, overrides: seq<Override>)

  type ClassDict = map<string, Attr>

  /** `getattr(fn, BOTH_CONFIGURATIONS, False)`. */
  predicate Marked(a: Attr) {
    a.Function? && a.marked
  }

  /** `both_configurations(fn)`: sets the marker and changes nothing else. */
  function BothConfigurations(f: Attr): (r: Attr)
    requires f.Function?
    ensures Marked(r)
    ensures r.Function? && r.body == f.body && r.overrides == f.overrides
  {
    f.(marked := true)
  }

  /** `override_settings(USE_SINOLPACK_MAKEFILES=on)(fn)`: the wrapper copies the
      function's attributes, so a marked function stays marked. */
  function WithMakefiles(on: bool, f: Attr): Attr
    requires f.Function?
  {
    f.(overrides := [UseMakefiles(on)] + f.overrides)
  }

  function SafeName(name: string): string {
    name + "_safe"
  }

  function UnsafeName(name: string): string {
    name + "_unsafe"
  }

  /** One iteration of the decorator's loop, on the snapshot entry (name, fn). */
  function Step(cls: ClassDict, name: string, fn: Attr): ClassDict {
    if Marked(fn) then
      cls[SafeName(name) := WithMakefiles(false, fn)][UnsafeName(name) := WithMakefiles(true, fn)] - {name}
    else
      cls
  }

  /** The names of a snapshot, each listed once, as `cls.__dict__.items()` gives them. */
  predicate Enumerates(order: seq<string>, cls: ClassDict) {
    && (forall i | 0 <= i < |order| :: order[i] in cls)
    && (forall i, j | 0 <= i < j < |order| :: order[i] != order[j])
  }

  function Done(order: seq<string>): set<string> {
    set i | 0 <= i < |order| :: order[i]
  }

  /** The loop over the snapshot `order`: the values are read from the
      original dictionary, the updates go to the evolving one. */
  function Decorate(cls: ClassDict, order: seq<string>): ClassDict
    requires forall i | 0 <= i < |order| :: order[i] in cls
  {
    if |order| == 0 then cls
    else
      var n := order[|order| - 1];
      Step(Decorate(cls, order[..|order| - 1]), n, cls[n])
  }

  /** No generated name collides with an existing attribute or with another
      generated name. */
  predicate NoClash(cls: ClassDict) {
    && (forall n | n in cls && Marked(cls[n]) :: SafeName(n) !in cls && UnsafeName(n) !in cls)
    && (forall n, m | n in cls && m in cls && Marked(cls[n]) && Marked(cls[m]) :: SafeName(n) != UnsafeName(m))
  }

  /** Attributes not replaced keep their value. */
  ghost predicate Kept(cls: ClassDict, done: set<string>, r: ClassDict) {
    forall k | k in cls && !(k in done && Marked(cls[k])) :: k in r && r[k] == cls[k]
  }

  /** Every marked name of `done` is gone and its two variants are present. */
  ghost predicate Swapped(cls: ClassDict, done: set<string>, r: ClassDict) {
    forall n | n in done && n in cls && Marked(cls[n]) ::
      && n !in r
      && SafeName(n) in r && r[SafeName(n)] == WithMakefiles(false, cls[n])
      && UnsafeName(n) in r && r[UnsafeName(n)] == WithMakefiles(true, cls[n])
  }

  /** Nothing else is present. */
  ghost predicate Covered(cls: ClassDict, done: set<string>, r: ClassDict) {
    forall k | k in r ::
      || (k in cls && !(k in done && Marked(cls[k])))
      || (exists n | n in done && n in cls && Marked(cls[n]) :: k == SafeName(n) || k == UnsafeName(n))
  }

  /** The dictionary `r` is `cls` with every marked name of `done` replaced by
      its two variants and every other attribute untouched. */
  ghost predicate Replaced(cls: ClassDict, done: set<string>, r: ClassDict) {
    Kept(cls, done, r) && Swapped(cls, done, r) && Covered(cls, done, r)
  }

  lemma SuffixCancel(a: string, b: string, x: string)
    requires a + x == b + x
    ensures a == b
  {
    assert |a| == |b|;
    assert a == (a + x)[..|a|];
    assert b == (b + x)[..|b|];
  }

  lemma StepKeeps(cls: ClassDict, done: set<string>, r: ClassDict, n: string)
    requires NoClash(cls) && n in cls && Kept(cls, done, r)
    ensures Kept(cls, done + {n}, Step(r, n, cls[n]))
  {
  }

  lemma StepSwaps(cls: ClassDict, done: set<string>, r: ClassDict, n: string)
    requires NoClash(cls) && n in cls && n !in done && Swapped(cls, done, r)
    ensures Swapped(cls, done + {n}, Step(r, n, cls[n]))
  {
    forall m | m in done && m in cls && Marked(cls[m]) && Marked(cls[n])
      ensures SafeName(m) != SafeName(n) && UnsafeName(m) != UnsafeName(n)
    {
      if SafeName(m) == SafeName(n) {
        SuffixCancel(m, n, "_safe");
      }
      if UnsafeName(m) == UnsafeName(n) {
        SuffixCancel(m, n, "_unsafe");
      }
    }
  }

  lemma StepCovers(cls: ClassDict, done: set<string>, r: ClassDict, n: string)
    requires n in cls && Covered(cls, done, r)
    ensures Covered(cls, done + {n}, Step(r, n, cls[n]))
  {
    var r' := Step(r, n, cls[n]);
    forall k | k in r'
      ensures || (k in cls && !(k in done + {n} && Marked(cls[k])))
              || (exists m | m in done + {n} && m in cls && Marked(cls[m]) :: k == SafeName(m) || k == UnsafeName(m))
    {
      if Marked(cls[n]) && (k == SafeName(n) || k == UnsafeName(n)) {
      } else {
        assert k in r;
      }
    }
  }

  lemma DoneSnoc(order: seq<string>)
    requires |order| > 0
    ensures Done(order) == Done(order[..|order| - 1]) + {order[|order| - 1]}
  {
    var prefix := order[..|order| - 1];
    assert forall i | 0 <= i < |prefix| :: prefix[i] == order[i];
  }

  lemma LastIsNew(cls: ClassDict, order: seq<string>)
    requires |order| > 0 && Enumerates(order, cls)
    ensures order[|order| - 1] !in Done(order[..|order| - 1])
  {
  }

  lemma DecorateReplaces(cls: ClassDict, order: seq<string>)
    requires Enumerates(order, cls)
    requires NoClash(cls)
    ensures Replaced(cls, Done(order), Decorate(cls, order))
  {
    DecorateKeeps(cls, order);
    DecorateSwaps(cls, order);
    DecorateCovers(cls, order);
  }

  /** The loop so far, as the last step applied to the loop over the
      prefix. */
  lemma DecorateSnoc(cls: ClassDict, order: seq<string>)
    requires |order| > 0 && Enumerates(order, cls)
    ensures Enumerates(order[..|order| - 1], cls)
    ensures order[|order| - 1] in cls && order[|order| - 1] !in Done(order[..|order| - 1])
    ensures Done(order) == Done(order[..|order| - 1]) + {order[|order| - 1]}
    ensures Decorate(cls, order) == Step(Decorate(cls, order[..|order| - 1]), order[|order| - 1], cls[order[|order| - 1]])
  {
    LastIsNew(cls, order);
    DoneSnoc(order);
  }

  lemma {:induction false} DecorateKeeps(cls: ClassDict, order: seq<string>)
    requires Enumerates(order, cls) && NoClash(cls)
    ensures Kept(cls, Done(order), Decorate(cls, order))
  {
    if |order| > 0 {
      var prefix, n := order[..|order| - 1], order[|order| - 1];
      DecorateSnoc(cls, order);
      DecorateKeeps(cls, prefix);
      StepKeeps(cls, Done(prefix), Decorate(cls, prefix), n);
    }
  }

  lemma {:induction false} DecorateSwaps(cls: ClassDict, order: seq<string>)
    requires Enumerates(order, cls) && NoClash(cls)
    ensures Swapped(cls, Done(order), Decorate(cls, order))
  {
    if |order| > 0 {
      var prefix, n := order[..|order| - 1], order[|order| - 1];
      DecorateSnoc(cls, order);
      DecorateSwaps(cls, prefix);
      StepSwaps(cls, Done(prefix), Decorate(cls, prefix), n);
    }
  }

  lemma {:induction false} DecorateCovers(cls: ClassDict, order: seq<string>)
    requires Enumerates(order, cls)
    ensures Covered(cls, Done(order), Decorate(cls, order))
  {
    if |order| > 0 {
      var prefix, n := order[..|order| - 1], order[|order| - 1];
      DecorateSnoc(cls, order);
      DecorateCovers(cls, prefix);
      StepCovers(cls, Done(prefix), Decorate(cls, prefix), n);
    }
  }

  /** `enable_both_unpack_configurations(cls)`. When no generated name clashes,
      each marked method is replaced by exactly its "_safe" variant (makefiles
      off) and its "_unsafe" variant (makefiles on), the original name is gone,
      and every other attribute is untouched. */
  function EnableBothUnpackConfigurations(cls: ClassDict, order: seq<string>): (r: ClassDict)
    requires Enumerates(order, cls) && Done(order) == cls.Keys
    ensures NoClash(cls) ==> Replaced(cls, cls.Keys, r)
  {
    if NoClash(cls) then DecorateReplaces(cls, order); Decorate(cls, order)
    else Decorate(cls, order)
  }
}

=== FILE: sinol_ingest.dfy ===
/** Ingestion of a problem package as the package tests observe it: the tests
    get their group, kind, limits and maximum score, a refused package records
    ERR with a diagnostic and creates nothing, and re-uploading a package onto
    an existing problem replaces its tests without touching the per-contest
    submission limits. */
module SinolIngest {

  import opened Results
  import opened Strings
  import opened SinolTests
  import opened SinolScores
  import opened SinolLimits

  /** A test as the package lists it: its name, data files and the limits the
      configuration gives for it, if any. */
  datatype TestFile = TestFile(
    name: string,
    input: string,
    output: string,
    timeLimit: Option<nat>,
    memoryLimit: Option<nat>)

  /** What the package parser extracts from an archive. */
  datatype Manifest = Manifest(
    shortName: string,
    title: string,
    tests: seq<TestFile>,
    scores: Table,
    programs: seq<string>,
    docs: seq<string>,
    attachments: seq<string>,
    extraFiles: seq<string>)

  datatype Problem = Problem(
    shortName: string,
    name: string,
    tests: seq<Test>,
    solutions: seq<ModelSolution>,
    docs: seq<string>,
    attachments: seq<string>,
    extraFiles: seq<string>)

  datatype IngestError = ScoreRefused(score: ScoreError) | LimitRefused(limit: LimitError)

  function ErrorMessage(e: IngestError): string {
    match e
    case ScoreRefused(s) => ScoreMessage(s)
    case LimitRefused(l) => LimitMessage(l)
  }

  /** The stored form of a test file whose name is a test name, before its
      group's score is known. */
  function ToTest(f: TestFile): (t: Test)
    requires IsTestName(f.name)
    ensures ClassifyTest(f.name) == Some(TestClass(t.group, t.kind))
    ensures t.name == f.name && t.input == f.input && t.output == f.output && t.maxScore == 0
    ensures t.timeLimit == EffectiveLimit(f.timeLimit, DefaultTimeLimit)
    ensures t.memoryLimit == EffectiveLimit(f.memoryLimit, DefaultMemoryLimit)
  {
    var c := ClassifyTest(f.name).value;
    Test(f.name, f.input, f.output, c.group, c.kind, 0,
         EffectiveLimit(f.timeLimit, DefaultTimeLimit),
         EffectiveLimit(f.memoryLimit, DefaultMemoryLimit))
  }

  /** The tests of a package: every file named like a test, in order; other
      files are not tests. */
  function CollectTests(files: seq<TestFile>): (r: seq<Test>)
    ensures forall t | t in r :: ClassifyTest(t.name) == Some(TestClass(t.group, t.kind))
    ensures forall j | 0 <= j < |files| && IsTestName(files[j].name) :: ToTest(files[j]) in r
    ensures forall t | t in r :: exists j | 0 <= j < |files| :: IsTestName(files[j].name) && t == ToTest(files[j])
  {
    if |files| == 0 then []
    else
      var rest := CollectTests(files[1..]);
      assert forall j | 1 <= j < |files| :: files[j] == files[1..][j - 1];
      if IsTestName(files[0].name) then [ToTest(files[0])] + rest else rest
  }

  /** Gives every test its group's maximum score; examples are worth nothing. */
  function AssignScores(tests: seq<Test>, scores: map<string, nat>): (r: seq<Test>)
    requires GroupsScored(tests, scores)
    ensures |r| == |tests|
    ensures forall i | 0 <= i < |tests| ::
      && r[i] == tests[i].(maxScore := r[i].maxScore)
      && r[i].maxScore == GroupScore(tests[i], scores)
  {
    seq(|tests|, i requires 0 <= i < |tests| => tests[i].(maxScore := GroupScore(tests[i], scores)))
  }

  predicate GroupsScored(tests: seq<Test>, scores: map<string, nat>) {
    forall t | t in tests && t.kind == Normal :: t.group in scores
  }

  /** A test's maximum score: its group's score, nothing for an example. */
  function GroupScore(t: Test, scores: map<string, nat>): nat
    requires t.kind == Normal ==> t.group in scores
  {
    if t.kind == Normal then scores[t.group] else 0
  }

  /** The ingestion pipeline: collect the tests, check the limits, resolve the
      group scores, assign them. The configuration's score table is a mapping,
      so its keys are distinct. */
  function Ingest(m: Manifest, settings: Settings): (r: Result<Problem, IngestError>)
    requires DistinctKeys(m.scores)
    ensures var tests := CollectTests(m.tests);
      r.Ok? <==>
        && CheckLimits(tests, settings).Ok?
        && (|m.scores| == 0 || TableKeys(m.scores) == set g | g in ScoredGroups(tests))
    ensures r.Ok? ==>
      && |r.value.tests| == |CollectTests(m.tests)|
      && (forall i | 0 <= i < |r.value.tests| ::
            r.value.tests[i] == CollectTests(m.tests)[i].(maxScore := r.value.tests[i].maxScore))
      && (forall t | t in r.value.tests && t.kind == Example :: t.maxScore == 0)
      && r.value.attachments == m.attachments
      && r.value.solutions == OrderedSolutions(m.shortName, m.programs)
  {
    var tests := CollectTests(m.tests);
    match CheckLimits(tests, settings)
    case Err(e) => Err(LimitRefused(e))
    case Ok(_) =>
      var gs := ScoredGroups(tests);
      match ResolveScores(gs, m.scores)
      case Err(e) => Err(ScoreRefused(e))
      case Ok(scores) =>
        ScoresCoverTests(tests, gs, scores);
        Ok(Problem(m.shortName, m.title, AssignScores(tests, scores), OrderedSolutions(m.shortName, m.programs),
                   m.docs, m.attachments, m.extraFiles))
  }

  lemma ScoresCoverTests(tests: seq<Test>, gs: seq<string>, scores: map<string, nat>)
    requires gs == ScoredGroups(tests) && scores.Keys == set g | g in gs
    ensures GroupsScored(tests, scores)
  {
    forall t | t in tests && t.kind == Normal
      ensures t.group in scores
    {
      var i :| 0 <= i < |tests| && tests[i] == t;
      assert t.group in gs;
    }
  }

  /** An accepted package's tests: every test of a group carries that group's
      score, and the limits respect the installation's ceilings. */
  lemma IngestedTestsConsistent(m: Manifest, settings: Settings)
    requires DistinctKeys(m.scores) && Ingest(m, settings).Ok?
    ensures var tests := Ingest(m, settings).value.tests;
      && (forall t, u | t in tests && u in tests && t.group == u.group :: t.maxScore == u.maxScore)
      && (forall t | t in tests :: t.memoryLimit <= settings.maxMemoryLimit)
      && TimeLimitSum(tests) <= settings.maxTimeLimitSum
  {
    IngestedScoresShared(m, settings);
    IngestedLimits(m, settings);
  }

  lemma IngestedScoresShared(m: Manifest, settings: Settings)
    requires DistinctKeys(m.scores) && Ingest(m, settings).Ok?
    ensures var tests := Ingest(m, settings).value.tests;
      forall t, u | t in tests && u in tests && t.group == u.group :: t.maxScore == u.maxScore
  {
    var collected := CollectTests(m.tests);
    var gs := ScoredGroups(collected);
    var scores := ResolveScores(gs, m.scores).value;
    ScoresCoverTests(collected, gs, scores);
    var tests := Ingest(m, settings).value.tests;
    assert tests == AssignScores(collected, scores);
    SharedGroupScore(collected, scores, tests);
  }

  lemma IngestedLimits(m: Manifest, settings: Settings)
    requires DistinctKeys(m.scores) && Ingest(m, settings).Ok?
    ensures var tests := Ingest(m, settings).value.tests;
      && (forall t | t in tests :: t.memoryLimit <= settings.maxMemoryLimit)
      && TimeLimitSum(tests) <= settings.maxTimeLimitSum
  {
    var collected := CollectTests(m.tests);
    var tests := Ingest(m, settings).value.tests;
    SameLimits(collected, tests);
    forall t | t in tests
      ensures t.memoryLimit <= settings.maxMemoryLimit
    {
      var i :| 0 <= i < |tests| && tests[i] == t;
    }
  }

  lemma {:induction false} SameLimits(a: seq<Test>, b: seq<Test>)
    requires |a| == |b| && forall i | 0 <= i < |a| :: b[i] == a[i].(maxScore := b[i].maxScore)
    ensures TimeLimitSum(a) == TimeLimitSum(b)
    ensures forall i | 0 <= i < |b| :: b[i].memoryLimit == a[i].memoryLimit
  {
    if |a| > 0 {
      SameLimits(a[1..], b[1..]);
    }
  }

  lemma SharedGroupScore(tests: seq<Test>, scores: map<string, nat>, scored: seq<Test>)
    requires GroupsScored(tests, scores)
    requires forall t | t in tests :: ClassifyTest(t.name) == Some(TestClass(t.group, t.kind))
    requires scored == AssignScores(tests, scores)
    ensures forall t, u | t in scored && u in scored && t.group == u.group :: t.maxScore == u.maxScore
  {
    forall t, u | t in scored && u in scored && t.group == u.group
      ensures t.maxScore == u.maxScore
    {
      var i :| 0 <= i < |scored| && scored[i] == t;
      var j :| 0 <= j < |scored| && scored[j] == u;
      var a, b := tests[i], tests[j];
      assert a in tests && b in tests;
      if a.kind != b.kind {
        if a.kind == Example {
          ExampleGroupsAreNotScored(a.name, b.name);
        } else {
          ExampleGroupsAreNotScored(b.name, a.name);
        }
      }
    }
  }

  /** Changing only the maximum scores of tests does not change their groups. */
  lemma {:induction false} ScoredGroupsIgnoreScores(a: seq<Test>, b: seq<Test>)
    requires |a| == |b| && forall i | 0 <= i < |a| :: b[i] == a[i].(maxScore := b[i].maxScore)
    ensures ScoredGroups(a) == ScoredGroups(b)
  {
    if |a| > 0 {
      ScoredGroupsIgnoreScores(a[..|a| - 1], b[..|b| - 1]);
    }
  }

  /** Every scored test of an accepted package carries the score its group
      resolved to, and the scored groups are those of the collected tests. */
  lemma IngestedGroupScores(m: Manifest, settings: Settings)
    requires DistinctKeys(m.scores) && Ingest(m, settings).Ok?
    ensures var gs := ScoredGroups(CollectTests(m.tests));
      && ResolveScores(gs, m.scores).Ok?
      && ScoredGroups(Ingest(m, settings).value.tests) == gs
      && forall t | t in Ingest(m, settings).value.tests && t.kind == Normal ::
           t.group in ResolveScores(gs, m.scores).value
           && t.maxScore == ResolveScores(gs, m.scores).value[t.group]
  {
    var collected := CollectTests(m.tests);
    var gs := ScoredGroups(collected);
    var scores := ResolveScores(gs, m.scores).value;
    ScoresCoverTests(collected, gs, scores);
    var tests := Ingest(m, settings).value.tests;
    assert tests == AssignScores(collected, scores);
    ScoredGroupsIgnoreScores(collected, tests);
    forall t | t in tests && t.kind == Normal
      ensures t.group in scores && t.maxScore == scores[t.group]
    {
      AssignedScore(collected, scores, t);
    }
  }

  /** A scored test after assignment carries its group's score. */
  lemma AssignedScore(tests: seq<Test>, scores: map<string, nat>, t: Test)
    requires GroupsScored(tests, scores)
    requires t in AssignScores(tests, scores) && t.kind == Normal
    ensures t.group in scores && t.maxScore == scores[t.group]
  {
    var r := AssignScores(tests, scores);
    var i :| 0 <= i < |r| && r[i] == t;
    assert tests[i] in tests;
  }

  /** The explicit table of the package tests, group 1 worth 42 and group 2
      worth 23: when accepted, tests 1a, 1b, 1c carry 42 and test 2 carries 23. */
  lemma AssertedExplicitScores(m: Manifest, settings: Settings)
    requires m.scores == [("1", 42), ("2", 23)]
    requires Ingest(m, settings).Ok?
    ensures forall t | t in Ingest(m, settings).value.tests && t.name in {"1a", "1b", "1c"} :: t.maxScore == 42
    ensures forall t | t in Ingest(m, settings).value.tests && t.name == "2" :: t.maxScore == 23
  {
    ExplicitRows(m, settings);
  }

  /** The same table given row by row, one test name at a time. */
  lemma ExplicitRows(m: Manifest, settings: Settings)
    requires DistinctKeys(m.scores) && Ingest(m, settings).Ok?
    requires |m.scores| == 2 && m.scores[0] == ("1", 42) && m.scores[1] == ("2", 23)
    ensures forall t | t in Ingest(m, settings).value.tests && t.name == "1a" :: t.maxScore == 42
    ensures forall t | t in Ingest(m, settings).value.tests && t.name == "1b" :: t.maxScore == 42
    ensures forall t | t in Ingest(m, settings).value.tests && t.name == "1c" :: t.maxScore == 42
    ensures forall t | t in Ingest(m, settings).value.tests && t.name == "2" :: t.maxScore == 23
  {
    AssertedTestNames();
    ExplicitScoreOfName(m, settings, 0, "1a");
    ExplicitScoreOfName(m, settings, 0, "1b");
    ExplicitScoreOfName(m, settings, 0, "1c");
    ExplicitScoreOfName(m, settings, 1, "2");
  }

  /** The tests of an accepted package named `name`, whose group table row `i`
      scores, carry that row's score. */
  lemma ExplicitScoreOfName(m: Manifest, settings: Settings, i: nat, name: string)
    requires DistinctKeys(m.scores) && Ingest(m, settings).Ok? && i < |m.scores|
    requires ClassifyTest(name) == Some(TestClass(m.scores[i].0, Normal))
    ensures forall t | t in Ingest(m, settings).value.tests && t.name == name :: t.maxScore == m.scores[i].1
  {
    forall t | t in Ingest(m, settings).value.tests && t.name == name
      ensures t.maxScore == m.scores[i].1
    {
      ExplicitScoreOfTest(m, settings, i, t);
    }
  }

  /** A scored test of an accepted package with an explicit table carries the
      score the table gives its group. */
  lemma ExplicitScoreOfTest(m: Manifest, settings: Settings, i: nat, t: Test)
    requires DistinctKeys(m.scores) && Ingest(m, settings).Ok?
    requires i < |m.scores| && t in Ingest(m, settings).value.tests
    requires ClassifyTest(t.name) == Some(TestClass(m.scores[i].0, Normal))
    ensures t.maxScore == m.scores[i].1
  {
    IngestedGroupScores(m, settings);
    IngestedClassified(m, settings);
  }

  /** The tests of an accepted package keep the group and kind their names give. */
  lemma IngestedClassified(m: Manifest, settings: Settings)
    requires DistinctKeys(m.scores) && Ingest(m, settings).Ok?
    ensures forall t | t in Ingest(m, settings).value.tests :: ClassifyTest(t.name) == Some(TestClass(t.group, t.kind))
  {
    var collected := CollectTests(m.tests);
    var tests := Ingest(m, settings).value.tests;
    forall t | t in tests
      ensures ClassifyTest(t.name) == Some(TestClass(t.group, t.kind))
    {
      var i :| 0 <= i < |tests| && tests[i] == t;
      assert collected[i] in collected;
    }
  }

  datatype Status = OK | ERR

  /** The package row after processing: status, diagnostic and the problem, if any. */
  datatype PackageRecord = PackageRecord(status: Status, info: string, problem: Option<Problem>)

  /** Processing an uploaded package: OK with the new problem, or ERR with the
      failure's message and no problem at all. */
  function ProcessPackage(m: Manifest, settings: Settings): (r: PackageRecord)
    requires DistinctKeys(m.scores)
    ensures r.status == OK <==> r.problem.Some?
    ensures r.status == OK <==> Ingest(m, settings).Ok?
    ensures r.status == ERR ==> r.info == ErrorMessage(Ingest(m, settings).error)
    ensures r.status == OK ==> r.problem.value == Ingest(m, settings).value
  {
    match Ingest(m, settings)
    case Ok(p) => PackageRecord(OK, "", Some(p))
    case Err(e) => PackageRecord(ERR, ErrorMessage(e), None)
  }

  /** A score-table key that names no scored group leaves the package in ERR
      with "no such test group exists" and no problem. */
  lemma UnknownScoreGroupRefused(m: Manifest, settings: Settings, g: string)
    requires DistinctKeys(m.scores)
    requires CheckLimits(CollectTests(m.tests), settings).Ok?
    requires g in TableKeys(m.scores) && g !in ScoredGroups(CollectTests(m.tests))
    ensures ProcessPackage(m, settings).status == ERR
    ensures ProcessPackage(m, settings).problem.None?
    ensures Contains(ProcessPackage(m, settings).info, "no such test group exists")
  {
    var gs := ScoredGroups(CollectTests(m.tests));
    assert ResolveScores(gs, m.scores).Err?;
    assert ResolveScores(gs, m.scores).error.UnknownGroup?;
  }

  /** A scored group the score table leaves out (when every key is a scored
      group) leaves the package in ERR with "Score for group … not found". */
  lemma MissingScoreGroupRefused(m: Manifest, settings: Settings, g: string)
    requires DistinctKeys(m.scores)
    requires CheckLimits(CollectTests(m.tests), settings).Ok?
    requires |m.scores| > 0 && TableKeys(m.scores) <= set h | h in ScoredGroups(CollectTests(m.tests))
    requires g in ScoredGroups(CollectTests(m.tests)) && g !in TableKeys(m.scores)
    ensures ProcessPackage(m, settings).status == ERR
    ensures ProcessPackage(m, settings).problem.None?
    ensures Contains(ProcessPackage(m, settings).info, "Score for group")
    ensures Contains(ProcessPackage(m, settings).info, "not found")
  {
    var gs := ScoredGroups(CollectTests(m.tests));
    assert ResolveScores(gs, m.scores).Err?;
    assert ResolveScores(gs, m.scores).error.MissingScore?;
  }

  /** A problem instance: the main one (no contest) or one bound to a contest,
      with its own copy of the tests and its own submission limit. */
  datatype Instance = Instance(contest: Option<nat>, submissionsLimit: nat, tests: seq<Test>)

  datatype Stored = Stored(problem: Problem, instances: seq<Instance>)

  datatype Contest = Contest(id: nat, defaultSubmissionsLimit: nat)

  /** Adding a problem: the main instance, and an instance in the contest the
      upload was made from, whose submission limit is the contest's default. */
  function AddProblem(m: Manifest, settings: Settings, contest: Option<Contest>, mainLimit: nat): (r: Result<Stored, IngestError>)
    requires DistinctKeys(m.scores)
    ensures r.Ok? <==> Ingest(m, settings).Ok?
    ensures r.Ok? ==> r.value.problem == Ingest(m, settings).value
    ensures r.Ok? ==> |r.value.instances| == (if contest.Some? then 2 else 1)
    ensures r.Ok? ==> forall i | 0 <= i < |r.value.instances| :: r.value.instances[i].tests == r.value.problem.tests
    ensures r.Ok? && contest.Some? ==>
      r.value.instances[1].contest == Some(contest.value.id)
      && r.value.instances[1].submissionsLimit == contest.value.defaultSubmissionsLimit
  {
    match Ingest(m, settings)
    case Err(e) => Err(e)
    case Ok(p) =>
      var main := Instance(None, mainLimit, p.tests);
      match contest
      case None => Ok(Stored(p, [main]))
      case Some(c) => Ok(Stored(p, [main, Instance(Some(c.id), c.defaultSubmissionsLimit, p.tests)]))
  }

  /** Updating a problem from a package: on success every instance gets the
      package's tests (tests absent from the package are gone, deleted ones come
      back) and keeps its contest and submission limit; on failure the stored
      problem is left exactly as it was. */
  function UpdateProblem(s: Stored, m: Manifest, settings: Settings): (r: (Stored, PackageRecord))
    requires DistinctKeys(m.scores)
    ensures r.1 == ProcessPackage(m, settings)
    ensures r.1.status == ERR ==> r.0 == s
    ensures r.1.status == OK ==>
      && r.0.problem == r.1.problem.value
      && |r.0.instances| == |s.instances|
      && forall i | 0 <= i < |s.instances| ::
           && r.0.instances[i].contest == s.instances[i].contest
           && r.0.instances[i].submissionsLimit == s.instances[i].submissionsLimit
           && r.0.instances[i].tests == r.0.problem.tests
  {
    var record := ProcessPackage(m, settings);
    match record.problem
    case None => (s, record)
    case Some(p) =>
      (Stored(p, seq(|s.instances|, i requires 0 <= i < |s.instances| => s.instances[i].(tests := p.tests))), record)
  }

  /** Re-uploading the package a problem was added from leaves the problem as
      it was: same tests, scores, solutions and attachments, same instances
      and submission limits. */
  lemma ReuploadIsIdempotent(m: Manifest, settings: Settings, contest: Option<Contest>, mainLimit: nat)
    requires DistinctKeys(m.scores)
    requires AddProblem(m, settings, contest, mainLimit).Ok?
    ensures UpdateProblem(AddProblem(m, settings, contest, mainLimit).value, m, settings).0
         == AddProblem(m, settings, contest, mainLimit).value
  {
    var s := AddProblem(m, settings, contest, mainLimit).value;
    var s' := UpdateProblem(s, m, settings).0;
    assert s'.instances == s.instances;
  }

  /** Every instance of a stored problem with its tests deleted. */
  function DeleteAllTests(s: Stored): (r: Stored)
    ensures r.problem == s.problem && |r.instances| == |s.instances|
    ensures forall i | 0 <= i < |s.instances| ::
      && r.instances[i].contest == s.instances[i].contest
      && r.instances[i].submissionsLimit == s.instances[i].submissionsLimit
      && r.instances[i].tests == []
  {
    s.(instances := seq(|s.instances|, i requires 0 <= i < |s.instances| => s.instances[i].(tests := [])))
  }

  /** The package tests' contest scenario: a problem added from a contest whose
      default limit is 123, whose instances then lose all their tests, is
      restored by re-uploading the same package, and its contest instance
      still has the limit 123. */
  lemma ReuploadRestoresDeletedTests(m: Manifest, settings: Settings, contestId: nat, mainLimit: nat)
    requires DistinctKeys(m.scores)
    requires AddProblem(m, settings, Some(Contest(contestId, 123)), mainLimit).Ok?
    ensures var s := AddProblem(m, settings, Some(Contest(contestId, 123)), mainLimit).value;
      var restored := UpdateProblem(DeleteAllTests(s), m, settings).0;
      restored == s && restored.instances[1].submissionsLimit == 123
  {
    var s := AddProblem(m, settings, Some(Contest(contestId, 123)), mainLimit).value;
    var s' := UpdateProblem(DeleteAllTests(s), m, settings).0;
    assert s'.instances == s.instances;
  }
}

=== FILE: sinol_judging.dfy ===
/** Judging a submission against a problem's tests as the package tests
    observe it: one report per test, and a score that is the sum, over the
    scored groups, of the group's maximum score when every test of the group
    passed and nothing otherwise. */
module SinolJudging {

  import opened Results
  import opened SinolTests
  import opened SinolScores
  import SinolIngest
  import SinolLimits

  /** Verdict of one test run. */
  datatype Verdict = OK | WA | RE | TLE | MLE | CE

  datatype TestReport = TestReport(test: string, group: string, verdict: Verdict)

  /** Runs every test; how a program behaves on a test is a parameter, since
      compiling and running it is outside the model. */
  function JudgeTests(tests: seq<Test>, outcome: string -> Verdict): (r: seq<TestReport>)
    ensures |r| == |tests|
    ensures forall i | 0 <= i < |tests| ::
      r[i].test == tests[i].name && r[i].group == tests[i].group && r[i].verdict == outcome(tests[i].name)
  {
    seq(|tests|, i requires 0 <= i < |tests| => TestReport(tests[i].name, tests[i].group, outcome(tests[i].name)))
  }

  /** Every test of group `g` passed. */
  predicate GroupPassed(tests: seq<Test>, reports: seq<TestReport>, g: string)
    requires |reports| == |tests|
  {
    forall i | 0 <= i < |tests| && tests[i].group == g :: reports[i].verdict == OK
  }

  /** The maximum score of group `g`: that of its first test. */
  function GroupMaxScore(tests: seq<Test>, g: string): nat {
    if |tests| == 0 then 0
    else if tests[0].group == g then tests[0].maxScore
    else GroupMaxScore(tests[1..], g)
  }

  /** Points earned on the listed groups. */
  function ScoreOver(gs: seq<string>, tests: seq<Test>, reports: seq<TestReport>): nat
    requires |reports| == |tests|
  {
    if |gs| == 0 then 0
    else ScoreOver(gs[..|gs| - 1], tests, reports)
         + (if GroupPassed(tests, reports, gs[|gs| - 1]) then GroupMaxScore(tests, gs[|gs| - 1]) else 0)
  }

  /** Points the problem is worth: every group's maximum. */
  function MaxOver(gs: seq<string>, tests: seq<Test>): nat {
    if |gs| == 0 then 0 else MaxOver(gs[..|gs| - 1], tests) + GroupMaxScore(tests, gs[|gs| - 1])
  }

  function SubmissionScore(tests: seq<Test>, reports: seq<TestReport>): nat
    requires |reports| == |tests|
  {
    ScoreOver(ScoredGroups(tests), tests, reports)
  }

  function MaxScore(tests: seq<Test>): nat {
    MaxOver(ScoredGroups(tests), tests)
  }

  /** A submission never earns more than the problem is worth, and earns all
      of it exactly when every scored group passed in full (groups worth
      nothing aside). */
  lemma {:induction false} ScoreBounded(gs: seq<string>, tests: seq<Test>, reports: seq<TestReport>)
    requires |reports| == |tests|
    ensures ScoreOver(gs, tests, reports) <= MaxOver(gs, tests)
    ensures ScoreOver(gs, tests, reports) == MaxOver(gs, tests) <==>
      forall i | 0 <= i < |gs| :: GroupPassed(tests, reports, gs[i]) || GroupMaxScore(tests, gs[i]) == 0
  {
    if |gs| > 0 {
      var p := gs[..|gs| - 1];
      ScoreBounded(p, tests, reports);
      assert forall i | 0 <= i < |p| :: p[i] == gs[i];
    }
  }

  /** A submission passing every test earns everything the problem is worth. */
  lemma FullPassEarnsEverything(tests: seq<Test>, reports: seq<TestReport>)
    requires |reports| == |tests|
    requires forall i | 0 <= i < |reports| :: reports[i].verdict == OK
    ensures SubmissionScore(tests, reports) == MaxScore(tests)
  {
    ScoreBounded(ScoredGroups(tests), tests, reports);
  }

  /** Turning failed tests into passed ones never lowers the score. */
  lemma {:induction false} ScoreMonotone(gs: seq<string>, tests: seq<Test>, worse: seq<TestReport>, better: seq<TestReport>)
    requires |worse| == |tests| && |better| == |tests|
    requires forall i | 0 <= i < |tests| :: worse[i].verdict == OK ==> better[i].verdict == OK
    ensures ScoreOver(gs, tests, worse) <= ScoreOver(gs, tests, better)
  {
    if |gs| > 0 {
      ScoreMonotone(gs[..|gs| - 1], tests, worse, better);
    }
  }

  /** A single failed test costs its whole group, whatever its other tests do. */
  lemma FailedTestVoidsGroup(tests: seq<Test>, reports: seq<TestReport>, i: nat)
    requires |reports| == |tests| && i < |tests| && reports[i].verdict != OK
    ensures !GroupPassed(tests, reports, tests[i].group)
  {
  }

  /** Sum over the listed groups of the scores of a score map. */
  lemma {:induction false} MaxOverIsSumScores(gs: seq<string>, tests: seq<Test>, scores: map<string, nat>)
    requires forall g | g in gs :: g in scores && GroupMaxScore(tests, g) == scores[g]
    ensures MaxOver(gs, tests) == SumScoresBack(gs, scores)
  {
    if |gs| > 0 {
      MaxOverIsSumScores(gs[..|gs| - 1], tests, scores);
    }
  }

  /** `SumScores`, peeling the last group instead of the first. */
  function SumScoresBack(gs: seq<string>, scores: map<string, nat>): nat
    requires forall g | g in gs :: g in scores
  {
    if |gs| == 0 then 0 else SumScoresBack(gs[..|gs| - 1], scores) + scores[gs[|gs| - 1]]
  }

  lemma {:induction false} SumScoresBackIsSumScores(gs: seq<string>, scores: map<string, nat>)
    requires forall g | g in gs :: g in scores
    ensures SumScoresBack(gs, scores) == SumScores(gs, scores)
  {
    if |gs| > 0 {
      var front := gs[..|gs| - 1];
      SumScoresBackIsSumScores(front, scores);
      if |front| > 0 {
        SumScoresBackIsSumScores(gs[1..][..|gs| - 2], scores);
        assert gs[1..][..|gs| - 2] == front[1..];
        SumScoresBackIsSumScores(gs[1..], scores);
        assert gs[1..][|gs| - 2] == gs[|gs| - 1];
      }
    }
  }

  /** The group's maximum score is the score every one of its tests carries. */
  lemma {:induction false} GroupMaxScoreOfMember(tests: seq<Test>, g: string, s: nat)
    requires forall t | t in tests && t.group == g :: t.maxScore == s
    requires exists i | 0 <= i < |tests| :: tests[i].group == g
    ensures GroupMaxScore(tests, g) == s
  {
    if tests[0].group != g {
      var i :| 0 <= i < |tests| && tests[i].group == g;
      assert tests[1..][i - 1] == tests[i];
      assert forall t | t in tests[1..] :: t in tests;
      GroupMaxScoreOfMember(tests[1..], g, s);
    }
  }

  /** Tests whose scored groups carry the automatic split are worth 100
      points, so a submission passing every one of them earns 100. */
  lemma AutoScoredFullPass(tests: seq<Test>, reports: seq<TestReport>)
    requires |ScoredGroups(tests)| > 0
    requires forall t | t in tests :: ClassifyTest(t.name) == Some(TestClass(t.group, t.kind))
    requires forall t | t in tests && t.kind == Normal ::
      t.group in AutoScores(ScoredGroups(tests)) && t.maxScore == AutoScores(ScoredGroups(tests))[t.group]
    requires |reports| == |tests|
    requires forall i | 0 <= i < |reports| :: reports[i].verdict == OK
    ensures SubmissionScore(tests, reports) == AutoTotal
  {
    var gs := ScoredGroups(tests);
    var scores := AutoScores(gs);
    forall g | g in gs
      ensures g in scores && GroupMaxScore(tests, g) == scores[g]
    {
      var i :| 0 <= i < |tests| && tests[i].kind == Normal && tests[i].group == g;
      forall t | t in tests && t.group == g
        ensures t.maxScore == scores[g]
      {
        if t.kind == Example {
          assert tests[i] in tests;
          ExampleGroupsAreNotScored(t.name, tests[i].name);
        }
      }
      GroupMaxScoreOfMember(tests, g, scores[g]);
    }
    FullPassEarnsEverything(tests, reports);
    MaxOverIsSumScores(gs, tests, scores);
    SumScoresBackIsSumScores(gs, scores);
    AutoScoresTotal(gs);
  }

  /** A problem ingested with automatic scores and at least one scored group:
      a submission passing every test earns 100. */
  lemma AutoScoredFullPassEarns100(m: SinolIngest.Manifest, settings: SinolLimits.Settings, reports: seq<TestReport>)
    requires DistinctKeys(m.scores) && |m.scores| == 0
    requires SinolIngest.Ingest(m, settings).Ok?
    requires |ScoredGroups(SinolIngest.Ingest(m, settings).value.tests)| > 0
    requires |reports| == |SinolIngest.Ingest(m, settings).value.tests|
    requires forall i | 0 <= i < |reports| :: reports[i].verdict == OK
    ensures SubmissionScore(SinolIngest.Ingest(m, settings).value.tests, reports) == 100
  {
    SinolIngest.IngestedGroupScores(m, settings);
    SinolIngest.IngestedClassified(m, settings);
    AutoScoredFullPass(SinolIngest.Ingest(m, settings).value.tests, reports);
  }

  function FixtureTest(name: string, group: string, kind: TestKind, maxScore: nat): Test {
    Test(name, name + ".in", name + ".out", group, kind, maxScore, 10000, 66000)
  }

  /** The tests of the judging fixture: the "sum" package with its automatic
      split of 33, 33 and 34 points over groups 1, 2 and 3. */
  const SumTests: seq<Test> := [
    FixtureTest("0", "0", Example, 0),
    FixtureTest("1a", "1", Normal, 33),
    FixtureTest("1b", "1", Normal, 33),
    FixtureTest("1ocen", "1ocen", Example, 0),
    FixtureTest("2", "2", Normal, 33),
    FixtureTest("3", "3", Normal, 34)]

  /** How the fixture's submission behaves: four tests pass, one gives a wrong
      answer and one a runtime error. */
  function SumOutcome(name: string): Verdict {
    if name == "1b" then WA else if name == "2" then RE else OK
  }

  /** The scored groups of the fixture's first four tests. */
  lemma SumFirstGroups()
    ensures ScoredGroups([FixtureTest("0", "0", Example, 0), FixtureTest("1a", "1", Normal, 33),
                          FixtureTest("1b", "1", Normal, 33), FixtureTest("1ocen", "1ocen", Example, 0)]) == ["1"]
  {
    var a, b, c := FixtureTest("0", "0", Example, 0), FixtureTest("1a", "1", Normal, 33), FixtureTest("1b", "1", Normal, 33);
    var d := FixtureTest("1ocen", "1ocen", Example, 0);
    assert ScoredGroups([a]) == [] by {
      ScoredGroupsSnoc([], a);
      assert [] + [a] == [a];
    }
    assert ScoredGroups([a, b]) == ["1"] by {
      ScoredGroupsSnoc([a], b);
      assert [a] + [b] == [a, b];
    }
    assert ScoredGroups([a, b, c]) == ["1"] by {
      ScoredGroupsSnoc([a, b], c);
      assert [a, b] + [c] == [a, b, c];
    }
    assert ScoredGroups([a, b, c, d]) == ["1"] by {
      ScoredGroupsSnoc([a, b, c], d);
      assert [a, b, c] + [d] == [a, b, c, d];
      assert "1ocen" != "1";
    }
  }

  lemma SumFiveGroups()
    ensures ScoredGroups(SumTests[..5]) == ["1", "2"]
  {
    var a, b, c := FixtureTest("0", "0", Example, 0), FixtureTest("1a", "1", Normal, 33), FixtureTest("1b", "1", Normal, 33);
    var d, e := FixtureTest("1ocen", "1ocen", Example, 0), FixtureTest("2", "2", Normal, 33);
    SumFirstGroups();
    ScoredGroupsSnoc([a, b, c, d], e);
    assert [a, b, c, d] + [e] == [a, b, c, d, e];
    assert "2" !in ["1"];
    assert SumTests[..5] == [a, b, c, d, e];
  }

  lemma SumScoredGroups()
    ensures ScoredGroups(SumTests) == ["1", "2", "3"]
  {
    var a, b, c := FixtureTest("0", "0", Example, 0), FixtureTest("1a", "1", Normal, 33), FixtureTest("1b", "1", Normal, 33);
    var d, e, f := FixtureTest("1ocen", "1ocen", Example, 0), FixtureTest("2", "2", Normal, 33), FixtureTest("3", "3", Normal, 34);
    SumFiveGroups();
    assert SumTests[..5] == [a, b, c, d, e];
    assert ScoredGroups([a, b, c, d, e, f]) == ["1", "2", "3"] by {
      ScoredGroupsSnoc([a, b, c, d, e], f);
      assert [a, b, c, d, e] + [f] == [a, b, c, d, e, f];
      assert "3" !in ["1", "2"];
    }
    assert SumTests == [a, b, c, d, e, f];
  }

  const SumReports: seq<TestReport> := [
    TestReport("0", "0", OK), TestReport("1a", "1", OK), TestReport("1b", "1", WA),
    TestReport("1ocen", "1ocen", OK), TestReport("2", "2", RE), TestReport("3", "3", OK)]

  lemma SumJudged()
    ensures JudgeTests(SumTests, SumOutcome) == SumReports
  {
  }

  lemma SumGroupOutcomes()
    ensures !GroupPassed(SumTests, SumReports, "1")
    ensures !GroupPassed(SumTests, SumReports, "2")
    ensures GroupPassed(SumTests, SumReports, "3")
    ensures GroupMaxScore(SumTests, "3") == 34
  {
    assert SumTests[2].group == "1" && SumReports[2].verdict == WA;
    assert SumTests[4].group == "2" && SumReports[4].verdict == RE;
    SumGroupThreePasses();
    SumGroupThreeMax();
  }

  lemma SumGroupThreePasses()
    ensures GroupPassed(SumTests, SumReports, "3")
  {
  }

  lemma SumGroupThreeMax()
    ensures GroupMaxScore(SumTests, "3") == 34
  {
    var t := SumTests;
    assert t[1..][1..][1..][1..][1..] == [t[5]];
  }

  lemma SumOkCount()
    ensures |set i | 0 <= i < 6 && SumReports[i].verdict == OK| == 4
  {
    assert (set i | 0 <= i < 6 && SumReports[i].verdict == OK) == {0, 1, 3, 5};
  }

  lemma SumScore()
    ensures SubmissionScore(SumTests, SumReports) == 34
  {
    SumScoredGroups();
    SumGroupOutcomes();
    var gs := ["1", "2", "3"];
    assert gs[..2] == ["1", "2"] && gs[..2][..1] == ["1"] && gs[..2][..1][..0] == [];
    assert ScoreOver(gs[..1], SumTests, SumReports) == 0;
    assert ScoreOver(gs[..2], SumTests, SumReports) == 0;
  }

  /** The judging fixture: six reports, four of them OK, one WA and one RE,
      and a score of 34, since groups 1 and 2 each hold a failed test and
      only group 3 passes in full. */
  lemma AssertedJudgingScore()
    ensures |JudgeTests(SumTests, SumOutcome)| == 6
    ensures |set i | 0 <= i < 6 && JudgeTests(SumTests, SumOutcome)[i].verdict == OK| == 4
    ensures SubmissionScore(SumTests, JudgeTests(SumTests, SumOutcome)) == 34
  {
    SumJudged();
    SumOkCount();
    SumScore();
  }
}

=== FILE: sinol_limits.dfy ===
/** Time and memory limits of a package's tests: the defaults for tests the
    package gives no limit for, and the installation's ceilings on the memory
    limit of a test and on the sum of the time limits of a problem. */
module SinolLimits {

  import opened Results
  import opened Strings
  import opened SinolTests

  /** Time limit of a test the package sets none for, in milliseconds. */
  const DefaultTimeLimit: nat := 10000

  /** Memory limit of a test the package sets none for, in KiB. */
  const DefaultMemoryLimit: nat := 66000

  /** The installation's ceilings: MAX_TEST_TIME_LIMIT_PER_PROBLEM (ms) and
      MAX_MEMORY_LIMIT_FOR_TEST (KiB). */
  datatype Settings = Settings(maxTimeLimitSum: nat, maxMemoryLimit: nat)

  /** A limit the package sets, or the default. */
  function EffectiveLimit(given: Option<nat>, default: nat): (r: nat)
    ensures given.Some? ==> r == given.value
    ensures given.None? ==> r == default
  {
    match given
    case Some(v) => v
    case None => default
  }

  function TimeLimitSum(tests: seq<Test>): nat {
    if |tests| == 0 then 0 else tests[0].timeLimit + TimeLimitSum(tests[1..])
  }

  lemma {:induction false} UniformTimeLimitSum(tests: seq<Test>, limit: nat)
    requires forall i | 0 <= i < |tests| :: tests[i].timeLimit == limit
    ensures TimeLimitSum(tests) == |tests| * limit
  {
    if |tests| > 0 {
      UniformTimeLimitSum(tests[1..], limit);
    }
  }

  datatype LimitError =
    | MemoryLimitTooBig(ceiling: nat)
    | TimeLimitSumTooBig(total: nat, ceiling: nat)

  /** The first test whose memory limit is above the ceiling. */
  function FirstOverMemory(tests: seq<Test>, ceiling: nat): (r: Option<nat>)
    ensures r.None? <==> forall i | 0 <= i < |tests| :: tests[i].memoryLimit <= ceiling
    ensures r.Some? ==> r.value < |tests| && tests[r.value].memoryLimit > ceiling
  {
    if |tests| == 0 then None
    else if tests[0].memoryLimit > ceiling then Some(0)
    else
      match FirstOverMemory(tests[1..], ceiling)
      case Some(i) => Some(i + 1)
      case None => None
  }

  /** The limit checks: every memory limit at most the memory ceiling, then the
      sum of the time limits at most the time ceiling. */
  function CheckLimits(tests: seq<Test>, settings: Settings): (r: Result<(), LimitError>)
    ensures r.Ok? <==>
      && (forall i | 0 <= i < |tests| :: tests[i].memoryLimit <= settings.maxMemoryLimit)
      && TimeLimitSum(tests) <= settings.maxTimeLimitSum
    ensures r.Err? && r.error.MemoryLimitTooBig? ==>
      && r.error.ceiling == settings.maxMemoryLimit
      && exists i | 0 <= i < |tests| :: tests[i].memoryLimit > settings.maxMemoryLimit
    ensures r.Err? && r.error.TimeLimitSumTooBig? ==>
      && (forall i | 0 <= i < |tests| :: tests[i].memoryLimit <= settings.maxMemoryLimit)
      && r.error.total == TimeLimitSum(tests) > r.error.ceiling == settings.maxTimeLimitSum
  {
    match FirstOverMemory(tests, settings.maxMemoryLimit)
    case Some(i) => Err(MemoryLimitTooBig(settings.maxMemoryLimit))
    case None =>
      var total := TimeLimitSum(tests);
      if total > settings.maxTimeLimitSum then Err(TimeLimitSumTooBig(total, settings.maxTimeLimitSum))
      else Ok(())
  }

  /** The operator-facing text of a limit refusal; the time message gives the
      total and the ceiling in whole seconds. */
  function LimitMessage(e: LimitError): (m: string)
    ensures e.MemoryLimitTooBig? ==>
      StartsWith(m, "Memory limit mustn't be greater than " + NatToString(e.ceiling) + "KiB")
    ensures e.TimeLimitSumTooBig? ==>
      StartsWith(m, "Sum of time limits for all tests is too big. It's " + NatToString(e.total / 1000)
                    + "s, but it shouldn't exceed " + NatToString(e.ceiling / 1000) + "s.")
    ensures e.TimeLimitSumTooBig? ==>
      Contains(m, "It's " + NatToString(e.total / 1000) + "s, but it shouldn't exceed "
                  + NatToString(e.ceiling / 1000) + "s.")
  {
    match e
    case MemoryLimitTooBig(ceiling) =>
      var head := "Memory limit mustn't be greater than " + NatToString(ceiling) + "KiB";
      var m := head + ".";
      assert m[..|head|] == head;
      m
    case TimeLimitSumTooBig(total, ceiling) =>
      var body := "It's " + NatToString(total / 1000) + "s, but it shouldn't exceed "
                  + NatToString(ceiling / 1000) + "s.";
      var m := "Sum of time limits for all tests is too big. " + body;
      assert m == "Sum of time limits for all tests is too big. " + body + "";
      ContainsMiddle("Sum of time limits for all tests is too big. ", body, "");
      SentenceSplit(NatToString(total / 1000), NatToString(ceiling / 1000));
      assert m[..|m|] == m;
      m
  }

  /** The time-limit sentence is its head followed by the figures' part. */
  lemma SentenceSplit(total: string, ceiling: string)
    ensures "Sum of time limits for all tests is too big. It's " + total + "s, but it shouldn't exceed " + ceiling + "s."
         == "Sum of time limits for all tests is too big. " + ("It's " + total + "s, but it shouldn't exceed " + ceiling + "s.")
  {
    assert "Sum of time limits for all tests is too big. It's " == "Sum of time limits for all tests is too big. " + "It's ";
  }

  /** The package tests' time-limit case: five tests at the default limit
      against a 2000 ms ceiling are refused with "Sum of time limits for all
      tests is too big. It's 50s, but it shouldn't exceed 2s." */
  lemma AssertedTimeLimitRefusal(tests: seq<Test>, settings: Settings)
    requires |tests| == 5 && forall i | 0 <= i < 5 :: tests[i].timeLimit == DefaultTimeLimit
    requires settings.maxTimeLimitSum == 2000
    requires forall i | 0 <= i < 5 :: tests[i].memoryLimit <= settings.maxMemoryLimit
    ensures CheckLimits(tests, settings) == Err(TimeLimitSumTooBig(50000, 2000))
    ensures Contains(LimitMessage(TimeLimitSumTooBig(50000, 2000)),
                     "Sum of time limits for all tests is too big. It's " + "50"
                     + "s, but it shouldn't exceed " + "2" + "s.")
  {
    UniformTimeLimitSum(tests, DefaultTimeLimit);
    FiftyOverTwoSentence();
  }

  /** The figures of the package tests' refusal, in seconds, as written. */
  lemma FiftyAndTwo()
    ensures NatToString(50000 / 1000) == "50" && NatToString(2000 / 1000) == "2"
  {
    assert 50000 / 1000 == 50 && 2000 / 1000 == 2;
    assert NatToString(50) == NatToString(5) + [Digit(0)];
  }

  /** The refusal of 50 s against 2 s is the sentence the package tests look
      for, "Sum of time limits for all tests is too big. It's 50s, but it
      shouldn't exceed 2s.", written here in its literal pieces. */
  lemma FiftyOverTwoSentence()
    ensures Contains(LimitMessage(TimeLimitSumTooBig(50000, 2000)),
                     "Sum of time limits for all tests is too big. It's " + "50"
                     + "s, but it shouldn't exceed " + "2" + "s.")
  {
    FiftyAndTwo();
    var m := LimitMessage(TimeLimitSumTooBig(50000, 2000));
    var sentence := "Sum of time limits for all tests is too big. It's " + "50"
                    + "s, but it shouldn't exceed " + "2" + "s.";
    assert m[0..0 + |sentence|] == sentence;
    assert OccursAt(m, sentence, 0);
  }

  /** The package tests' memory case: a ceiling of 10 KiB refuses a test at
      the default memory limit with "Memory limit mustn't be greater than 10KiB". */
  lemma AssertedMemoryLimitRefusal(tests: seq<Test>, settings: Settings)
    requires |tests| > 0 && tests[0].memoryLimit == DefaultMemoryLimit
    requires settings.maxMemoryLimit == 10
    ensures CheckLimits(tests, settings) == Err(MemoryLimitTooBig(10))
    ensures StartsWith(LimitMessage(MemoryLimitTooBig(10)), "Memory limit mustn't be greater than 10KiB")
  {
    assert NatToString(10) == "10";
  }
}

=== FILE: sinol_scores.dfy ===
/** Per-group maximum scores of a package: either the explicit `scores` table
    of the package configuration, which must name exactly the scored groups,
    or an even split of 100 points over the scored groups with the remainder
    on the last group. */
module SinolScores {

  import opened Results
  import opened Strings
  import opened SinolTests

  /** Points a package is worth when its configuration gives no scores. */
  const AutoTotal: nat := 100

  predicate Distinct(gs: seq<string>) {
    forall i, j | 0 <= i < j < |gs| :: gs[i] != gs[j]
  }

  /** The groups of the scored (non-example) tests, in order of first appearance. */
  function ScoredGroups(tests: seq<Test>): (r: seq<string>)
    ensures Distinct(r)
    ensures forall g :: g in r <==> exists i | 0 <= i < |tests| :: tests[i].kind == Normal && tests[i].group == g
  {
    if |tests| == 0 then []
    else
      var p := ScoredGroups(tests[..|tests| - 1]);
      var t := tests[|tests| - 1];
      assert forall i | 0 <= i < |tests| - 1 :: tests[..|tests| - 1][i] == tests[i];
      if t.kind == Normal && t.group !in p then p + [t.group] else p
  }

  /** Appending a test adds its group at the end when it is a new scored
      group, and nothing otherwise. */
  lemma ScoredGroupsSnoc(tests: seq<Test>, t: Test)
    ensures ScoredGroups(tests + [t])
         == if t.kind == Normal && t.group !in ScoredGroups(tests) then ScoredGroups(tests) + [t.group] else ScoredGroups(tests)
  {
    assert (tests + [t])[..|tests|] == tests;
  }

  /** Ordering key of a group: its number, then its length (leading zeros). */
  function GroupNumber(g: string): nat {
    if IsDigits(g) then DigitsValue(g) else 0
  }

  predicate GroupLeq(a: string, b: string) {
    GroupNumber(a) < GroupNumber(b) || (GroupNumber(a) == GroupNumber(b) && |a| <= |b|)
  }

  /** The last group in ascending order. */
  function LastGroup(gs: seq<string>): (r: string)
    requires |gs| > 0
    ensures r in gs
    ensures forall g | g in gs :: GroupLeq(g, r)
  {
    if |gs| == 1 then gs[0]
    else
      var m := LastGroup(gs[1..]);
      assert forall g | g in gs :: g == gs[0] || g in gs[1..];
      if GroupLeq(gs[0], m) then m else gs[0]
  }

  /** The automatic split: every group gets `AutoTotal / n` points, the last
      group also gets the remainder. */
  function AutoScores(gs: seq<string>): (r: map<string, nat>)
    ensures r.Keys == set g | g in gs
    ensures |gs| > 0 ==> forall g | g in gs ::
      r[g] == AutoTotal / |gs| + (if g == LastGroup(gs) then AutoTotal % |gs| else 0)
  {
    if |gs| == 0 then map[]
    else
      var last := LastGroup(gs);
      map g | g in gs :: AutoTotal / |gs| + (if g == last then AutoTotal % |gs| else 0)
  }

  /** Sum of one score per listed group. */
  function SumScores(gs: seq<string>, scores: map<string, nat>): nat
    requires forall g | g in gs :: g in scores
  {
    if |gs| == 0 then 0 else scores[gs[0]] + SumScores(gs[1..], scores)
  }

  lemma DivMod(a: nat, n: nat)
    requires n > 0
    ensures 0 <= a / n && 0 <= a % n < n
    ensures n * (a / n) + a % n == a
  {
  }

  lemma MulSucc(n: nat, b: nat)
    ensures (n + 1) * b == n * b + b
  {
  }

  lemma {:induction false} SumOfSplit(gs: seq<string>, scores: map<string, nat>, base: nat, extra: nat, last: string)
    requires Distinct(gs)
    requires forall g | g in gs :: g in scores && scores[g] == base + (if g == last then extra else 0)
    ensures SumScores(gs, scores) == |gs| * base + (if last in gs then extra else 0)
  {
    if |gs| > 0 {
      assert Distinct(gs[1..]);
      SumOfSplit(gs[1..], scores, base, extra, last);
      MulSucc(|gs[1..]|, base);
      assert last in gs <==> last == gs[0] || last in gs[1..];
      if last == gs[0] {
        assert last !in gs[1..];
      }
    }
  }

  /** Without a score table the groups are worth exactly 100 points together. */
  lemma AutoScoresTotal(gs: seq<string>)
    requires Distinct(gs) && |gs| > 0
    ensures SumScores(gs, AutoScores(gs)) == AutoTotal
  {
    var n := |gs|;
    DivMod(AutoTotal, n);
    var base, extra, last := AutoTotal / n, AutoTotal % n, LastGroup(gs);
    var scores := AutoScores(gs);
    assert forall g | g in gs :: g in scores && scores[g] == base + (if g == last then extra else 0);
    SumOfSplit(gs, scores, base, extra, last);
  }

  /** The splits the package tests assert for one, two and three groups. */
  lemma AssertedSplits()
    ensures AutoScores(["1"]) == map["1" := 100]
    ensures AutoScores(["1", "2"]) == map["1" := 50, "2" := 50]
    ensures AutoScores(["1", "2", "3"]) == map["1" := 33, "2" := 33, "3" := 34]
  {
    TwoGroupSplit();
    ThreeGroupSplit();
  }

  lemma TwoGroupSplit()
    ensures AutoScores(["1", "2"]) == map["1" := 50, "2" := 50]
  {
    assert LastGroup(["1", "2"]) == "2" by {
      assert ["1", "2"][1..] == ["2"];
      assert GroupNumber("1") == 1 && GroupNumber("2") == 2;
    }
  }

  lemma ThreeGroupSplit()
    ensures AutoScores(["1", "2", "3"]) == map["1" := 33, "2" := 33, "3" := 34]
  {
    LastOfThree();
    var r := AutoScores(["1", "2", "3"]);
    assert r["1"] == 33 && r["2"] == 33 && r["3"] == 34;
  }

  lemma LastOfThree()
    ensures LastGroup(["1", "2", "3"]) == "3"
  {
    assert LastGroup(["2", "3"]) == "3" by {
      assert ["2", "3"][1..] == ["3"];
      assert GroupNumber("2") == 2 && GroupNumber("3") == 3;
    }
    assert ["1", "2", "3"][1..] == ["2", "3"];
    assert GroupNumber("1") == 1 && GroupNumber("3") == 3;
  }

  /** Why a score table was refused. */
  datatype ScoreError = UnknownGroup(group: string) | MissingScore(group: string)

  /** The operator-facing text of a refusal. */
  function ScoreMessage(e: ScoreError): (m: string)
    ensures e.UnknownGroup? ==> Contains(m, "no such test group exists") && Contains(m, "'" + e.group + "'")
    ensures e.MissingScore? ==> Contains(m, "Score for group") && Contains(m, "not found") && Contains(m, "'" + e.group + "'")
  {
    if e.UnknownGroup? then UnknownGroupMessage(e.group) else MissingScoreMessage(e.group)
  }

  function UnknownGroupMessage(g: string): (m: string)
    ensures Contains(m, "no such test group exists") && Contains(m, "'" + g + "'")
  {
    var quoted := "'" + g + "'";
    ContainsParts("Score for group", " ", quoted, " found in config, but ", "no such test group exists",
                  " in scored groups in package.");
    "Score for group" + " " + quoted + " found in config, but " + "no such test group exists"
      + " in scored groups in package."
  }

  function MissingScoreMessage(g: string): (m: string)
    ensures Contains(m, "Score for group") && Contains(m, "not found") && Contains(m, "'" + g + "'")
  {
    var quoted := "'" + g + "'";
    var tail := ". You must either provide scores for all groups or not provide them at all (to have them assigned automatically).";
    ContainsParts("Score for group", " ", quoted, " ", "not found", tail);
    "Score for group" + " " + quoted + " " + "not found" + tail
  }

  /** A score table: the `scores` mapping of the configuration, keys distinct. */
  type Table = seq<(string, nat)>

  function TableKeys(table: Table): set<string> {
    set i | 0 <= i < |table| :: table[i].0
  }

  predicate DistinctKeys(table: Table) {
    forall i, j | 0 <= i < j < |table| :: table[i].0 != table[j].0
  }

  /** The first key of the table that is not a scored group. */
  function FirstUnknown(table: Table, gs: seq<string>): (r: Option<string>)
    ensures r.None? <==> TableKeys(table) <= set g | g in gs
    ensures r.Some? ==> r.value in TableKeys(table) && r.value !in gs
  {
    if |table| == 0 then None
    else if table[0].0 !in gs then
      assert table[0].0 in TableKeys(table);
      Some(table[0].0)
    else
      assert TableKeys(table) == {table[0].0} + TableKeys(table[1..]) by {
        assert forall i | 0 < i < |table| :: table[i] == table[1..][i - 1];
      }
      FirstUnknown(table[1..], gs)
  }

  /** The first scored group the table does not give a score for. */
  function FirstMissing(gs: seq<string>, table: Table): (r: Option<string>)
    ensures r.None? <==> (set g | g in gs) <= TableKeys(table)
    ensures r.Some? ==> r.value in gs && r.value !in TableKeys(table)
  {
    if |gs| == 0 then None
    else if gs[0] !in TableKeys(table) then Some(gs[0])
    else
      assert forall g | g in gs :: g == gs[0] || g in gs[1..];
      FirstMissing(gs[1..], table)
  }

  function TableMap(table: Table): (m: map<string, nat>)
    requires DistinctKeys(table)
    ensures m.Keys == TableKeys(table)
    ensures forall i | 0 <= i < |table| :: m[table[i].0] == table[i].1
  {
    map i | 0 <= i < |table| :: table[i].0 := table[i].1
  }

  /** The maximum score of every scored group. An empty table means automatic
      scores. Otherwise a key that is not a scored group is refused first, then
      a scored group missing from the table; the table is accepted exactly when
      its keys are the scored groups, and then its scores are used as given. */
  function ResolveScores(gs: seq<string>, table: Table): (r: Result<map<string, nat>, ScoreError>)
    requires Distinct(gs) && DistinctKeys(table)
    ensures r.Ok? <==> |table| == 0 || TableKeys(table) == set g | g in gs
    ensures r.Ok? ==> r.value.Keys == set g | g in gs
    ensures r.Ok? && |table| == 0 ==> r.value == AutoScores(gs)
    ensures r.Ok? && |table| > 0 ==> forall i | 0 <= i < |table| :: r.value[table[i].0] == table[i].1
    ensures r.Err? && r.error.UnknownGroup? ==> r.error.group in TableKeys(table) && r.error.group !in gs
    ensures r.Err? && r.error.MissingScore? ==>
      && r.error.group in gs && r.error.group !in TableKeys(table)
      && TableKeys(table) <= set g | g in gs
  {
    if |table| == 0 then Ok(AutoScores(gs))
    else
      match FirstUnknown(table, gs)
      case Some(g) => Err(UnknownGroup(g))
      case None =>
        match FirstMissing(gs, table)
        case Some(g) => Err(MissingScore(g))
        case None => Ok(TableMap(table))
  }
}

=== FILE: sinol_tests.dfy ===
/** Naming conventions of a problem package: how a test file's name gives the
    test's group and kind, and how a model solution's file name gives its
    expected verdict class and its place in the listing. */
module SinolTests {

  import opened Results
  import opened Strings

  datatype TestKind = Example | Normal

  /** What a test name says about the test. */
  datatype TestClass = TestClass(group: string, kind: TestKind)

  predicate IsLower(c: char) {
    'a' <= c <= 'z'
  }

  /** A test name is a group number followed by lower-case letters, as in
      "0", "1a", "1ocen", "12". */
  predicate IsTestName(name: string) {
    var k := DigitPrefixLength(name);
    k > 0 && forall i | k <= i < |name| :: IsLower(name[i])
  }

  predicate IsExampleName(name: string) {
    name[..DigitPrefixLength(name)] == "0" || EndsWith(name, "ocen")
  }

  /** The group and kind of a test. Group "0" and the "...ocen" tests are
      examples; an "...ocen" test forms a group of its own, every other test
      belongs to the group named by its number. Anything else is not a test. */
  function ClassifyTest(name: string): (r: Option<TestClass>)
    ensures r.Some? <==> IsTestName(name)
    ensures r.Some? ==> (r.value.kind == Example <==> IsExampleName(name))
    ensures r.Some? ==> StartsWith(name, r.value.group) && |r.value.group| > 0
    ensures r.Some? && r.value.kind == Normal ==>
      r.value.group == name[..DigitPrefixLength(name)] && IsDigits(r.value.group) && r.value.group != "0"
    ensures r.Some? && EndsWith(name, "ocen") ==> r.value.group == name
  {
    if !IsTestName(name) then None
    else
      var digits := name[..DigitPrefixLength(name)];
      if EndsWith(name, "ocen") then Some(TestClass(name, Example))
      else if digits == "0" then Some(TestClass(digits, Example))
      else Some(TestClass(digits, Normal))
  }

  /** An example test never shares its group with a scored test. */
  lemma ExampleGroupsAreNotScored(a: string, b: string)
    requires ClassifyTest(a).Some? && ClassifyTest(a).value.kind == Example
    requires ClassifyTest(b).Some? && ClassifyTest(b).value.kind == Normal
    ensures ClassifyTest(a).value.group != ClassifyTest(b).value.group
  {
    var ga := ClassifyTest(a).value.group;
    if EndsWith(a, "ocen") {
      assert ga[|ga| - 1] == 'n';
    }
  }

  /** The classifications the package tests assert: "0" is an example in group
      "0"; "1a", "1b", "1c" are scored tests of group "1"; "1ocen" is an example
      forming group "1ocen"; "2", "2a" and "3" are scored tests of their number. */
  lemma AssertedTestNames()
    ensures ClassifyTest("0") == Some(TestClass("0", Example))
    ensures ClassifyTest("1a") == Some(TestClass("1", Normal))
    ensures ClassifyTest("1b") == Some(TestClass("1", Normal))
    ensures ClassifyTest("1c") == Some(TestClass("1", Normal))
    ensures ClassifyTest("1ocen") == Some(TestClass("1ocen", Example))
    ensures ClassifyTest("2") == Some(TestClass("2", Normal))
    ensures ClassifyTest("2a") == Some(TestClass("2", Normal))
    ensures ClassifyTest("3") == Some(TestClass("3", Normal))
  {
    assert DigitPrefixLength("1ocen") == 1 by {
      assert "1ocen"[1..] == "ocen";
      assert DigitPrefixLength("ocen") == 0;
    }
    ScoredName('1', "a");
    assert ['1'] + "a" == "1a" && ['1'] == "1";
    ScoredName('1', "b");
    assert ['1'] + "b" == "1b" && ['1'] == "1";
    ScoredName('1', "c");
    assert ['1'] + "c" == "1c" && ['1'] == "1";
    ScoredName('2', "");
    assert ['2'] + "" == "2" && ['2'] == "2";
    ScoredName('2', "a");
    assert ['2'] + "a" == "2a" && ['2'] == "2";
    ScoredName('3', "");
    assert ['3'] + "" == "3" && ['3'] == "3";
  }

  /** A non-zero digit followed by a short run of letters names a scored test
      of the group named by the digit. */
  lemma ScoredName(d: char, letters: string)
    requires '1' <= d <= '9' && |letters| <= 1
    requires forall i | 0 <= i < |letters| :: IsLower(letters[i])
    ensures ClassifyTest([d] + letters) == Some(TestClass([d], Normal))
  {
    var name := [d] + letters;
    assert name[1..] == letters;
    if |letters| > 0 {
      assert DigitPrefixLength(letters) == 0;
    }
    assert DigitPrefixLength(name) == 1;
    assert name[..1] == [d];
  }

  /** A stored test: its data, group, kind, the points its group is worth and
      its limits (milliseconds and KiB). */
  datatype Test = Test(
    name: string,
    input: string,
    output: string,
    group: string,
    kind: TestKind,
    maxScore: nat,
    timeLimit: nat,
    memoryLimit: nat)

  /** Expected verdict class of a model solution. */
  datatype SolutionKind = NormalSolution | SlowSolution | IncorrectSolution

  datatype ModelSolution = ModelSolution(name: string, kind: SolutionKind)

  /** The kind a marker selects: "s" slow, "b" incorrect, none normal. */
  function MarkerKind(marker: string): Option<SolutionKind> {
    if marker == "" then Some(NormalSolution)
    else if marker == "s" then Some(SlowSolution)
    else if marker == "b" then Some(IncorrectSolution)
    else None
  }

  /** A file extension: a dot and a non-empty name without dots. */
  predicate IsExtension(s: string) {
    |s| >= 2 && s[0] == '.' && forall i | 1 <= i < |s| :: s[i] != '.'
  }

  /** `rest` is digits, a kind marker, digits and an extension. */
  predicate RestNamed(rest: string, d1: string, marker: string, d2: string, ext: string) {
    && IsDigits(d1) && MarkerKind(marker).Some? && IsDigits(d2) && IsExtension(ext)
    && rest == d1 + marker + d2 + ext
  }

  /** `file` is the short name, digits, a kind marker, digits and an
      extension. */
  predicate SolutionNamed(short: string, file: string, d1: string, marker: string, d2: string, ext: string) {
    && IsDigits(d1) && MarkerKind(marker).Some? && IsDigits(d2) && IsExtension(ext)
    && file == short + d1 + marker + d2 + ext
  }

  /** `rest` is digits and an extension. */
  predicate TailNamed(rest: string, d2: string, ext: string) {
    IsDigits(d2) && IsExtension(ext) && rest == d2 + ext
  }

  /** A program file of the package is a model solution when its name is the
      short name, digits, an optional "s" (slow) or "b" (incorrect) marker,
      digits and an extension; checkers and input generators
      (`<short>chk.cpp`, `<short>ingen.cpp`) are not. */
  function ClassifySolution(short: string, file: string): (r: Option<SolutionKind>)
    ensures r.Some? ==> StartsWith(file, short)
  {
    if StartsWith(file, short) then ClassifyRest(file[|short|..], None) else None
  }

  /** Scans what follows the short name; `marked` is the kind a marker
      already selected, if one was seen. */
  function ClassifyRest(rest: string, marked: Option<SolutionKind>): Option<SolutionKind>
    decreases |rest|
  {
    if |rest| == 0 then None
    else if IsDigit(rest[0]) then ClassifyRest(rest[1..], marked)
    else if marked.None? && (rest[0] == 's' || rest[0] == 'b') then ClassifyRest(rest[1..], MarkerKind([rest[0]]))
    else if IsExtension(rest) then (if marked.Some? then marked else Some(NormalSolution))
    else None
  }

  /** A program file is classified exactly when its name has the solution
      shape, and then by its marker, whichever way the shape is split. */
  lemma ClassifySolutionNamed(short: string, file: string)
    ensures ClassifySolution(short, file).Some? <==> exists d1, marker, d2, ext :: SolutionNamed(short, file, d1, marker, d2, ext)
    ensures forall d1, marker, d2, ext | SolutionNamed(short, file, d1, marker, d2, ext) ::
      ClassifySolution(short, file) == MarkerKind(marker)
  {
    forall d1, marker, d2, ext | SolutionNamed(short, file, d1, marker, d2, ext)
      ensures StartsWith(file, short) && RestNamed(file[|short|..], d1, marker, d2, ext)
    {
      assert file == short + (d1 + marker + d2 + ext);
      assert file[..|short|] == short;
      assert file[|short|..] == d1 + marker + d2 + ext;
    }
    if StartsWith(file, short) {
      var rest := file[|short|..];
      RestClassified(rest);
      if ClassifyRest(rest, None).Some? {
        var d1, marker, d2, ext :| RestNamed(rest, d1, marker, d2, ext);
        assert file == short + rest;
        assert SolutionNamed(short, file, d1, marker, d2, ext);
      }
    }
  }

  /** Before any marker, the scan accepts exactly the solution shape, with
      the kind of its marker. */
  lemma RestClassified(rest: string)
    ensures ClassifyRest(rest, None).Some? ==> exists d1, marker, d2, ext :: RestNamed(rest, d1, marker, d2, ext)
    ensures forall d1, marker, d2, ext | RestNamed(rest, d1, marker, d2, ext) :: ClassifyRest(rest, None) == MarkerKind(marker)
  {
    RestAccepted(rest);
    forall d1, marker, d2, ext | RestNamed(rest, d1, marker, d2, ext)
      ensures ClassifyRest(rest, None) == MarkerKind(marker)
    {
      RestSplit(rest, d1, marker, d2, ext);
    }
  }

  lemma {:induction false} RestAccepted(rest: string)
    ensures ClassifyRest(rest, None).Some? ==> exists d1, marker, d2, ext :: RestNamed(rest, d1, marker, d2, ext)
    decreases |rest|
  {
    if |rest| > 0 && ClassifyRest(rest, None).Some? {
      var c := rest[0];
      var tail := rest[1..];
      assert rest == [c] + tail;
      if IsDigit(c) {
        assert ClassifyRest(tail, None).Some?;
        RestAccepted(tail);
        var d1, marker, d2, ext :| RestNamed(tail, d1, marker, d2, ext);
        DigitsCons(c, d1);
        assert rest == ([c] + d1) + marker + d2 + ext;
        assert RestNamed(rest, [c] + d1, marker, d2, ext);
      } else if c == 's' || c == 'b' {
        var k := MarkerKind([c]).value;
        assert ClassifyRest(tail, Some(k)).Some?;
        TailClassified(tail, k);
        var d2, ext :| TailNamed(tail, d2, ext);
        assert rest == [] + [c] + d2 + ext;
        assert RestNamed(rest, [], [c], d2, ext);
      } else {
        assert IsExtension(rest);
        assert rest == [] + [] + [] + rest;
        assert RestNamed(rest, [], [], [], rest);
      }
    }
  }

  lemma DigitsCons(c: char, d: string)
    requires IsDigit(c) && IsDigits(d)
    ensures IsDigits([c] + d)
  {
  }

  lemma {:induction false} RestSplit(rest: string, d1: string, marker: string, d2: string, ext: string)
    requires RestNamed(rest, d1, marker, d2, ext)
    ensures ClassifyRest(rest, None) == MarkerKind(marker)
    decreases |rest|
  {
    var tail := rest[1..];
    assert |ext| >= 2;
    if |d1| > 0 {
      assert rest[0] == d1[0] && tail == d1[1..] + marker + d2 + ext;
      RestSplit(tail, d1[1..], marker, d2, ext);
    } else if |marker| > 0 {
      assert rest[0] == marker[0] && [rest[0]] == marker && tail == d2 + ext;
      TailClassified(tail, MarkerKind(marker).value);
      assert TailNamed(tail, d2, ext);
    } else if |d2| > 0 {
      assert rest[0] == d2[0] && tail == [] + [] + d2[1..] + ext;
      RestSplit(tail, [], [], d2[1..], ext);
    } else {
      assert rest == ext;
    }
  }

  /** After a marker, the scan accepts exactly digits and an extension, with
      the marker's kind. */
  lemma {:induction false} TailClassified(rest: string, k: SolutionKind)
    ensures ClassifyRest(rest, Some(k)).Some? ==>
      ClassifyRest(rest, Some(k)) == Some(k) && exists d2, ext :: TailNamed(rest, d2, ext)
    ensures forall d2, ext | TailNamed(rest, d2, ext) :: ClassifyRest(rest, Some(k)) == Some(k)
    decreases |rest|
  {
    if |rest| > 0 {
      var tail := rest[1..];
      assert rest == [rest[0]] + tail;
      if IsDigit(rest[0]) {
        TailClassified(tail, k);
        if ClassifyRest(tail, Some(k)).Some? {
          var d2, ext :| TailNamed(tail, d2, ext);
          DigitsCons(rest[0], d2);
          assert rest == ([rest[0]] + d2) + ext;
          assert TailNamed(rest, [rest[0]] + d2, ext);
        }
      } else if IsExtension(rest) {
        assert rest == [] + rest;
        assert TailNamed(rest, [], rest);
      }
      forall d2, ext | TailNamed(rest, d2, ext)
        ensures ClassifyRest(rest, Some(k)) == Some(k)
      {
        if |d2| > 0 {
          assert rest[0] == d2[0] && tail == d2[1..] + ext;
          TailClassified(tail, k);
          assert TailNamed(tail, d2[1..], ext);
        } else {
          assert rest == ext;
        }
      }
    }
  }

  /** The model solutions among the program files, in file order. */
  function SolutionsOf(short: string, files: seq<string>): (r: seq<ModelSolution>)
    ensures forall s | s in r :: ClassifySolution(short, s.name) == Some(s.kind)
  {
    if |files| == 0 then []
    else
      var rest := SolutionsOf(short, files[1..]);
      match ClassifySolution(short, files[0])
      case Some(k) => [ModelSolution(files[0], k)] + rest
      case None => rest
  }

  function Rank(k: SolutionKind): nat {
    match k
    case NormalSolution => 0
    case SlowSolution => 1
    case IncorrectSolution => 2
  }

  function OfKind(sols: seq<ModelSolution>, k: SolutionKind): (r: seq<ModelSolution>)
    ensures forall s | s in r :: s.kind == k && s in sols
  {
    if |sols| == 0 then []
    else if sols[0].kind == k then [sols[0]] + OfKind(sols[1..], k)
    else OfKind(sols[1..], k)
  }

  lemma {:induction false} KindsPartition(sols: seq<ModelSolution>)
    ensures multiset(OfKind(sols, NormalSolution)) + multiset(OfKind(sols, SlowSolution))
            + multiset(OfKind(sols, IncorrectSolution)) == multiset(sols)
  {
    if |sols| > 0 {
      KindsPartition(sols[1..]);
      assert sols == [sols[0]] + sols[1..];
    }
  }

  /** The model solutions as the problem lists them: the normal ones, then the
      slow ones, then the incorrect ones, each class in file order. */
  function OrderedSolutions(short: string, files: seq<string>): (r: seq<ModelSolution>)
    ensures multiset(r) == multiset(SolutionsOf(short, files))
    ensures forall i, j | 0 <= i < j < |r| :: Rank(r[i].kind) <= Rank(r[j].kind)
  {
    var sols := SolutionsOf(short, files);
    KindsPartition(sols);
    var normal, slow, incorrect := OfKind(sols, NormalSolution), OfKind(sols, SlowSolution), OfKind(sols, IncorrectSolution);
    RanksAscend(normal, slow, incorrect);
    normal + slow + incorrect
  }

  /** The normal, then the slow, then the incorrect solutions are in
      ascending rank. */
  lemma RanksAscend(normal: seq<ModelSolution>, slow: seq<ModelSolution>, incorrect: seq<ModelSolution>)
    requires forall s | s in normal :: s.kind == NormalSolution
    requires forall s | s in slow :: s.kind == SlowSolution
    requires forall s | s in incorrect :: s.kind == IncorrectSolution
    ensures var r := normal + slow + incorrect;
      forall i, j | 0 <= i < j < |r| :: Rank(r[i].kind) <= Rank(r[j].kind)
  {
    var r := normal + slow + incorrect;
    forall i, j | 0 <= i < j < |r| ensures Rank(r[i].kind) <= Rank(r[j].kind) {
      assert r[i] in normal || r[i] in slow || r[i] in incorrect;
      assert r[j] in normal || r[j] in slow || r[j] in incorrect;
      if j < |normal| {
        assert r[i] in normal && r[j] in normal;
      } else if i >= |normal| + |slow| {
        assert r[i] in incorrect && r[j] in incorrect;
      }
    }
  }

  /** A file named by the solution shape is a model solution of its
      marker's kind. */
  lemma SolutionFile(short: string, file: string, d1: string, marker: string, d2: string, ext: string)
    requires SolutionNamed(short, file, d1, marker, d2, ext)
    ensures ClassifySolution(short, file) == MarkerKind(marker)
  {
    ClassifySolutionNamed(short, file);
  }

  /** The checker and the input generator of the "sum" package are programs
      but not model solutions. */
  lemma ToolsAreNotSolutions()
    ensures ClassifySolution("sum", "sumchk.cpp") == None
    ensures ClassifySolution("sum", "sumingen.cpp") == None
  {
    assert "sumchk.cpp"[3..] == "chk.cpp";
    assert "sumingen.cpp"[3..] == "ingen.cpp";
  }

  /** The program directory of the "sum" package of the package tests. */
  const SumPrograms: seq<string> := ["sum.c", "sum1.pas", "sumb0.c", "sums1.cpp"]

  /** Its model solutions, in file order. */
  const SumSolutions: seq<ModelSolution> :=
    [ModelSolution("sum.c", NormalSolution), ModelSolution("sum1.pas", NormalSolution),
     ModelSolution("sumb0.c", IncorrectSolution), ModelSolution("sums1.cpp", SlowSolution)]

  lemma SolutionsOfCons(short: string, f: string, rest: seq<string>, k: SolutionKind)
    requires ClassifySolution(short, f) == Some(k)
    ensures SolutionsOf(short, [f] + rest) == [ModelSolution(f, k)] + SolutionsOf(short, rest)
  {
    assert ([f] + rest)[1..] == rest;
  }

  lemma SolutionsOfFour(short: string, files: seq<string>, kinds: seq<SolutionKind>)
    requires |files| == 4 && |kinds| == 4
    requires forall i | 0 <= i < 4 :: ClassifySolution(short, files[i]) == Some(kinds[i])
    ensures SolutionsOf(short, files) == seq(4, i requires 0 <= i < 4 => ModelSolution(files[i], kinds[i]))
  {
    var want := seq(4, i requires 0 <= i < 4 => ModelSolution(files[i], kinds[i]));
    SolutionsOfCons(short, files[3], [], kinds[3]);
    assert files[3..] == [files[3]] + [];
    SolutionsOfCons(short, files[2], files[3..], kinds[2]);
    assert files[2..] == [files[2]] + files[3..];
    SolutionsOfCons(short, files[1], files[2..], kinds[1]);
    assert files[1..] == [files[1]] + files[2..];
    SolutionsOfCons(short, files[0], files[1..], kinds[0]);
    assert files == [files[0]] + files[1..];
    assert SolutionsOf(short, files) == [want[0], want[1], want[2], want[3]];
  }

  /** Every program of the "sum" package is a model solution, of the kind
      its name's marker selects. */
  lemma SumSolutionsFound()
    ensures SolutionsOf("sum", SumPrograms) == SumSolutions
  {
    SumProgramKinds();
    var kinds := [NormalSolution, NormalSolution, IncorrectSolution, SlowSolution];
    SolutionsOfFour("sum", SumPrograms, kinds);
  }

  /** The kind of each program of the "sum" package, read off its name. */
  lemma SumProgramKinds()
    ensures ClassifySolution("sum", "sum.c") == Some(NormalSolution)
    ensures ClassifySolution("sum", "sum1.pas") == Some(NormalSolution)
    ensures ClassifySolution("sum", "sumb0.c") == Some(IncorrectSolution)
    ensures ClassifySolution("sum", "sums1.cpp") == Some(SlowSolution)
  {
    SolutionFile("sum", "sum.c", "", "", "", ".c");
    SolutionFile("sum", "sum1.pas", "1", "", "", ".pas");
    SolutionFile("sum", "sumb0.c", "", "b", "0", ".c");
    SolutionFile("sum", "sums1.cpp", "", "s", "1", ".cpp");
  }

  lemma OfKindCons(s: ModelSolution, rest: seq<ModelSolution>, k: SolutionKind)
    ensures OfKind([s] + rest, k) == if s.kind == k then [s] + OfKind(rest, k) else OfKind(rest, k)
  {
    assert ([s] + rest)[1..] == rest;
  }

  /** The "sum" package's normal solutions, in file order. */
  lemma SumNormals()
    ensures OfKind(SumSolutions, NormalSolution)
         == [ModelSolution("sum.c", NormalSolution), ModelSolution("sum1.pas", NormalSolution)]
  {
    var a, b := ModelSolution("sum.c", NormalSolution), ModelSolution("sum1.pas", NormalSolution);
    var c, d := ModelSolution("sumb0.c", IncorrectSolution), ModelSolution("sums1.cpp", SlowSolution);
    assert OfKind([d], NormalSolution) == [] by { OfKindCons(d, [], NormalSolution); assert [d] + [] == [d]; }
    assert OfKind([c, d], NormalSolution) == [] by { OfKindCons(c, [d], NormalSolution); assert [c] + [d] == [c, d]; }
    assert OfKind([b, c, d], NormalSolution) == [b] by { OfKindCons(b, [c, d], NormalSolution); assert [b] + [c, d] == [b, c, d]; }
    assert OfKind([a, b, c, d], NormalSolution) == [a, b] by { OfKindCons(a, [b, c, d], NormalSolution); assert [a] + [b, c, d] == [a, b, c, d]; }
  }

  /** The "sum" package's slow solutions. */
  lemma SumSlows()
    ensures OfKind(SumSolutions, SlowSolution) == [ModelSolution("sums1.cpp", SlowSolution)]
  {
    var a, b := ModelSolution("sum.c", NormalSolution), ModelSolution("sum1.pas", NormalSolution);
    var c, d := ModelSolution("sumb0.c", IncorrectSolution), ModelSolution("sums1.cpp", SlowSolution);
    assert OfKind([d], SlowSolution) == [d] by { OfKindCons(d, [], SlowSolution); assert [d] + [] == [d]; }
    assert OfKind([c, d], SlowSolution) == [d] by { OfKindCons(c, [d], SlowSolution); assert [c] + [d] == [c, d]; }
    assert OfKind([b, c, d], SlowSolution) == [d] by { OfKindCons(b, [c, d], SlowSolution); assert [b] + [c, d] == [b, c, d]; }
    assert OfKind([a, b, c, d], SlowSolution) == [d] by { OfKindCons(a, [b, c, d], SlowSolution); assert [a] + [b, c, d] == [a, b, c, d]; }
  }

  /** The "sum" package's incorrect solutions. */
  lemma SumIncorrects()
    ensures OfKind(SumSolutions, IncorrectSolution) == [ModelSolution("sumb0.c", IncorrectSolution)]
  {
    var a, b := ModelSolution("sum.c", NormalSolution), ModelSolution("sum1.pas", NormalSolution);
    var c, d := ModelSolution("sumb0.c", IncorrectSolution), ModelSolution("sums1.cpp", SlowSolution);
    assert OfKind([d], IncorrectSolution) == [] by { OfKindCons(d, [], IncorrectSolution); assert [d] + [] == [d]; }
    assert OfKind([c, d], IncorrectSolution) == [c] by { OfKindCons(c, [d], IncorrectSolution); assert [c] + [d] == [c, d]; }
    assert OfKind([b, c, d], IncorrectSolution) == [c] by { OfKindCons(b, [c, d], IncorrectSolution); assert [b] + [c, d] == [b, c, d]; }
    assert OfKind([a, b, c, d], IncorrectSolution) == [c] by { OfKindCons(a, [b, c, d], IncorrectSolution); assert [a] + [b, c, d] == [a, b, c, d]; }
  }

  /** The listing the package tests assert for the "sum" package. */
  lemma AssertedSolutionOrder()
    ensures OrderedSolutions("sum", SumPrograms)
         == [ModelSolution("sum.c", NormalSolution), ModelSolution("sum1.pas", NormalSolution),
             ModelSolution("sums1.cpp", SlowSolution), ModelSolution("sumb0.c", IncorrectSolution)]
  {
    var sols := SolutionsOf("sum", SumPrograms);
    SumSolutionsFound();
    var n := [ModelSolution("sum.c", NormalSolution), ModelSolution("sum1.pas", NormalSolution)];
    var sl := [ModelSolution("sums1.cpp", SlowSolution)];
    var ic := [ModelSolution("sumb0.c", IncorrectSolution)];
    assert OrderedSolutions("sum", SumPrograms)
        == OfKind(sols, NormalSolution) + OfKind(sols, SlowSolution) + OfKind(sols, IncorrectSolution);
    SumNormals();
    SumSlows();
    SumIncorrects();
    ListingOfFour(n, sl, ic);
  }

  lemma ListingOfFour(n: seq<ModelSolution>, sl: seq<ModelSolution>, ic: seq<ModelSolution>)
    requires |n| == 2 && |sl| == 1 && |ic| == 1
    ensures n + sl + ic == [n[0], n[1], sl[0], ic[0]]
  {
  }
}

=== FILE: strings.dfy ===
/** Decimal rendering and parsing of natural numbers (Python's `str` and `int`
    on non-negative integers) and the substring tests the diagnostics need. */
module Strings {

  import opened Results

  predicate IsDigit(c: char) {
    '0' <= c <= '9'
  }

  predicate IsDigits(s: string) {
    forall i | 0 <= i < |s| :: IsDigit(s[i])
  }

  function Digit(d: nat): (c: char)
    requires d < 10
    ensures IsDigit(c)
  {
    ('0' as int + d) as char
  }

  function DigitValue(c: char): (d: nat)
    requires IsDigit(c)
    ensures d < 10 && Digit(d) == c
  {
    c as int - '0' as int
  }

  /** `str(n)`: the canonical decimal form, without leading zeros. */
  function NatToString(n: nat): (s: string)
    ensures |s| >= 1 && IsDigits(s)
    ensures n == 0 <==> s == "0"
    ensures n > 0 ==> s[0] != '0'
  {
    if n < 10 then [Digit(n)] else NatToString(n / 10) + [Digit(n % 10)]
  }

  /** The value of a string of decimal digits (leading zeros allowed). */
  function DigitsValue(s: string): nat
    requires IsDigits(s)
  {
    if |s| == 0 then 0 else DigitsValue(s[..|s| - 1]) * 10 + DigitValue(s[|s| - 1])
  }

  /** `int(s)` restricted to plain decimal strings; `None` stands for the
      ValueError Python raises on anything else. */
  function ParseNat(s: string): (r: Option<nat>)
    ensures r.Some? <==> |s| > 0 && IsDigits(s)
  {
    if |s| > 0 && IsDigits(s) then Some(DigitsValue(s)) else None
  }

  /** Parsing the rendering of a number gives the number back. */
  lemma {:induction false} ParseNatToString(n: nat)
    ensures ParseNat(NatToString(n)) == Some(n)
  {
    var s := NatToString(n);
    var d := n % 10;
    DigitValueOfDigit(d);
    if n < 10 {
      assert s == [] + [Digit(d)];
      DigitsValueSnoc([], Digit(d));
    } else {
      var p := NatToString(n / 10);
      assert s == p + [Digit(d)];
      DigitsValueSnoc(p, Digit(d));
      ParseNatToString(n / 10);
      assert DigitsValue(p) == n / 10;
    }
  }

  lemma DigitValueOfDigit(d: nat)
    requires d < 10
    ensures DigitValue(Digit(d)) == d
  {
  }

  /** The value of digits followed by one more digit. */
  lemma DigitsValueSnoc(p: string, c: char)
    requires IsDigits(p) && IsDigit(c)
    ensures IsDigits(p + [c])
    ensures DigitsValue(p + [c]) == DigitsValue(p) * 10 + DigitValue(c)
  {
    var s := p + [c];
    assert s[..|s| - 1] == p;
    assert s[|s| - 1] == c;
  }

  /** Distinct numbers have distinct renderings. */
  lemma NatToStringInjective(a: nat, b: nat)
    ensures NatToString(a) == NatToString(b) ==> a == b
  {
    ParseNatToString(a);
    ParseNatToString(b);
  }

  predicate StartsWith(s: string, prefix: string) {
    |prefix| <= |s| && s[..|prefix|] == prefix
  }

  predicate EndsWith(s: string, suffix: string) {
    |suffix| <= |s| && s[|s| - |suffix|..] == suffix
  }
  /** Length of the longest all-digit prefix of `s`. */
  function DigitPrefixLength(s: string): (k: nat)
    ensures k <= |s|
    ensures forall i | 0 <= i < k :: IsDigit(s[i])
    ensures k < |s| ==> !IsDigit(s[k])
  {
    if |s| > 0 && IsDigit(s[0]) then 1 + DigitPrefixLength(s[1..]) else 0
  }

  /** The digit prefix of digits followed by a non-digit is those digits. */
  lemma {:induction false} DigitPrefixOf(digits: string, rest: string)
    requires IsDigits(digits)
    requires |rest| > 0 && !IsDigit(rest[0])
    ensures DigitPrefixLength(digits + rest) == |digits|
  {
    if |digits| > 0 {
      assert (digits + rest)[1..] == digits[1..] + rest;
      DigitPrefixOf(digits[1..], rest);
    }
  }

  /** `sub in s` for Python strings. */
  predicate Contains(s: string, sub: string) {
    exists i | 0 <= i <= |s| :: OccursAt(s, sub, i)
  }

  predicate OccursAt(s: string, sub: string, i: nat) {
    i + |sub| <= |s| && s[i..i + |sub|] == sub
  }

  lemma ContainsMiddle(a: string, sub: string, b: string)
    ensures Contains(a + sub + b, sub)
  {
    var s := a + sub + b;
    assert s[|a|..|a| + |sub|] == sub;
    assert OccursAt(s, sub, |a|);
  }

  /** A text assembled from six parts contains its first, third and fifth. */
  lemma ContainsParts(a: string, b: string, c: string, d: string, e: string, f: string)
    ensures Contains(a + b + c + d + e + f, a)
    ensures Contains(a + b + c + d + e + f, c)
    ensures Contains(a + b + c + d + e + f, e)
  {
    var m := a + b + c + d + e + f;
    assert m == [] + a + (b + c + d + e + f);
    ContainsMiddle([], a, b + c + d + e + f);
    assert m == (a + b) + c + (d + e + f);
    ContainsMiddle(a + b, c, d + e + f);
    assert m == (a + b + c + d) + e + f;
    ContainsMiddle(a + b + c + d, e, f);
  }
}

=== FILE: submission_form.dfy ===
/** The base submission form: the problem selector and its choices, the
    instances whose controllers adjust the form, the `data-submit` tagging of
    fields, and the ordered checks of `clean`. Controller hooks (submission
    limits, permissions, allowed languages, answer validation) are
    parameters. */
module SubmissionForm {

  import opened Results
  import opened Strings
  import opened FormFields

  const ProblemInstanceIdField: string := "problem_instance_id"
  const DefaultTag: string := "default"

  /** A problem instance: its id, its contest, its display text and its
      problem's name. */
  datatype ProblemInstance = ProblemInstance(id: nat, contest: Option<nat>, display: string, problemName: string)

  /** The problem selector's choices: the instances, preceded by a blank
      choice when there is more than one. */
  function InstanceChoices(pis: seq<ProblemInstance>): (r: seq<Choice>)
    ensures |r| == |pis| + (if |pis| > 1 then 1 else 0)
    ensures |pis| > 1 ==> r[0] == Choice("", "")
    ensures var k := if |pis| > 1 then 1 else 0;
      forall i | 0 <= i < |pis| :: r[i + k] == Choice(NatToString(pis[i].id), pis[i].display)
    ensures forall c | c in r :: c.value == "" <==> c == Choice("", "") && |pis| > 1
  {
    var listed := seq(|pis|, i requires 0 <= i < |pis| => Choice(NatToString(pis[i].id), pis[i].display));
    assert forall c | c in listed :: c.value != "";
    if |pis| > 1 then [Choice("", "")] + listed else listed
  }

  datatype InitError = NoContest | NoInstances

  /** The instance the form is built for and the instances whose controllers
      adjust it: an explicit instance alone, or else every instance of the
      request's contest, the first one being the form's. A request without a
      contest fails its assertion; a contest without instances has no first
      one. */
  function SelectInstances(explicit: Option<ProblemInstance>, contest: Option<nat>, all: seq<ProblemInstance>): (r: Result<(ProblemInstance, seq<ProblemInstance>), InitError>)
    ensures explicit.Some? ==> r == Ok((explicit.value, [explicit.value]))
    ensures explicit.None? && contest.None? ==> r == Err(NoContest)
    ensures explicit.None? && contest.Some? ==>
      && (r.Err? <==> forall pi | pi in all :: pi.contest != contest)
      && (r.Ok? ==> r.value.1 == InContest(all, contest.value) && r.value.0 == r.value.1[0])
  {
    match explicit
    case Some(pi) => Ok((pi, [pi]))
    case None =>
      match contest
      case None => Err(NoContest)
      case Some(c) =>
        var pis := InContest(all, c);
        assert |pis| > 0 ==> pis[0] in pis;
        if |pis| == 0 then Err(NoInstances) else Ok((pis[0], pis))
  }

  /** `ProblemInstance.objects.filter(contest=c)`, in table order. */
  function InContest(all: seq<ProblemInstance>, c: nat): (r: seq<ProblemInstance>)
    ensures forall pi :: pi in r <==> pi in all && pi.contest == Some(c)
  {
    if |all| == 0 then []
    else
      assert forall x | x in all :: x == all[0] || x in all[1..];
      (if all[0].contest == Some(c) then [all[0]] else []) + InContest(all[1..], c)
  }

  /** `_set_default_fields_attributes`: every field but the problem selector
      that has no tag yet is tagged "default". */
  function SetDefaultFieldsAttributes(fs: Fields): (r: Fields)
    ensures Names(r) == Names(fs)
    ensures forall i | 0 <= i < |fs| :: r[i].1 == DefaultTagged(fs[i].0, fs[i].1)
  {
    seq(|fs|, i requires 0 <= i < |fs| => (fs[i].0, DefaultTagged(fs[i].0, fs[i].1)))
  }

  function DefaultTagged(name: string, f: Field): Field {
    if name == ProblemInstanceIdField || f.tag.Some? then f else f.(tag := Some(DefaultTag))
  }

  /** After default tagging, the problem selector is as it was, a field that
      had a tag keeps it, and every other field is tagged "default"; nothing
      but tags changes. */
  lemma DefaultTagging(fs: Fields, i: nat)
    requires i < |fs|
    ensures var g := SetDefaultFieldsAttributes(fs)[i].1;
      && g == fs[i].1.(tag := g.tag)
      && (fs[i].0 == ProblemInstanceIdField ==> g == fs[i].1)
      && (fs[i].1.tag.Some? ==> g.tag == fs[i].1.tag)
      && (fs[i].0 != ProblemInstanceIdField ==> g.tag.Some?)
      && (fs[i].0 != ProblemInstanceIdField && fs[i].1.tag.None? ==> g.tag == Some(DefaultTag))
  {
  }

  /** Default tagging twice is default tagging once. */
  lemma DefaultTaggingIdempotent(fs: Fields)
    ensures SetDefaultFieldsAttributes(SetDefaultFieldsAttributes(fs)) == SetDefaultFieldsAttributes(fs)
  {
    var once := SetDefaultFieldsAttributes(fs);
    var twice := SetDefaultFieldsAttributes(once);
    assert forall i | 0 <= i < |fs| :: twice[i] == once[i];
  }

  /** Builds the form: the selector's choices from the submittable
      instances, then every adjusting instance's controller puts its fields
      (in order), then default tagging. `adjust` stands for the controller's
      `adjust_submission_form`. The form holds the declared fields and every
      field a controller puts; a field no controller puts is the declared one
      (the selector with the submittable instances as its choices), and one
      that controllers put is what the last of them put; all of them default
      tagged. */
  function BuildForm(declared: Fields, submittable: seq<ProblemInstance>, adjusting: seq<ProblemInstance>,
                     adjust: ProblemInstance -> Fields): (r: Fields)
    requires UniqueNames(declared) && ProblemInstanceIdField in Names(declared)
    ensures UniqueNames(r)
    ensures forall n :: n in Names(r) <==>
      n in Names(declared) || exists i | 0 <= i < |adjusting| :: n in Names(adjust(adjusting[i]))
    ensures Lookup(r, ProblemInstanceIdField).Some?
    ensures forall n | n in Names(r) && n != ProblemInstanceIdField :: Lookup(r, n).value.tag.Some?
    ensures (forall i | 0 <= i < |adjusting| :: ProblemInstanceIdField !in Names(adjust(adjusting[i]))) ==>
      Lookup(r, ProblemInstanceIdField)
        == Some(Lookup(declared, ProblemInstanceIdField).value.(choices := InstanceChoices(submittable)))
    ensures forall n | n in Names(declared) && n != ProblemInstanceIdField
                       && (forall i | 0 <= i < |adjusting| :: n !in Names(adjust(adjusting[i]))) ::
      Lookup(r, n) == Some(DefaultTagged(n, Lookup(declared, n).value))
    ensures forall n, i | 0 <= i < |adjusting| && n in Names(adjust(adjusting[i]))
                          && (forall j | i < j < |adjusting| :: n !in Names(adjust(adjusting[j]))) ::
      Lookup(r, n) == Some(DefaultTagged(n, LastValue(adjust(adjusting[i]), n)))
  {
    var selector := Lookup(declared, ProblemInstanceIdField).value;
    var fs := Put(declared, ProblemInstanceIdField, selector.(choices := InstanceChoices(submittable)));
    var adjusted := Adjust(fs, adjusting, adjust);
    DefaultTaggedLookups(adjusted);
    AdjustLookups(fs, adjusting, adjust);
    TaggedLastValues(fs, adjusting, adjust);
    SetDefaultFieldsAttributes(adjusted)
  }

  /** After tagging, a field some instance adjusts holds the tagged value
      the last such instance gives it. */
  lemma TaggedLastValues(fs: Fields, adjusting: seq<ProblemInstance>, adjust: ProblemInstance -> Fields)
    requires UniqueNames(fs)
    ensures forall n, i | 0 <= i < |adjusting| && n in Names(adjust(adjusting[i]))
                          && (forall j | i < j < |adjusting| :: n !in Names(adjust(adjusting[j]))) ::
      Lookup(SetDefaultFieldsAttributes(Adjust(fs, adjusting, adjust)), n)
        == Some(DefaultTagged(n, LastValue(adjust(adjusting[i]), n)))
  {
    var adjusted := Adjust(fs, adjusting, adjust);
    DefaultTaggedLookups(adjusted);
    forall n, i | 0 <= i < |adjusting| && n in Names(adjust(adjusting[i]))
                  && (forall j | i < j < |adjusting| :: n !in Names(adjust(adjusting[j])))
      ensures Lookup(SetDefaultFieldsAttributes(adjusted), n) == Some(DefaultTagged(n, LastValue(adjust(adjusting[i]), n)))
    {
      AdjustLast(fs, adjusting, adjust, n, i);
      assert n in Names(adjusted);
    }
  }

  lemma DefaultTaggedLookups(fs: Fields)
    requires UniqueNames(fs)
    ensures UniqueNames(SetDefaultFieldsAttributes(fs))
    ensures forall n | n in Names(fs) :: Lookup(SetDefaultFieldsAttributes(fs), n) == Some(DefaultTagged(n, Lookup(fs, n).value))
  {
    var r := SetDefaultFieldsAttributes(fs);
    forall n | n in Names(fs)
      ensures Lookup(r, n) == Some(DefaultTagged(n, Lookup(fs, n).value))
    {
      var i :| 0 <= i < |fs| && fs[i].0 == n;
      LookupAt(fs, i);
      LookupAt(r, i);
    }
  }

  /** Each adjusting instance's fields, put in order. */
  function Adjust(fs: Fields, adjusting: seq<ProblemInstance>, adjust: ProblemInstance -> Fields): (r: Fields)
    requires UniqueNames(fs)
    ensures UniqueNames(r)
    ensures forall n :: n in Names(r) <==>
      n in Names(fs) || exists i | 0 <= i < |adjusting| :: n in Names(adjust(adjusting[i]))
    decreases |adjusting|
  {
    if |adjusting| == 0 then fs
    else
      var rest := adjusting[1..];
      assert forall i | 0 <= i < |rest| :: rest[i] == adjusting[i + 1];
      assert forall n | exists i | 0 <= i < |adjusting| :: n in Names(adjust(adjusting[i])) ::
        n in Names(adjust(adjusting[0])) || exists i | 0 <= i < |rest| :: n in Names(adjust(rest[i]));
      Adjust(PutAll(fs, adjust(adjusting[0])), rest, adjust)
  }

  /** `fs.update(extra)`: the entries of `extra` put in order, so that the
      last entry of a name wins. */
  function PutAll(fs: Fields, extra: Fields): (r: Fields)
    requires UniqueNames(fs)
    ensures UniqueNames(r)
    ensures forall n :: n in Names(r) <==> n in Names(fs) || n in Names(extra)
    ensures forall n :: Lookup(r, n) == if n in Names(extra) then Some(LastValue(extra, n)) else Lookup(fs, n)
    decreases |extra|
  {
    if |extra| == 0 then fs
    else
      assert Names(extra) == [extra[0].0] + Names(extra[1..]);
      PutAll(Put(fs, extra[0].0, extra[0].1), extra[1..])
  }

  /** The field of the last entry of `extra` named `n`. */
  function LastValue(extra: Fields, n: string): (f: Field)
    requires n in Names(extra)
    ensures exists i | 0 <= i < |extra| :: extra[i] == (n, f) && forall j | i < j < |extra| :: extra[j].0 != n
  {
    assert Names(extra) == [extra[0].0] + Names(extra[1..]);
    if n in Names(extra[1..]) then
      var f := LastValue(extra[1..], n);
      var i :| 0 <= i < |extra[1..]| && extra[1..][i] == (n, f) && forall j | i < j < |extra[1..]| :: extra[1..][j].0 != n;
      assert extra[i + 1] == (n, f);
      f
    else
      assert forall j | 0 < j < |extra| :: extra[j].0 == Names(extra[1..])[j - 1];
      extra[0].1
  }

  /** The field under each name after adjusting: what the last controller
      that puts the name put, or the field as it was when no controller puts
      it. */
  lemma AdjustLookups(fs: Fields, adjusting: seq<ProblemInstance>, adjust: ProblemInstance -> Fields)
    requires UniqueNames(fs)
    ensures forall n | forall i | 0 <= i < |adjusting| :: n !in Names(adjust(adjusting[i])) ::
      Lookup(Adjust(fs, adjusting, adjust), n) == Lookup(fs, n)
    ensures forall n, i | 0 <= i < |adjusting| && n in Names(adjust(adjusting[i]))
                          && (forall j | i < j < |adjusting| :: n !in Names(adjust(adjusting[j]))) ::
      Lookup(Adjust(fs, adjusting, adjust), n) == Some(LastValue(adjust(adjusting[i]), n))
  {
    forall n {
      AdjustLookup(fs, adjusting, adjust, n);
    }
  }

  lemma {:induction false} AdjustLookup(fs: Fields, adjusting: seq<ProblemInstance>, adjust: ProblemInstance -> Fields, n: string)
    requires UniqueNames(fs)
    ensures (forall i | 0 <= i < |adjusting| :: n !in Names(adjust(adjusting[i]))) ==>
      Lookup(Adjust(fs, adjusting, adjust), n) == Lookup(fs, n)
    ensures forall i | 0 <= i < |adjusting| && n in Names(adjust(adjusting[i]))
                       && (forall j | i < j < |adjusting| :: n !in Names(adjust(adjusting[j]))) ::
      Lookup(Adjust(fs, adjusting, adjust), n) == Some(LastValue(adjust(adjusting[i]), n))
  {
    if forall i | 0 <= i < |adjusting| :: n !in Names(adjust(adjusting[i])) {
      AdjustUntouched(fs, adjusting, adjust, n);
    }
    forall i | 0 <= i < |adjusting| && n in Names(adjust(adjusting[i]))
               && (forall j | i < j < |adjusting| :: n !in Names(adjust(adjusting[j])))
      ensures Lookup(Adjust(fs, adjusting, adjust), n) == Some(LastValue(adjust(adjusting[i]), n))
    {
      AdjustLast(fs, adjusting, adjust, n, i);
    }
  }

  /** A field no adjusting instance names keeps its value. */
  lemma {:induction false} AdjustUntouched(fs: Fields, adjusting: seq<ProblemInstance>, adjust: ProblemInstance -> Fields, n: string)
    requires UniqueNames(fs)
    requires forall i | 0 <= i < |adjusting| :: n !in Names(adjust(adjusting[i]))
    ensures Lookup(Adjust(fs, adjusting, adjust), n) == Lookup(fs, n)
    decreases |adjusting|
  {
    if |adjusting| > 0 {
      var rest := adjusting[1..];
      assert forall i | 0 <= i < |rest| :: rest[i] == adjusting[i + 1];
      var fs' := PutAll(fs, adjust(adjusting[0]));
      assert Adjust(fs, adjusting, adjust) == Adjust(fs', rest, adjust);
      AdjustUntouched(fs', rest, adjust, n);
    }
  }

  /** A field takes the value the last adjusting instance naming it gives. */
  lemma {:induction false} AdjustLast(fs: Fields, adjusting: seq<ProblemInstance>, adjust: ProblemInstance -> Fields, n: string, i: nat)
    requires UniqueNames(fs) && i < |adjusting| && n in Names(adjust(adjusting[i]))
    requires forall j | i < j < |adjusting| :: n !in Names(adjust(adjusting[j]))
    ensures Lookup(Adjust(fs, adjusting, adjust), n) == Some(LastValue(adjust(adjusting[i]), n))
    decreases |adjusting|
  {
    var rest := adjusting[1..];
    var fs' := PutAll(fs, adjust(adjusting[0]));
    assert Adjust(fs, adjusting, adjust) == Adjust(fs', rest, adjust);
    assert forall j | 0 <= j < |rest| :: rest[j] == adjusting[j + 1];
    if i == 0 {
      AdjustUntouched(fs', rest, adjust, n);
    } else {
      AdjustLast(fs', rest, adjust, n, i - 1);
    }
  }

  /** The form for one given instance: it alone is offered and it alone
      adjusts the form. */
  function FormForProblemInstance(declared: Fields, pi: ProblemInstance, adjust: ProblemInstance -> Fields): (r: Fields)
    requires UniqueNames(declared) && ProblemInstanceIdField in Names(declared)
    ensures UniqueNames(r)
  {
    BuildForm(declared, [pi], [pi], adjust)
  }

  /** A form for one instance offers exactly that instance, with no blank
      choice. */
  lemma SingleInstanceSelector(declared: Fields, pi: ProblemInstance, adjust: ProblemInstance -> Fields)
    requires UniqueNames(declared) && ProblemInstanceIdField in Names(declared)
    requires ProblemInstanceIdField !in Names(adjust(pi))
    ensures Lookup(FormForProblemInstance(declared, pi, adjust), ProblemInstanceIdField).value.choices
         == [Choice(NatToString(pi.id), pi.display)]
  {
    assert InstanceChoices([pi]) == [Choice(NatToString(pi.id), pi.display)];
  }

  // ---- clean ----

  const KindField: string := "kind"
  const ProblemInstanceField: string := "problem_instance"
  const ProgLangField: string := "prog_lang"
  const InvalidProblemMessage: string := "Invalid problem"
  const PermissionDeniedMessage: string := "Permission denied"
  const DisallowedLanguageMessage: string := "Disallowed language"

  /** The message of a submission-limit refusal. */
  function LimitMessage(problemName: string): string {
    "Submission limit for the problem '" + problemName + "' exceeded."
  }

  /** What `can_submit` answers: a refusal may carry its own message. */
  datatype Decision = Allowed | Denied(exc: Option<string>)

  /** The outcome of `clean`: the cleaned data with the form's errors, a
      form-wide validation error, or a crash. */
  datatype CleanOutcome =
    | Cleaned(errors: Errors, data: Data)
    | Rejected(message: string)
    | Crashed(missing: string)

  /** The controller hooks `clean` consults, in order: the problem
      controller's submission limit, the instance controller's permission
      decision, its allowed languages and its own validation. */
  datatype Hooks = Hooks(
    limitExceeded: (ProblemInstance, Value) -> bool,
    canSubmit: (ProblemInstance, bool) -> Decision,
    allowedLanguages: ProblemInstance -> seq<string>,
    validate: (ProblemInstance, Errors, Data) -> CleanOutcome)

  /** Python truthiness of a cleaned value. */
  predicate Truthy(v: Value) {
    match v
    case Text(t) => t != ""
    case Texts(items) => items != []
    case InstanceRef(_) => true
    case Null => false
  }

  /** The instance a selector value names, by id. */
  function FindInstance(db: seq<ProblemInstance>, v: Value): (r: Option<ProblemInstance>)
    ensures r.Some? ==> r.value in db && v == Text(NatToString(r.value.id))
    ensures r.None? ==> forall pi | pi in db :: v != Text(NatToString(pi.id))
  {
    if |db| == 0 then None
    else if v == Text(NatToString(db[0].id)) then Some(db[0])
    else
      assert forall pi | pi in db :: pi == db[0] || pi in db[1..];
      FindInstance(db[1..], v)
  }

  /** The cleaned data with the form's default kind when none was given. */
  function WithKind(data: Data, kind: string): (r: Data)
    ensures r.Keys == data.Keys + {KindField}
    ensures forall k | k in data :: r[k] == data[k]
    ensures KindField !in data ==> r[KindField] == Text(kind)
  {
    if KindField in data then data else data[KindField := Text(kind)]
  }

  /** `clean`: default the kind; without a selected problem stop there; an
      unknown problem is a field error; then, in order, the submission limit
      and the permission decision raise, a disallowed language is a field
      error, and what is left is the controller's to validate. A missing
      language entry is a crash. */
  function Clean(db: seq<ProblemInstance>, kind: string, errors: Errors, data: Data,
                 checkLimit: bool, checkRoundTimes: bool, hooks: Hooks): (r: CleanOutcome)
    ensures ProblemInstanceIdField !in data ==> r == Cleaned(errors, WithKind(data, kind))
    ensures ProblemInstanceIdField in data && FindInstance(db, data[ProblemInstanceIdField]).None? ==>
      r == Cleaned(errors[ProblemInstanceIdField := [InvalidProblemMessage]], WithKind(data, kind) - {ProblemInstanceIdField})
  {
    var d := WithKind(data, kind);
    if ProblemInstanceIdField !in d then Cleaned(errors, d)
    else
      match FindInstance(db, d[ProblemInstanceIdField])
      case None =>
        Cleaned(errors[ProblemInstanceIdField := [InvalidProblemMessage]], d - {ProblemInstanceIdField})
      case Some(pi) => CleanFor(pi, errors, d[ProblemInstanceField := InstanceRef(pi.id)], checkLimit, checkRoundTimes, hooks)
  }

  /** The checks of `clean` once the instance is known. */
  function CleanFor(pi: ProblemInstance, errors: Errors, d: Data, checkLimit: bool, checkRoundTimes: bool, hooks: Hooks): (r: CleanOutcome)
    requires KindField in d
  {
    if checkLimit && hooks.limitExceeded(pi, d[KindField]) then Rejected(LimitMessage(pi.problemName))
    else if hooks.canSubmit(pi, checkRoundTimes).Denied? then
      var exc := hooks.canSubmit(pi, checkRoundTimes).exc;
      Rejected(if exc.Some? then exc.value else PermissionDeniedMessage)
    else if ProgLangField !in d then Crashed(ProgLangField)
    else if Truthy(d[ProgLangField]) && !LanguageAllowed(d[ProgLangField], hooks.allowedLanguages(pi)) then
      Cleaned(errors[ProgLangField := [DisallowedLanguageMessage]], d - {ProgLangField})
    else hooks.validate(pi, errors, d)
  }

  /** `lang in allowed` for a cleaned value: only a text can be listed. */
  predicate LanguageAllowed(v: Value, allowed: seq<string>) {
    v.Text? && v.text in allowed
  }

  /** Every check `clean` makes on a known instance passed. */
  predicate ChecksPass(pi: ProblemInstance, d: Data, checkLimit: bool, checkRoundTimes: bool, hooks: Hooks)
    requires KindField in d
  {
    && !(checkLimit && hooks.limitExceeded(pi, d[KindField]))
    && hooks.canSubmit(pi, checkRoundTimes).Allowed?
    && ProgLangField in d
    && (!Truthy(d[ProgLangField]) || LanguageAllowed(d[ProgLangField], hooks.allowedLanguages(pi)))
  }

  /** The data `clean` hands on for a known instance. */
  function Selected(pi: ProblemInstance, data: Data, kind: string): (r: Data)
    ensures KindField in r && ProblemInstanceField in r && r[ProblemInstanceField] == InstanceRef(pi.id)
  {
    WithKind(data, kind)[ProblemInstanceField := InstanceRef(pi.id)]
  }

  /** The controller's validation runs exactly when the problem is known and
      every check passed, and then it has the last word; a selected problem
      that is unknown never reaches any hook. */
  lemma ValidateOnlyAfterChecks(db: seq<ProblemInstance>, kind: string, errors: Errors, data: Data,
                                checkLimit: bool, checkRoundTimes: bool, hooks: Hooks, pi: ProblemInstance)
    requires ProblemInstanceIdField in data && FindInstance(db, data[ProblemInstanceIdField]) == Some(pi)
    ensures var d := Selected(pi, data, kind);
      ChecksPass(pi, d, checkLimit, checkRoundTimes, hooks) ==>
        Clean(db, kind, errors, data, checkLimit, checkRoundTimes, hooks) == hooks.validate(pi, errors, d)
  {
  }

  /** A refusal comes from the first failing check: the submission limit
      (when checked) is consulted before the permission decision, and the
      permission decision before the language. */
  lemma RefusalOrder(db: seq<ProblemInstance>, kind: string, errors: Errors, data: Data,
                     checkLimit: bool, checkRoundTimes: bool, hooks: Hooks, pi: ProblemInstance)
    requires ProblemInstanceIdField in data && FindInstance(db, data[ProblemInstanceIdField]) == Some(pi)
    ensures var d := Selected(pi, data, kind);
      var r := Clean(db, kind, errors, data, checkLimit, checkRoundTimes, hooks);
      && (checkLimit && hooks.limitExceeded(pi, d[KindField]) ==> r == Rejected(LimitMessage(pi.problemName)))
      && (!(checkLimit && hooks.limitExceeded(pi, d[KindField])) && hooks.canSubmit(pi, checkRoundTimes) == Denied(None)
        ==> r == Rejected(PermissionDeniedMessage))
      && (!(checkLimit && hooks.limitExceeded(pi, d[KindField])) && hooks.canSubmit(pi, checkRoundTimes).Denied?
            && hooks.canSubmit(pi, checkRoundTimes).exc.Some?
        ==> r == Rejected(hooks.canSubmit(pi, checkRoundTimes).exc.value))
  {
  }

  /** A disallowed language leaves the controller's validation out: the
      language is dropped with a field error, and nothing else changes. */
  lemma DisallowedLanguageStops(db: seq<ProblemInstance>, kind: string, errors: Errors, data: Data,
                                checkLimit: bool, checkRoundTimes: bool, hooks: Hooks, pi: ProblemInstance)
    requires ProblemInstanceIdField in data && FindInstance(db, data[ProblemInstanceIdField]) == Some(pi)
    requires var d := Selected(pi, data, kind);
      && !(checkLimit && hooks.limitExceeded(pi, d[KindField]))
      && hooks.canSubmit(pi, checkRoundTimes).Allowed?
      && ProgLangField in data
      && Truthy(data[ProgLangField]) && !LanguageAllowed(data[ProgLangField], hooks.allowedLanguages(pi))
    ensures var r := Clean(db, kind, errors, data, checkLimit, checkRoundTimes, hooks);
      && r.Cleaned?
      && r.errors == errors[ProgLangField := [DisallowedLanguageMessage]]
      && ProgLangField !in r.data
      && forall k | k in Selected(pi, data, kind) && k != ProgLangField :: k in r.data && r.data[k] == Selected(pi, data, kind)[k]
  {
    assert Selected(pi, data, kind)[ProgLangField] == data[ProgLangField];
  }

  /** A known, permitted submission whose data has no language entry at all
      crashes on the lookup. */
  lemma MissingLanguageCrashes(db: seq<ProblemInstance>, kind: string, errors: Errors, data: Data,
                               checkLimit: bool, checkRoundTimes: bool, hooks: Hooks, pi: ProblemInstance)
    requires ProblemInstanceIdField in data && FindInstance(db, data[ProblemInstanceIdField]) == Some(pi)
    requires !(checkLimit && hooks.limitExceeded(pi, Selected(pi, data, kind)[KindField]))
    requires hooks.canSubmit(pi, checkRoundTimes).Allowed? && ProgLangField !in data
    ensures Clean(db, kind, errors, data, checkLimit, checkRoundTimes, hooks) == Crashed(ProgLangField)
  {
  }

  /** Without the submission-limit check the limit hook is never consulted. */
  lemma UncheckedLimitIgnored(db: seq<ProblemInstance>, kind: string, errors: Errors, data: Data,
                              checkRoundTimes: bool, hooks: Hooks, other: (ProblemInstance, Value) -> bool)
    ensures Clean(db, kind, errors, data, false, checkRoundTimes, hooks)
         == Clean(db, kind, errors, data, false, checkRoundTimes, hooks.(limitExceeded := other))
  {
  }

  /** A refusal names a failing check: either the limit, a permission
      message, or the controller's own validation refused. */
  lemma RejectedOnlyByAFailingCheck(db: seq<ProblemInstance>, kind: string, errors: Errors, data: Data,
                                    checkLimit: bool, checkRoundTimes: bool, hooks: Hooks)
    requires Clean(db, kind, errors, data, checkLimit, checkRoundTimes, hooks).Rejected?
    ensures ProblemInstanceIdField in data
    ensures var pi := FindInstance(db, data[ProblemInstanceIdField]);
      && pi.Some?
      && var d := Selected(pi.value, data, kind);
      || (checkLimit && hooks.limitExceeded(pi.value, d[KindField]))
      || hooks.canSubmit(pi.value, checkRoundTimes).Denied?
      || (ChecksPass(pi.value, d, checkLimit, checkRoundTimes, hooks) && hooks.validate(pi.value, errors, d).Rejected?)
  {
  }
}

=== FILE: submit_script.dfy ===
/** The submit page's script: which field groups are shown for the problem
    instance picked in the selector. Field i of the page carries the
    `data-submit` tag `tags[i]` (or none) and is shown when `visible[i]`. */
module SubmitScript {

  import opened Results

  const DefaultTag: string := "default"

  /** Some field is tagged for exactly this id. */
  predicate HasCustomFields(tags: seq<Option<string>>, id: string) {
    exists j | 0 <= j < |tags| :: tags[j] == Some(id)
  }

  /** The visibility of field i after selecting `id`: untagged fields keep
      their state; of the tagged ones, those tagged `id` are shown when there
      are any, and otherwise those tagged "default". */
  predicate ShownAfter(id: string, tags: seq<Option<string>>, visible: seq<bool>, i: nat)
    requires |tags| == |visible| && i < |tags|
  {
    if tags[i].None? then visible[i]
    else if HasCustomFields(tags, id) then tags[i] == Some(id)
    else tags[i] == Some(DefaultTag)
  }

  /** The visibility of every field after selecting `id`. */
  function Select(id: string, tags: seq<Option<string>>, visible: seq<bool>): (r: seq<bool>)
    requires |tags| == |visible|
    ensures |r| == |tags|
    ensures forall i | 0 <= i < |r| :: r[i] == ShownAfter(id, tags, visible, i)
  {
    seq(|tags|, i requires 0 <= i < |tags| => ShownAfter(id, tags, visible, i))
  }

  /** `setFormToProblemInstance`: look for fields tagged with the id, hide
      every tagged field, then show the custom fields or, failing those, the
      default ones. */
  method SetFormToProblemInstance(id: string, tags: seq<Option<string>>, visible: seq<bool>) returns (r: seq<bool>)
    requires |tags| == |visible|
    ensures r == Select(id, tags, visible)
  {
    var custom := false;
    var j := 0;
    while j < |tags|
      invariant 0 <= j <= |tags|
      invariant custom <==> exists k | 0 <= k < j :: tags[k] == Some(id)
    {
      if tags[j] == Some(id) {
        custom := true;
      }
      j := j + 1;
    }
    var shown := if custom then id else DefaultTag;
    r := visible;
    var i := 0;
    while i < |tags|
      invariant 0 <= i <= |tags| && |r| == |tags|
      invariant forall k | 0 <= k < i :: r[k] == ShownAfter(id, tags, visible, k)
      invariant forall k | i <= k < |tags| :: r[k] == visible[k]
    {
      if tags[i].Some? {
        r := r[i := tags[i] == Some(shown)];
      }
      i := i + 1;
    }
  }

  /** What is shown depends only on the last selection: every earlier one is
      overwritten, since all tagged fields are hidden first. */
  lemma LastSelectionWins(a: string, b: string, tags: seq<Option<string>>, visible: seq<bool>)
    requires |tags| == |visible|
    ensures Select(b, tags, Select(a, tags, visible)) == Select(b, tags, visible)
  {
    var once := Select(a, tags, visible);
    assert forall i | 0 <= i < |tags| :: Select(b, tags, once)[i] == Select(b, tags, visible)[i];
  }

  /** Selecting an instance without custom fields looks exactly like the
      page as it starts, with the default fields shown. */
  lemma NoCustomFieldsShowsDefault(id: string, tags: seq<Option<string>>, visible: seq<bool>)
    requires |tags| == |visible| && !HasCustomFields(tags, id)
    ensures Select(id, tags, visible) == Select(DefaultTag, tags, visible)
  {
    assert forall i | 0 <= i < |tags| :: Select(id, tags, visible)[i] == Select(DefaultTag, tags, visible)[i];
  }

  /** Untagged fields are never shown or hidden by a selection. */
  lemma UntaggedUnaffected(id: string, tags: seq<Option<string>>, visible: seq<bool>, i: nat)
    requires |tags| == |visible| && i < |tags| && tags[i].None?
    ensures Select(id, tags, visible)[i] == visible[i]
  {
  }

  /** A field tagged for an instance is shown exactly when that instance is
      selected; a default field is shown exactly when the selected instance
      has no custom fields. */
  lemma TaggedVisibility(id: string, tags: seq<Option<string>>, visible: seq<bool>, i: nat)
    requires |tags| == |visible| && i < |tags|
    ensures tags[i] == Some(id) ==> Select(id, tags, visible)[i]
    ensures tags[i] == Some(DefaultTag) && id != DefaultTag ==>
      (Select(id, tags, visible)[i] <==> !HasCustomFields(tags, id))
    ensures tags[i].Some? && tags[i] != Some(id) && tags[i] != Some(DefaultTag) ==> !Select(id, tags, visible)[i]
  {
  }
}
